=== FILE: README.md ===
# JEDF client core, modelled in Dafny

JEDF is a Java client library for UA2, a bulletin-board server. Client and server
exchange EDF trees. An EDF element has a name, an optional string or 32-bit integer
value, and an ordered list of child elements. This project models the client's core as
pure functions over immutable data:

- the EDF tree (`EDFData`): its constructors, typed accessors, child lookup, the
  child cursor, value escaping, and the compact and indented text forms (modules
  `Edf`, `Escaping`, `EdfFormat`);
- a reference reader for the text form (`EdfParse`). The round trips are proved
  against it (`EdfRoundTrip`), and so are the parser tests (`EdfExamples`);
- the `UA` object registry and its process-wide single instance (`Registry`);
- the `UAConnection` state machine: connect with its handshake, send, read,
  error handling, disconnect, the reader loop and `sendAndRead` (`Connection`);
- the `AnnounceQueue` of server announcements (`Announce`);
- decoding of `Folder` and `User` replies (`Folders`, `Users`);
- `FolderList` and `UserList`: refresh, lookup and the case-insensitive sorted
  listing (`Listing`, `FolderLists`, `UserLists`, `CaseFold`);
- `Message`: reply, post and page (`Messages`);
- `UASession`: connect, login, user id, logout and the login banner (`Sessions`).

Sockets, threads and the server are not modelled. Each I/O step a method performs
becomes a parameter that says how that step went:

- `Outcome<string>` for a write, carrying the failure text;
- `Result<Node, string>` for a read;
- `Option<Node>` for a reply that may or may not arrive.

Java exceptions become the `UaError` values of `Errors`. A `NullPointerException` the
code can raise is modelled as `NullReference`. An `Error` it throws is modelled as
`Fatal`.

Where the library's own comments and its code disagree, the model follows the code:

- `connect` carries on after a failed handshake write.
- `UASession.connect` reports CONNECTED even when the connection failed inside.
- `logout` leaves the session status alone.
- `loginBanner` returns null, not "No banner", when the banner child holds no string.

## Model

| member | source | states |
|---|---|---|
| Edf.GetValue | src/org/ua2/edf/EDFData.java:66-74 | There is a value exactly when the element holds a string or an integer, and it is that value |
| Edf.GetString | src/org/ua2/edf/EDFData.java:76-82 | Succeeds exactly on a string element, giving its string; otherwise a type error naming the expected and the actual kind |
| Edf.GetInteger | src/org/ua2/edf/EDFData.java:84-90 | Succeeds exactly on an integer element, giving its integer; otherwise a type error naming the expected and the actual kind |
| Edf.ConstructorsAgreeWithAccessors | src/org/ua2/edf/EDFData.java:28-90 | Each constructor makes a childless element that its own accessor reads back; the other accessors report the right type error |
| Edf.Add | src/org/ua2/edf/EDFData.java:130-133 | Appends the child at the end; name, value and the earlier children are unchanged, and the count grows by one |
| Edf.AddValue | src/org/ua2/edf/EDFData.java:130-133 | The two-argument `add(name, value)`, taken to mean `add(new EDFData(name, value))`: the node keeps its name, value and earlier children, and gains one childless element with that name and value at the end |
| Edf.AddValueSelects | src/org/ua2/edf/EDFData.java:130-171 | After the two-argument `add`, `getChildren(name)` returns the old selection followed by the new element, and `getChildren` of any other name is unchanged |
| Edf.Matching | src/org/ua2/edf/EDFData.java:161-171 | The children with a given name, in order: an element is in the result exactly when it is a child with that name |
| Edf.FirstMatch | src/org/ua2/edf/EDFData.java:140-154 | Gives a child with the name, or nothing exactly when no child has that name |
| Edf.MatchingAppend | src/org/ua2/edf/EDFData.java:161-171 | Selecting by name distributes over concatenation of child lists |
| Edf.GetChildrenAfterAdd | src/org/ua2/edf/EDFData.java:130-171 | After `add`, `getChildren` returns the old selection plus the new child when its name matches |
| Edf.FirstMatchIsHeadOfMatching | src/org/ua2/edf/EDFData.java:140-171 | `getChild` is null exactly when `getChildren` is empty, and otherwise it is the first of them |
| Edf.FirstMatchAt | src/org/ua2/edf/EDFData.java:140-154 | When no earlier child has the name, the first match is the child at that position |
| Edf.GetChildIsFirstOfGetChildren | src/org/ua2/edf/EDFData.java:140-171 | On an element: `getChild` is null exactly when `getChildren` is empty, and otherwise it is the first of them |
| Edf.LastOfCons | src/org/ua2/clientlib/Folder.java:53-90 | When a field is read from repeated children, the last one wins |
| Edf.GetNext | src/org/ua2/edf/EDFData.java:113-124 | Gives the child under the cursor and advances it; past the end it gives null and leaves the cursor alone |
| Edf.Walk | src/org/ua2/edf/EDFData.java:113-124 | k calls of `getNext` give k results |
| Edf.WalkFrom | src/org/ua2/edf/EDFData.java:104-124 | The i-th call of `getNext` gives the child at the cursor plus i while one is left, and null after that |
| Edf.WalkAfterReset | src/org/ua2/edf/EDFData.java:104-124 | After `resetChild`, successive `getNext` calls give the children in order, then null |
| Escaping.EscapeChar | src/org/ua2/edf/EDFData.java:211-217 | A backslash or a quote gains a backslash in front; every other character is kept |
| Escaping.Escape | src/org/ua2/edf/EDFData.java:211-217 | `escape` equals the one-character-at-a-time reference `EscapeEach`: a backslash or a quote gains a backslash in front and every other character is kept |
| Escaping.Unescape | src/org/ua2/edf/EDFData.java:197-202 | `unescape` never lengthens its input, and text with no backslash or quote comes back unchanged |
| Escaping.EscapeQuotesAppend | src/org/ua2/edf/EDFData.java:211-217 | Escaping quotes works piece by piece |
| Escaping.EscapeIsPerCharacter | src/org/ua2/edf/EDFData.java:211-217 | The library's two replace passes equal escaping each character on its own |
| Escaping.EscapeEachNeverStartsWithQuote | src/org/ua2/edf/EDFData.java:211-217 | Escaped text is empty only for empty text, and it never opens with a bare quote |
| Escaping.UnescapeQuotesOfEscape | src/org/ua2/edf/EDFData.java:197-217 | Undoing the quote pass of the escaped text leaves the backslash-doubled text |
| Escaping.UndoubleOfDouble | src/org/ua2/edf/EDFData.java:197-217 | Undoubling backslashes undoes doubling them |
| Escaping.UnescapeEscape | src/org/ua2/edf/EDFData.java:197-217 | `unescape(escape(s)) == s` for every string |
| Escaping.EscapeShape | src/org/ua2/edf/EDFData.java:211-217 | Escaping adds one character per backslash or quote, changes nothing when there is none, and every quote in the output is preceded by a backslash |
| Escaping.NoSpecials | src/org/ua2/edf/EDFData.java:211-217 | The special count is zero exactly when the text holds no backslash or quote |
| EdfFormat.DigitChar | src/org/ua2/edf/EDFData.java:231 | Every digit a number is written with is a decimal digit character |
| EdfFormat.Compact | src/org/ua2/edf/EDFData.java:178-181 | The `toString` text of an element is at least `<`, the name and `/>` long, and it is `</>`, the text of a closing tag, exactly when the element is bare (no name, no value, no children) |
| EdfFormat.Pretty | src/org/ua2/edf/EDFData.java:219-260 | The `format(true)` text of an element starts with its indentation followed by `<`, and ends with the line end |
| EdfFormat.SafeAgreesWithoutBareNodes | src/org/ua2/edf/EDFData.java:219-260 | On a tree with no bare node, the unambiguous forms are exactly the library's compact and indented forms |
| EdfFormat.SafeAllAgreesWithoutBareNodes | src/org/ua2/edf/EDFData.java:225-260 | The same for a list of children |
| EdfFormat.CompactAllAppend | src/org/ua2/edf/EDFData.java:225-260 | The text of a child list is the concatenation of the children's texts |
| EdfFormat.CompactAfterAdd | src/org/ua2/edf/EDFData.java:130-133 | After `add`, the compact text holds the old children's text followed by the new child's text |
| EdfRoundTrip.DecodeCompactSafe | src/org/ua2/edf/EDFData.java:219-260 | Reading the unambiguous compact form gives back every tree whose names are readable |
| EdfRoundTrip.DecodeCompact | src/org/ua2/edf/EDFData.java:178-260 | Reading `toString()` gives back every tree with readable names and no bare node |
| EdfRoundTrip.DecodePrettySafe | src/org/ua2/edf/EDFData.java:225-260 | Reading the unambiguous indented form gives back every tree whose names are readable |
| EdfRoundTrip.DecodePretty | src/org/ua2/edf/EDFData.java:219-260 | Reading `format(true)` gives back every tree with readable names and no bare node |
| EdfRoundTrip.CompactSafeReadsBack | src/org/ua2/edf/EDFData.java:225-260 | One element's text reads back as that element, with whatever follows left unread |
| EdfRoundTrip.CompactSafeAllReadsBack | src/org/ua2/edf/EDFData.java:243-251 | A child list's text followed by a closing tag reads back as that list |
| EdfRoundTrip.PrettySafeReadsBack | src/org/ua2/edf/EDFData.java:225-260 | An indented element reads back as that element, leaving its line end |
| EdfRoundTrip.PrettySafeAllReadsBack | src/org/ua2/edf/EDFData.java:242-249 | An indented child list followed by its closing tag reads back as that list |
| EdfRoundTrip.ValueReadsBack | src/org/ua2/edf/EDFData.java:228-233 | A written value, string or integer, reads back as the same value |
| EdfRoundTrip.StringValueReadsBack | src/org/ua2/edf/EDFData.java:197-230 | A quoted, escaped string value reads back as the original string |
| EdfRoundTrip.IntegerValueReadsBack | src/org/ua2/edf/EDFData.java:231 | A written integer value reads back as the same integer |
| EdfRoundTrip.DecimalReadsBack | src/org/ua2/edf/EDFData.java:231 | The decimal text of any 32-bit integer, negative ones included, reads back as that integer |
| EdfRoundTrip.NatDecimalReadsBack | src/org/ua2/edf/EDFData.java:231 | Decimal text is a non-empty run of digits whose value is the number |
| EdfRoundTrip.ScanEscaped | src/org/ua2/edf/EDFData.java:211-230 | Reading a quoted string stops at the first quote that is not escaped, which is the closing one |
| EdfRoundTrip.TakeNameOf | src/org/ua2/edf/EDFData.java:226 | A readable name followed by a non-name character is read as exactly that name |
| EdfRoundTrip.TakeDigitsOf | src/org/ua2/edf/EDFData.java:231 | A digit run followed by a non-digit is read as exactly that run |
| EdfRoundTrip.CloseTagReadsBack | src/org/ua2/edf/EDFData.java:248-252 | Any closing tag, named or not, after any layout ends a child list |
| EdfRoundTrip.LeafReadsBack | src/org/ua2/edf/EDFData.java:226-255 | `<name=value/>` reads as a childless element |
| EdfRoundTrip.BranchReadsBack | src/org/ua2/edf/EDFData.java:226-252 | An opening tag followed by a readable child list reads as the element with those children |
| EdfRoundTrip.BareReadsBack | test/org/ua2/edf/ParserTest.java:17-26 | `<></>` reads as the bare element |
| EdfRoundTrip.ParseNodeSkipsLayout | src/org/ua2/edf/EDFData.java:238-258 | Line ends and indentation before an element do not change how it reads |
| EdfExamples.CompactBareChildIsMisread | src/org/ua2/edf/EDFData.java:226-254 | The compact text of `<a>` with one bare child does not read back: the bare child is taken for the closing tag |
| EdfExamples.BareChildLeavesText | src/org/ua2/edf/EDFData.java:226-254 | For any element name and value, the compact text of an element whose only child is bare is not a document: the closing tag is left over |
| EdfExamples.BareOnlyChildIsMisread | src/org/ua2/edf/EDFData.java:235-254 | A bare only child reads as its parent's closing tag, so the parent's own closing tag is left over |
| EdfExamples.LeftoverIsBare | src/org/ua2/edf/EDFData.java:251-254 | The text `</>` alone reads as a bare element |
| EdfExamples.ParseMinimal | test/org/ua2/edf/ParserTest.java:17-26 | `<></>` reads as an element with empty name and no value |
| EdfExamples.ParseBlankNameIntValue | test/org/ua2/edf/ParserTest.java:28-37 | `<=1/>` reads as the integer 1 under an empty name |
| EdfExamples.ParseBlankNameStrValue | test/org/ua2/edf/ParserTest.java:39-47 | `<="x"></>` reads as the string value under an empty name, with no children |
| EdfExamples.ParseNameIntValue | test/org/ua2/edf/ParserTest.java:49-57 | `<name=1/>` reads as name and integer value |
| EdfExamples.ParseNameStrValue | test/org/ua2/edf/ParserTest.java:59-67 | A named element with a quoted value reads as that name and string |
| EdfExamples.ParseMixedCaseNameStrValue | test/org/ua2/edf/ParserTest.java:79-87 | Mixed-case names are read as written |
| EdfExamples.ParseNameValueNoChildren | test/org/ua2/edf/ParserTest.java:89-97 | An explicit empty child list reads as no children |
| EdfExamples.ParseMinimalChildren | test/org/ua2/edf/ParserTest.java:99-119 | The nested test tree under an unnamed root reads back with every level in place |
| EdfExamples.ParseNameValueChildren | test/org/ua2/edf/ParserTest.java:121-143 | The nested test tree under a named root reads back with every level in place |
| EdfExamples.NestedLookups | test/org/ua2/edf/ParserTest.java:99-143 | In the nested tree, `getChild` finds each level's child with its value |
| Registry.NewUa | src/org/ua2/clientlib/UA.java:14-15 | A new registry holds nothing |
| Registry.Register | src/org/ua2/clientlib/UA.java:54-57 | `get` on the class gives the registered object; every other class is unaffected |
| Registry.Get | src/org/ua2/clientlib/UA.java:75-78 | `get` gives an object exactly when the class is in the table, and then the object stored for it |
| Registry.Unregister | src/org/ua2/clientlib/UA.java:64-67 | `get` on the class gives null; every other class is unaffected |
| Registry.RegisterThenUnregister | src/org/ua2/clientlib/UA.java:54-67 | Registering twice keeps the second; unregistering forgets any registration, and undoes one made into an empty slot |
| Registry.SetOnce | src/org/ua2/clientlib/FolderList.java:46-56 | An object's UA instance can be set only while unset; a second set is a fatal error |
| Registry.SetOnceTwice | src/org/ua2/clientlib/FolderList.java:46-56 | The first set succeeds and a second one fails |
| Registry.NoGlobals | src/org/ua2/clientlib/UA.java:36-48 | At start there is no single instance |
| Registry.SetSingleInstance | src/org/ua2/clientlib/UA.java:20-30 | Succeeds exactly when no single instance exists, and then the caller is the instance; otherwise a fatal error |
| Registry.SingleInstance | src/org/ua2/clientlib/UA.java:36-48 | `singleInstance()` is true exactly when `getInstance()` gives an instance |
| Registry.DefaultInstance | src/org/ua2/clientlib/FolderList.java:26-32 | The default UA of a list is the single instance when one exists, otherwise none |
| Registry.SingleInstanceSetOnce | src/org/ua2/clientlib/UA.java:20-48 | A first `setSingleInstance` succeeds and a second one fails, leaving the first as the instance |
| Registry.HolderInstance | src/org/ua2/clientlib/FolderList.java:26-40 | A holder built from the single instance, then given another, fails; without one it takes the offered instance |
| Connection.Fresh | src/org/ua2/clientlib/UAConnection.java:33-38 | A new connection is not connected, closed, and has sent nothing |
| Connection.SetStatus | src/org/ua2/clientlib/UAConnection.java:126-131 | The status becomes the given one; the message changes only on a real change |
| Connection.SetStatusSticky | src/org/ua2/clientlib/UAConnection.java:126-131 | Setting the same status twice keeps the first message |
| Connection.Close | src/org/ua2/clientlib/UAConnection.java:137-144 | The socket is closed; status and message are unchanged |
| Connection.SendEdf | src/org/ua2/clientlib/UAConnection.java:193-208 | Succeeds exactly when the write does, and then the tree's compact text is the text handed to the output stream; a failed write marks the connection failed |
| Connection.HandleError | src/org/ua2/clientlib/UAConnection.java:210-216 | The connection ends closed and failed, keeping an earlier failure's message |
| Connection.Disconnect | src/org/ua2/clientlib/UAConnection.java:218-221 | The connection ends closed and not connected |
| Connection.ReadEdf | src/org/ua2/clientlib/UAConnection.java:228-248 | Gives the tree exactly when the read succeeds; a failed read goes through `handleError` |
| Connection.ConnectOutcome | src/org/ua2/clientlib/UAConnection.java:154-184 | `connect` succeeds exactly when the socket opens and the handshake answer is read, leaving the connection open and connected; otherwise it is failed, and closed if the read failed |
| Connection.Connect | src/org/ua2/clientlib/UAConnection.java:154-184 | `connect` returns true exactly when the socket opens and the handshake answer is read; then the connection is CONNECTED and open, otherwise it is CONNECTFAILED |
| Connection.HandshakeWriteFailureIgnored | src/org/ua2/clientlib/UAConnection.java:154-184 | A failed handshake write does not stop `connect` from succeeding when the answer is read |
| Connection.Run | src/org/ua2/clientlib/UAConnection.java:58-113 | The reader loop sends nothing, keeps the subscribers, and is still connected whenever it has not ended |
| Connection.RunRoutes | src/org/ua2/clientlib/UAConnection.java:58-113 | On clean reads, every `reply` tree is handed to the reply queue in order and every announcement is queued in order |
| Connection.RunStopsOnReadError | src/org/ua2/clientlib/UAConnection.java:58-113 | A read error ends the loop with the connection failed and closed; the replies before it were delivered |
| Connection.RunStopsOnFailedHandoff | src/org/ua2/clientlib/UAConnection.java:58-113 | A reply that cannot be handed over ends the loop: the connection becomes NOT CONNECTED with the message "Internal error in server: " followed by the failure text, and the socket is closed |
| Connection.RunStopsOnFailedHandoffAfter | src/org/ua2/clientlib/UAConnection.java:58-113 | The same after any run of smooth reads: the replies read before it were handed over in order, and the loop ends NOT CONNECTED with the internal error message and the socket closed |
| Connection.RunNeedsConnection | src/org/ua2/clientlib/UAConnection.java:58-113 | The loop does nothing unless the connection is connected |
| Connection.SendAndRead | src/org/ua2/clientlib/UAConnection.java:250-278 | Gives the reply exactly when connected, the write passes and a reply arrives; otherwise "connection lost", with the connection closed and not connected, and with the message "No reply" unless it was already not connected before the call (`setStatus` keeps the message when the status does not change) |
| Connection.FailedWriteLosesConnection | src/org/ua2/clientlib/UAConnection.java:250-278 | A failed write always ends in "connection lost" |
| Connection.OperationsKeepConnectedOpen | src/org/ua2/clientlib/UAConnection.java:126-278 | No operation leaves a connection marked connected with its socket closed |
| Connection.RunKeepsConnectedOpen | src/org/ua2/clientlib/UAConnection.java:58-113 | The reader loop never leaves a connection marked connected with its socket closed |
| Announce.Empty | src/org/ua2/clientlib/AnnounceQueue.java:12-14 | A new queue has no subscribers and nothing pending |
| Announce.Subscribe | src/org/ua2/clientlib/AnnounceQueue.java:16-19 | The kind is now handled by the given handler; other kinds and the pending queue are unchanged |
| Announce.SubscribeOverwrites | src/org/ua2/clientlib/AnnounceQueue.java:16-19 | A later subscription to the same kind replaces the earlier one |
| Announce.Post | src/org/ua2/clientlib/AnnounceQueue.java:21-27 | The announcement is queued last; subscribers are unchanged |
| Announce.Dispatch | src/org/ua2/clientlib/AnnounceQueue.java:29-57 | Takes the oldest announcement; a handler is called exactly when its kind has one, with that announcement |
| Announce.Recipient | src/org/ua2/clientlib/AnnounceQueue.java:42-56 | An announcement has a handler exactly when it holds a string that someone subscribed to, and the handler is that subscriber |
| Announce.DispatchCallsRecipient | src/org/ua2/clientlib/AnnounceQueue.java:29-57 | The handler called is the one subscribed to the announcement's kind |
| Announce.DrainDelivers | src/org/ua2/clientlib/AnnounceQueue.java:29-57 | Running the loop once per pending announcement empties the queue and delivers each to its handler in order |
| Announce.DeliveriesAppend | src/org/ua2/clientlib/AnnounceQueue.java:21-57 | Queuing one more announcement adds its delivery at the end |
| Folders.FirstComplaintFound | src/org/ua2/clientlib/Folder.java:53-90 | The first ill-typed child is found exactly when some child is ill-typed |
| Folders.StepAgrees | src/org/ua2/clientlib/Folder.java:53-90 | Reading one child fails exactly when it is ill-typed, with that child's error |
| Folders.ScanFailure | src/org/ua2/clientlib/Folder.java:53-90 | Reading the children fails exactly on the first ill-typed child, with its error |
| Folders.ScanName | src/org/ua2/clientlib/Folder.java:53-90 | The folder name is the last `name` child's |
| Folders.ScanUnread | src/org/ua2/clientlib/Folder.java:53-90 | The unread count is the last `unread` child's, or the default |
| Folders.ScanEditors | src/org/ua2/clientlib/Folder.java:53-90 | The editors are the `editor` children's ids, in order |
| Folders.DecodeAgrees | src/org/ua2/clientlib/Folder.java:30-98 | A folder is built exactly when the root is `folder`, every known child is well typed and a name is present; each failure has its own error |
| Folders.Decode | src/org/ua2/clientlib/Folder.java:30-98 | A root not named `folder` in any case, or not holding an integer, is refused with the root error; a decoded folder's id is the root's integer |
| Folders.EditorsOfDecoded | src/org/ua2/clientlib/Folder.java:100-103 | `getEditors` of a decoded folder gives the integers of its `editor` children, in document order |
| Folders.ScanSkips | src/org/ua2/clientlib/Folder.java:53-90 | Unknown children are skipped while reading |
| Folders.UnknownChildIgnored | src/org/ua2/clientlib/Folder.java:30-98 | Adding an unknown child does not change the decoded folder or its error |
| Users.Blank | src/org/ua2/clientlib/User.java:28-34 | A new user has no name and id and access level -1 |
| Users.FirstComplaintFound | src/org/ua2/clientlib/User.java:104-147 | The first ill-typed child is found exactly when some child is ill-typed |
| Users.AbsorbAgrees | src/org/ua2/clientlib/User.java:104-147 | Reading one child fails exactly when it is ill-typed, with that child's error |
| Users.ScanFailure | src/org/ua2/clientlib/User.java:104-147 | Reading the children fails exactly on the first ill-typed child, with its error |
| Users.ScanName | src/org/ua2/clientlib/User.java:104-147 | The user name is the last `name` child's |
| Users.ScanLevel | src/org/ua2/clientlib/User.java:104-147 | The access level is the last `accesslevel` child's, or the default |
| Users.PopulateAgrees | src/org/ua2/clientlib/User.java:104-147 | A user is populated exactly when the root is `user`, the children are well typed and both a name and an access level other than -1 are present |
| Users.Populate | src/org/ua2/clientlib/User.java:104-147 | A root not named `user` in any case, or not holding an integer, is refused with the root error; a populated user has the root's id, a name, and an access level other than -1 |
| Users.LevelMinusOneIsMissing | src/org/ua2/clientlib/User.java:104-147 | An access level of -1 counts as missing |
| Users.UserRequest | src/org/ua2/clientlib/User.java:87-101 | The lookup request is `user_list` with exactly one `name` child |
| Users.GetUser | src/org/ua2/clientlib/User.java:87-101 | The reply's user is its first `user` child, or none |
| Users.Fetch | src/org/ua2/clientlib/User.java:87-101 | With no UA it fails on null; a failed request passes its error on; no `user` child gives a blank user; otherwise the user is populated from it |
| Users.ByNameModes | src/org/ua2/clientlib/User.java:54-85 | Passing an instance in single-instance mode is fatal; without single-instance mode the name-only constructor has no UA |
| Users.ByName | src/org/ua2/clientlib/User.java:54-64 | `new User(name)` fails on null outside single-instance mode, and otherwise fetches through the single instance |
| Users.ByNameWith | src/org/ua2/clientlib/User.java:74-85 | `new User(name, instance)` is fatal in single-instance mode, and otherwise fetches through the instance given |
| Users.FetchedUserIsComplete | src/org/ua2/clientlib/User.java:87-147 | A non-blank fetched user has a non-empty name and a real access level |
| Listing.DecodeAll | src/org/ua2/clientlib/FolderList.java:71-76 | All children decode exactly when each does, and the results line up with them; otherwise the first failure is reported |
| Listing.RebuildKeepsLast | src/org/ua2/clientlib/FolderList.java:63-78 | The table holds exactly the keys of the decoded items, each under its key, and a repeated key keeps the last item |
| Listing.InsertPermutes | src/org/ua2/clientlib/FolderList.java:87-93 | Insertion keeps exactly the same items plus the new one |
| Listing.InsertSorted | src/org/ua2/clientlib/FolderList.java:87-93 | Inserting into a list sorted by name ignoring case keeps it sorted |
| Listing.SortedEntries | src/org/ua2/clientlib/FolderList.java:81-96 | Every key once, each with its item, sorted by name ignoring case |
| Listing.ListedOnce | src/org/ua2/clientlib/FolderList.java:81-96 | Such a listing has one entry per stored item and holds each of them |
| Listing.KeysDistinct | src/org/ua2/clientlib/FolderList.java:81-96 | The keys of such a listing come from the table's key set, so none is listed twice |
| Listing.NewList | src/org/ua2/clientlib/FolderList.java:26-32 | A new list is empty and uses the single instance if there is one |
| Listing.SetUaInstance | src/org/ua2/clientlib/FolderList.java:46-56 | The UA can be set only while unset; otherwise a fatal error |
| Listing.Refresh | src/org/ua2/clientlib/FolderList.java:61-79 | Succeeds exactly when there is a UA, the request is answered and every child of the kind decodes; a failure leaves the list as it was |
| Listing.RefreshReference | src/org/ua2/clientlib/FolderList.java:61-79 | After a refresh, a key is stored exactly when some child of the kind decodes to it, and it holds the last such item |
| Listing.RefreshKeepsInvariant | src/org/ua2/clientlib/FolderList.java:61-79 | A property every decoded item has, and every item stored under its key, survives a refresh |
| Listing.RefreshFailure | src/org/ua2/clientlib/FolderList.java:61-79 | A refresh that got a reply fails only on a child that does not decode, with its error |
| Listing.Lookup | src/org/ua2/clientlib/FolderList.java:103-106 | Finds the item stored under exactly that name, or null |
| FolderLists.Request | src/org/ua2/clientlib/FolderList.java:67 | The request is a childless `folder_list` |
| FolderLists.RefreshFolders | src/org/ua2/clientlib/FolderList.java:61-79 | After a refresh, `getFolder` finds a name exactly when some `folder` child of the reply decodes to it, and holds the folder of the last such child; a failed refresh changes nothing |
| FolderLists.GetFolderList | src/org/ua2/clientlib/FolderList.java:81-96 | One entry per stored name, holding every stored folder and only those, sorted by name ignoring case; in a table stored by name no folder name is listed twice |
| FolderLists.GetFolder | src/org/ua2/clientlib/FolderList.java:103-106 | `getFolder` finds exactly the stored names, gives the folder stored there, and in a table stored by name that folder has the name asked for |
| UserLists.Request | src/org/ua2/clientlib/UserList.java:59-77 | The request is a childless `user_list` |
| UserLists.RefreshUsers | src/org/ua2/clientlib/UserList.java:59-77 | After a refresh, `getUser` finds a name exactly when some `user` child of the reply populates to it, and holds the user of the last such child; a failed refresh changes nothing |
| UserLists.PopulatedUsersNamed | src/org/ua2/clientlib/User.java:104-147 | Every populated user has a name, so the list's key is defined |
| UserLists.GetUserList | src/org/ua2/clientlib/UserList.java:79-94 | One entry per stored name, holding every stored user and only those, sorted by name ignoring case; in a table stored by name no user name is listed twice |
| UserLists.GetUser | src/org/ua2/clientlib/UserList.java:101-104 | `getUser` finds exactly the stored names, gives the user stored there, and in a table stored by name that user has the name asked for |
| CaseFold.Fold | src/org/ua2/clientlib/FolderList.java:91 | Upper-case letters map to lower case; nothing else changes |
| CaseFold.CompareAntisymmetric | src/org/ua2/clientlib/FolderList.java:87-93 | Comparing ignoring case in the other order negates the result |
| CaseFold.CompareZeroIffEqual | src/org/ua2/clientlib/FolderList.java:87-93 | The comparison is zero exactly when the strings are equal ignoring case |
| CaseFold.NoLaterTotal | src/org/ua2/clientlib/FolderList.java:87-93 | Any two names are ordered one way or the other |
| CaseFold.NoLaterTransitive | src/org/ua2/clientlib/FolderList.java:87-93 | The order is transitive, so the sort is well defined |
| CaseFold.NoLaterReflexive | src/org/ua2/clientlib/FolderList.java:87-93 | Every name is ordered with itself |
| Messages.Blank | src/org/ua2/clientlib/Message.java:35-58 | A new message has no type, every id -1 and every text null |
| Messages.SetConnection | src/org/ua2/clientlib/Message.java:74-77 | Sets the connection and nothing else |
| Messages.Reply | src/org/ua2/clientlib/Message.java:84-107 | Only posts and pages can be answered; the reply goes to the sender, keeps type and subject, and points at the original |
| Messages.ReplyToReply | src/org/ua2/clientlib/Message.java:84-107 | A reply can be answered again; the subject carries through, while sender and id, never filled in, stay unset |
| Messages.PostTyped | src/org/ua2/clientlib/Message.java:118-132 | Anything but a bulletin becomes a post; a page is diverted with its subject replaced; nothing else changes |
| Messages.PostTypeSettles | src/org/ua2/clientlib/Message.java:118-132 | Typing an already typed post again changes nothing |
| Messages.PageThenPostDiverts | src/org/ua2/clientlib/Message.java:118-187 | A post paged and then posted again is diverted |
| Messages.Writing | src/org/ua2/clientlib/UAConnection.java:193-208 | A null body cannot be written; otherwise the write goes as the socket lets it |
| Messages.PostMessage | src/org/ua2/clientlib/Message.java:114-171 | A bulletin is refused; otherwise the message ends up a post. A null subject or a null connection is a null reference and an empty subject is refused. When the request is not answered (not connected, a null body, a failed write or no reply) the post fails with the declared "connection lost" and the connection is left NOT CONNECTED; a reply with no string is a null reference. It succeeds exactly when a string reply arrives, and then reports OK or "no folder" |
| Messages.PostRequestShape | src/org/ua2/clientlib/Message.java:148-156 | The request is `message_add` with folder id, subject and text, then the recipient id when one is set |
| Messages.PostRequest | src/org/ua2/clientlib/Message.java:148-156 | The post request is `message_add` with three children, four when there is a recipient |
| Messages.PostRequestReadsBack | src/org/ua2/clientlib/Message.java:148-156 | The server finds folder id, subject and text as set, and a recipient id exactly when one is set |
| Messages.PostAnswer | src/org/ua2/clientlib/Message.java:158-170 | A delivered post is OK exactly when the reply says `message_add`, otherwise "no folder" |
| Messages.NullBodyLosesConnection | src/org/ua2/clientlib/Message.java:148-158 | Posting with a null body loses the connection |
| Messages.PageTyped | src/org/ua2/clientlib/Message.java:175-187 | Anything but a bulletin becomes a page, and nothing else changes |
| Messages.PageMessage | src/org/ua2/clientlib/Message.java:173-219 | A bulletin is refused; otherwise the message becomes a page. Without a connection the page fails on null; when the request is not answered (not connected, a null body, a failed write or no reply) it fails with the declared "connection lost" and the connection is left NOT CONNECTED; a reply with no string is a null reference; it succeeds only on a string reply |
| Messages.PageAnswer | src/org/ua2/clientlib/Message.java:198-218 | A delivered page whose reply is a string reports the reason that string names (`user_contact` OK, `user_busy` busy, `user_not_on` unavailable, anything else an unrecoverable error), and the connection stays up |
| Messages.PageRequestReadsBack | src/org/ua2/clientlib/Message.java:193-196 | The request is `user_contact` with exactly the recipient id and the text |
| Messages.PageRequest | src/org/ua2/clientlib/Message.java:193-196 | The page request is `user_contact` with exactly the recipient id and the text, in that order |
| Messages.PageReasonsDistinct | src/org/ua2/clientlib/Message.java:198-218 | Each of the three known answers maps to its own reason, and any other answer is an error |
| Messages.PageReason | src/org/ua2/clientlib/Message.java:198-218 | An answer gives a reason exactly when it is one of the three known answers; any other answer is the unrecoverable "unhandled problem" error |
| Sessions.WithInstance | src/org/ua2/clientlib/UASession.java:18-51 | A session starts not connected, with no user and the default client name and protocol |
| Sessions.NewSession | src/org/ua2/clientlib/UASession.java:32-42 | The plain constructor works exactly in single-instance mode, and then uses the single instance |
| Sessions.SetClientName | src/org/ua2/clientlib/UASession.java:82-85 | Changes the client name only |
| Sessions.SetClientProtocol | src/org/ua2/clientlib/UASession.java:87-89 | Changes the protocol version only |
| Sessions.Connect | src/org/ua2/clientlib/UASession.java:54-76 | Without a UA the session is "connect failed"; otherwise a fresh connection is registered, the session is connected, and other registrations stay |
| Sessions.ConnectIgnoresFailure | src/org/ua2/clientlib/UASession.java:54-76 | A connection that failed to open still leaves the session connected |
| Sessions.SendAndRead | src/org/ua2/clientlib/UASession.java:91-94 | Without a UA or a registered connection it fails on null; it gives the reply exactly when the connection does; the registered connection is replaced by its state after its own `sendAndRead`, every other registered class is unchanged, and nothing else in the session changes |
| Sessions.LoginRequestShape | src/org/ua2/clientlib/UASession.java:118-133 | The login request carries name, password, client and protocol, then host name and address when given, then status 256 for a shadow login |
| Sessions.LoginPlainRequest | src/org/ua2/clientlib/UASession.java:104-133 | The two-argument login sends exactly name, password, client and protocol |
| Sessions.LoginOutcome | src/org/ua2/clientlib/UASession.java:118-151 | Login succeeds exactly when the reply says `user_login`, storing the reply as the user and marking the session logged in; otherwise status and user are unchanged |
| Sessions.Login | src/org/ua2/clientlib/UASession.java:118-151 | A failed send passes its own error on; a reply holding no string is a null reference; a string reply gives true exactly when it is `user_login` and false otherwise |
| Sessions.LoginPlain | src/org/ua2/clientlib/UASession.java:104-106 | The two-argument login is true exactly when the request with no address and no shadow flag is answered `user_login` |
| Sessions.GetUserId | src/org/ua2/clientlib/UASession.java:96-102 | -1 with no user; a missing `userid` is a null error; otherwise the child's integer |
| Sessions.LoginThenUserId | src/org/ua2/clientlib/UASession.java:96-151 | When the connection is live, the write passes and the server answers `user_login`, login reports true and the user id is the reply\'s `userid` |
| Sessions.Logout | src/org/ua2/clientlib/UASession.java:158-161 | Status and user are unchanged; it fails exactly when the request does |
| Sessions.LoginBanner | src/org/ua2/clientlib/UASession.java:170-192 | Status and user are unchanged |
| Sessions.BannerFallback | src/org/ua2/clientlib/UASession.java:170-192 | A failed request or a missing banner child gives "No banner"; otherwise the banner child's string, or null when it holds none |

## Left out

- Sockets, threads and blocking: the reader thread, the reply queue and the announce
  thread are modelled as sequences of events and queues, not as concurrent processes.
- The JavaCC EDF parser is not part of this model. The round trips use a reference
  reader written here. It accepts the text the library writes, plus layout between elements.
- Logging, `System.err` output and the bodies of announcement handlers. A handler is a
  name, and a delivery records which handler would be called with which tree.
- CaseFold.Fold: folds ASCII letters only. Java's `compareToIgnoreCase` also folds
  non-ASCII letters, and strings are modelled as code points, not UTF-16 units.
- The hash-map iteration order behind `getFolderList` and `getUserList` is not
  modelled; the sorted result does not depend on it, except for names that are equal
  ignoring case, whose relative order is left open.
- Exception messages and stack traces: an error is its kind and, where the code fixes
  one, its text.
- The `Message(EDFData)` constructor has an empty body, so it is the blank message.
- `User.setUAInstance` is the same set-once rule as the lists', so it is
  `Registry.SetOnce`. The `accessname` field and the `defaultAccessName` table of `User`
  are never read or written by the code, so they are not modelled.
- Shared mutable references: a session, a list or a message holds its own copy of the
  connection state, and replies come in as parameters.
- Test helpers (`TestFiles`, `TestMethods`) read files from disk and are not modelled.
- `EDFData.add(name, value)`: the message and session code call a two-argument `add` that
  `EDFData.java` does not define. `Edf.AddValue` takes it to mean `add(new EDFData(name, value))`.
- Connection.SendEdf: `writeBytes` keeps only the low byte of each character, so `€` goes out
  as the byte 0xAC. The model records the characters handed to the stream, not the bytes
  that reach the socket.
- Sessions.LoginBanner: its own contract states only what the banner leaves alone;
  the banner text itself is stated by `Sessions.BannerFallback`.
- Connection.Run: its own contract gives only what the loop keeps; the routing is
  stated by `Connection.RunRoutes` and the two stopping lemmas.

## Findings

| source | as written | input that shows it | evidently intended | confidence | as-written member | corrected member |
|---|---|---|---|---|---|---|
| src/org/ua2/edf/EDFData.java:251-254 | an element with no name, no value and no children is written `</>`, the same text as an anonymous closing tag | `Node("a", NoValue, [Node("", NoValue, [])])` is written `<a></></>`, which reads back as `<a>` with no children and `</>` left over | the bare element is written `<></>`, as the parser tests spell it, so every tree reads back | not executed | EdfExamples.CompactBareChildIsMisread | EdfRoundTrip.DecodeCompactSafe |

=== FILE: announce.dfy ===
/** The announcement queue: a first-in first-out list of announcement trees and a table of
    handlers keyed by announcement kind. Handlers are opaque; the model records which handler
    a dispatch step calls and with which tree, instead of running it. */
module Announce {
  import opened Wrappers
  import opened Edf

  /** An opaque announcement handler. */
  datatype Handler = Handler(id: nat)

  datatype Queue = Queue(subscribers: map<string, Handler>, pending: seq<Node>)

  /** A handler call made by a dispatch step. */
  datatype Delivery = Delivery(handler: Handler, announcement: Node)

  /** The result of one dispatch step: the queue afterwards and the call made, if any. */
  datatype Dispatched = Dispatched(queue: Queue, call: Option<Delivery>)

  function Empty(): (q: Queue)
    ensures q.subscribers == map[] && q.pending == []
  {
    Queue(map[], [])
  }

  /** `subscribe`: `h` handles `kind` from now on, replacing any earlier handler for it. */
  function Subscribe(q: Queue, kind: string, h: Handler): (r: Queue)
    ensures r.pending == q.pending
    ensures kind in r.subscribers && r.subscribers[kind] == h
    ensures forall k :: k != kind ==> (k in r.subscribers <==> k in q.subscribers)
    ensures forall k :: k != kind && k in q.subscribers ==> r.subscribers[k] == q.subscribers[k]
  {
    q.(subscribers := q.subscribers[kind := h])
  }

  /** `announce`, without the thread it starts: the tree joins the tail of the queue. */
  function Post(q: Queue, a: Node): (r: Queue)
    ensures r.subscribers == q.subscribers
    ensures |r.pending| == |q.pending| + 1
    ensures r.pending[..|q.pending|] == q.pending && r.pending[|q.pending|] == a
  {
    q.(pending := q.pending + [a])
  }

  /** The handler, if any, that an announcement is delivered to: only string-valued
      announcements are delivered, to the handler subscribed under exactly that string. */
  function Recipient(subscribers: map<string, Handler>, a: Node): (r: Option<Handler>)
    ensures r.Some? <==> a.value.Str? && a.value.s in subscribers
    ensures r.Some? ==> r.value == subscribers[a.value.s]
  {
    if a.value.Str? && a.value.s in subscribers then Some(subscribers[a.value.s]) else None
  }

  /** One run of the dispatch thread: take the head of the queue and hand it to its handler.
      An empty queue is left alone; a non-string announcement or one nobody subscribed to is
      dropped. */
  function Dispatch(q: Queue): (r: Dispatched)
    ensures r.queue.subscribers == q.subscribers
    ensures q.pending == [] ==> r.queue == q && r.call.None?
    ensures q.pending != [] ==> r.queue.pending == q.pending[1..]
    ensures q.pending != [] && !q.pending[0].value.Str? ==> r.call.None?
    ensures r.call.Some? <==>
              (q.pending != [] && q.pending[0].value.Str? && q.pending[0].value.s in q.subscribers)
    ensures r.call.Some? ==>
              r.call.value == Delivery(q.subscribers[q.pending[0].value.s], q.pending[0])
  {
    if q.pending == [] then
      Dispatched(q, None)
    else
      var message := q.pending[0];
      var rest := q.(pending := q.pending[1..]);
      if !message.value.Str? then
        Dispatched(rest, None)
      else if message.value.s in q.subscribers then
        Dispatched(rest, Some(Delivery(q.subscribers[message.value.s], message)))
      else
        Dispatched(rest, None)
  }

  /** The calls made while dispatching `queued` in order, by an independent description. */
  function Deliveries(subscribers: map<string, Handler>, queued: seq<Node>): seq<Delivery>
    decreases |queued|
  {
    if queued == [] then []
    else
      match Recipient(subscribers, queued[0])
      case Some(h) => [Delivery(h, queued[0])] + Deliveries(subscribers, queued[1..])
      case None => Deliveries(subscribers, queued[1..])
  }

  /** `k` runs of the dispatch thread, collecting the calls they make. */
  function DispatchTimes(q: Queue, k: nat): (r: (Queue, seq<Delivery>))
    decreases k
  {
    if k == 0 then (q, [])
    else
      var d := Dispatch(q);
      var more := DispatchTimes(d.queue, k - 1);
      (more.0, (if d.call.Some? then [d.call.value] else []) + more.1)
  }

  /** A dispatch step calls exactly the announcement's recipient. */
  lemma DispatchCallsRecipient(q: Queue)
    requires q.pending != []
    ensures Dispatch(q).call.Some? <==> Recipient(q.subscribers, q.pending[0]).Some?
    ensures Dispatch(q).call.Some? ==>
              Dispatch(q).call.value == Delivery(Recipient(q.subscribers, q.pending[0]).value, q.pending[0])
  {
  }

  /** One dispatch run per queued announcement empties the queue, leaves the subscribers
      alone, and makes exactly the calls the independent description lists, in queue order. */
  lemma {:induction false} DrainDelivers(q: Queue)
    ensures DispatchTimes(q, |q.pending|).0 == q.(pending := [])
    ensures DispatchTimes(q, |q.pending|).1 == Deliveries(q.subscribers, q.pending)
    decreases |q.pending|
  {
    if q.pending != [] {
      var d := Dispatch(q);
      assert d.queue == q.(pending := q.pending[1..]);
      DrainDelivers(d.queue);
      DispatchCallsRecipient(q);
    }
  }

  /** Queuing one more announcement adds only that announcement's call, after all the others. */
  lemma {:induction false} DeliveriesAppend(subscribers: map<string, Handler>, queued: seq<Node>, a: Node)
    ensures Deliveries(subscribers, queued + [a])
         == Deliveries(subscribers, queued) + Deliveries(subscribers, [a])
    decreases |queued|
  {
    if queued != [] {
      assert (queued + [a])[1..] == queued[1..] + [a];
      DeliveriesAppend(subscribers, queued[1..], a);
    } else {
      assert queued + [a] == [a];
    }
  }

  /** Subscribing does not change what is queued, and subscribing again to the same kind
      leaves only the latest handler. */
  lemma SubscribeOverwrites(q: Queue, kind: string, h1: Handler, h2: Handler)
    ensures Subscribe(Subscribe(q, kind, h1), kind, h2) == Subscribe(q, kind, h2)
  {
  }
}

=== FILE: casefold.dfy ===
/** Case-insensitive comparison of names, as Java's `equalsIgnoreCase` and
    `compareToIgnoreCase` do it, restricted to ASCII letters: any other character compares
    as itself. */
module CaseFold {

  /** The lower-case form of an ASCII capital letter; any other character is unchanged. */
  function Fold(c: char): (r: char)
    ensures 'A' <= c <= 'Z' ==> r as int == c as int + 32
    ensures !('A' <= c <= 'Z') ==> r == c
    ensures !('A' <= r <= 'Z')
  {
    if 'A' <= c <= 'Z' then (c as int + 32) as char else c
  }

  /** `equalsIgnoreCase`: the same length, and equal characters once case is folded. */
  predicate EqualsIgnoreCase(a: string, b: string) {
    |a| == |b| && forall i :: 0 <= i < |a| ==> Fold(a[i]) == Fold(b[i])
  }

  /** `compareToIgnoreCase`: the difference of the first pair of folded characters that differ,
      or else the difference of the lengths. */
  function CompareIgnoreCase(a: string, b: string): int
    decreases |a|
  {
    if a == [] || b == [] then |a| - |b|
    else if Fold(a[0]) != Fold(b[0]) then Fold(a[0]) as int - Fold(b[0]) as int
    else CompareIgnoreCase(a[1..], b[1..])
  }

  /** `a` sorts no later than `b`. */
  predicate NoLater(a: string, b: string) {
    CompareIgnoreCase(a, b) <= 0
  }

  /** Swapping the arguments negates the comparison. */
  lemma {:induction false} CompareAntisymmetric(a: string, b: string)
    ensures CompareIgnoreCase(a, b) == -CompareIgnoreCase(b, a)
    decreases |a|
  {
    if a != [] && b != [] && Fold(a[0]) == Fold(b[0]) {
      CompareAntisymmetric(a[1..], b[1..]);
    }
  }

  /** The comparison says "equal" exactly when `equalsIgnoreCase` holds. */
  lemma {:induction false} CompareZeroIffEqual(a: string, b: string)
    ensures CompareIgnoreCase(a, b) == 0 <==> EqualsIgnoreCase(a, b)
    decreases |a|
  {
    if a != [] && b != [] {
      CompareZeroIffEqual(a[1..], b[1..]);
      if Fold(a[0]) == Fold(b[0]) && EqualsIgnoreCase(a[1..], b[1..]) {
        forall i | 0 <= i < |a|
          ensures Fold(a[i]) == Fold(b[i])
        {
          if i > 0 {
            assert a[1..][i - 1] == a[i] && b[1..][i - 1] == b[i];
          }
        }
      }
      if EqualsIgnoreCase(a, b) {
        assert Fold(a[0]) == Fold(b[0]);
        forall i | 0 <= i < |a[1..]|
          ensures Fold(a[1..][i]) == Fold(b[1..][i])
        {
          assert a[1..][i] == a[i + 1] && b[1..][i] == b[i + 1];
        }
      }
    }
  }

  /** Any two names are ordered one way or the other. */
  lemma NoLaterTotal(a: string, b: string)
    ensures NoLater(a, b) || NoLater(b, a)
  {
    CompareAntisymmetric(a, b);
  }

  lemma {:induction false} NoLaterTransitive(a: string, b: string, c: string)
    requires NoLater(a, b) && NoLater(b, c)
    ensures NoLater(a, c)
    decreases |a|
  {
    if a != [] && b != [] && c != [] {
      if Fold(a[0]) == Fold(b[0]) && Fold(b[0]) == Fold(c[0]) {
        NoLaterTransitive(a[1..], b[1..], c[1..]);
      }
    }
  }

  /** A name sorts no later than itself. */
  lemma NoLaterReflexive(a: string)
    ensures NoLater(a, a)
  {
    CompareAntisymmetric(a, a);
  }
}

=== FILE: connection.dfy ===
/** One user's connection to the UA server: the four-state status with its sticky status
    message, the failure paths of connecting, sending and reading, and the reader loop that
    routes each tree from the server to the announcement queue or the reply slot.

    Sockets, streams and threads are not modelled. Every I/O step is a parameter saying how it
    went, the socket is a flag saying whether it is open, and what was written is kept as a
    log of compact EDF texts. */
module Connection {
  import opened Wrappers
  import opened Errors
  import opened Edf
  import opened EdfFormat
  import Announce

  datatype Status = NotConnected | ConnectFailed | Connected | LostConnection

  datatype Conn = Conn(
    status: Status,
    message: string,
    open: bool,
    sent: seq<string>,
    announcements: Announce.Queue)

  /** A connection after an operation, and what the operation returned. */
  datatype Answer<+T> = Answer(conn: Conn, value: T)

  const NotConnectedText := "Not connected"
  const ConnectedText := "Connected to UA server"
  const DisconnectedText := "Disconnected"
  const NoReplyText := "No reply"
  const InternalErrorText := "Internal error in server: "

  /** A new connection: not connected, nothing sent, nothing queued. */
  function Fresh(): (c: Conn)
    ensures c.status == NotConnected && c.message == NotConnectedText
    ensures !c.open && c.sent == [] && c.announcements == Announce.Empty()
  {
    Conn(NotConnected, NotConnectedText, false, [], Announce.Empty())
  }

  /** `setStatus`: a new status takes its message with it; re-entering the current status
      keeps the message that came first. */
  function SetStatus(c: Conn, st: Status, msg: string): (r: Conn)
    ensures r.status == st
    ensures c.status != st ==> r.message == msg
    ensures c.status == st ==> r == c
    ensures r.open == c.open && r.sent == c.sent && r.announcements == c.announcements
  {
    if st != c.status then c.(status := st, message := msg) else c
  }

  /** `closeConnection`: the socket is closed; closing a closed socket changes nothing. */
  function Close(c: Conn): (r: Conn)
    ensures !r.open
    ensures r.status == c.status && r.message == c.message
    ensures r.sent == c.sent && r.announcements == c.announcements
  {
    c.(open := false)
  }

  /** `sendEDF`: on success the compact text of the tree is written; on failure the status
      becomes "connect failed" with the failure's message, and the socket stays as it was. */
  function SendEdf(c: Conn, edf: Node, write: Outcome<string>): (r: Answer<bool>)
    ensures r.value <==> write.Pass?
    ensures r.value ==> r.conn == c.(sent := c.sent + [Compact(edf)])
    ensures !r.value ==> r.conn == SetStatus(c, ConnectFailed, write.error)
  {
    match write
    case Pass => Answer(c.(sent := c.sent + [Compact(edf)]), true)
    case Fail(why) => Answer(SetStatus(c, ConnectFailed, why), false)
  }

  /** `handleError`: "connect failed" with the error's message, and the socket closed. */
  function HandleError(c: Conn, why: string): (r: Conn)
    ensures r.status == ConnectFailed && !r.open
    ensures r.message == (if c.status == ConnectFailed then c.message else why)
    ensures r.sent == c.sent && r.announcements == c.announcements
  {
    Close(SetStatus(c, ConnectFailed, why))
  }

  /** `disconnect`: not connected, socket closed. */
  function Disconnect(c: Conn): (r: Conn)
    ensures r.status == NotConnected && !r.open
    ensures r.message == (if c.status == NotConnected then c.message else DisconnectedText)
    ensures r.sent == c.sent && r.announcements == c.announcements
  {
    Close(SetStatus(c, NotConnected, DisconnectedText))
  }

  /** `readEDF`: the tree the parser produced, or null after handling the parse error. */
  function ReadEdf(c: Conn, read: Result<Node, string>): (r: Answer<Option<Node>>)
    ensures r.value.Some? <==> read.Success?
    ensures read.Success? ==> r == Answer(c, Some(read.value))
    ensures read.Failure? ==> r.conn == HandleError(c, read.error)
  {
    match read
    case Success(t) => Answer(c, Some(t))
    case Failure(why) => Answer(HandleError(c, why), None)
  }

  /** How each I/O step of `connect` went: opening the socket, writing the `<edf="on"/>`
      handshake, and reading the server's answer to it. */
  datatype ConnectIo = ConnectIo(socket: Outcome<string>, handshakeWrite: Outcome<string>,
                                 handshakeRead: Result<Node, string>)

  /** The handshake tree the client sends first. */
  function Handshake(): Node {
    WithString("edf", "on")
  }

  /** `connect`. A socket failure ends it at once. A failed handshake write only sets the
      status; the code carries on to read. A failed handshake read is handled by `readEDF`, after
      which formatting its null result fails, and that second failure's status change is a no-op
      because the status is already "connect failed". */
  function Connect(c: Conn, io: ConnectIo): (r: Answer<bool>)
    ensures r.value <==> io.socket.Pass? && io.handshakeRead.Success?
    ensures r.value ==> r.conn.status == Connected && r.conn.open
    ensures !r.value ==> r.conn.status == ConnectFailed
  {
    match io.socket
    case Fail(why) => Answer(SetStatus(c, ConnectFailed, why), false)
    case Pass =>
      var up := c.(open := true);
      var w := SendEdf(up, Handshake(), io.handshakeWrite);
      var rd := ReadEdf(w.conn, io.handshakeRead);
      if rd.value.None? then
        Answer(SetStatus(rd.conn, ConnectFailed, ""), false)
      else
        Answer(SetStatus(rd.conn, Connected, ConnectedText), true)
  }

  /** What `connect` promises: it succeeds exactly when the socket opened and the handshake
      answer was read, and then the connection is open and connected; otherwise it is "connect
      failed", with the message of the first failure unless it was already in that state. */
  lemma ConnectOutcome(c: Conn, io: ConnectIo)
    ensures Connect(c, io).value <==> io.socket.Pass? && io.handshakeRead.Success?
    ensures Connect(c, io).value ==> Connect(c, io).conn.status == Connected && Connect(c, io).conn.open
    ensures Connect(c, io).value ==>
              Connect(c, io).conn.message ==
                (if c.status == Connected && io.handshakeWrite.Pass? then c.message else ConnectedText)
    ensures !Connect(c, io).value ==> Connect(c, io).conn.status == ConnectFailed
    ensures !Connect(c, io).value ==>
              Connect(c, io).conn.message ==
                (if c.status == ConnectFailed then c.message
                 else if io.socket.Fail? then io.socket.error
                 else if io.handshakeWrite.Fail? then io.handshakeWrite.error
                 else io.handshakeRead.error)
    ensures io.socket.Pass? && io.handshakeRead.Failure? ==> !Connect(c, io).conn.open
    ensures Connect(c, io).conn.announcements == c.announcements
  {
  }

  /** A connect whose handshake write fails still succeeds when an answer is read; the status
      passes through "connect failed", so the connected message replaces the write error. */
  lemma HandshakeWriteFailureIgnored(c: Conn, why: string, answer: Node)
    requires c.status != ConnectFailed
    ensures Connect(c, ConnectIo(Pass, Fail(why), Success(answer))) ==
              Answer(c.(status := Connected, message := ConnectedText, open := true), true)
  {
  }

  // ---------------------------------------------------------------- the reader loop

  /** One read of the reader loop: a tree, with how handing it to the reply slot would go if it
      is a reply, or a read error. */
  datatype Event = Arrived(tree: Node, handoff: Outcome<string>) | ReadFailed(why: string)

  /** Where the reader loop stopped: the connection, the replies handed over in order, and
      whether the loop has ended (false: it is still waiting for input). */
  datatype Loop = Loop(conn: Conn, replies: seq<Node>, ended: bool)

  /** `run`: while the status is "connected", read a tree; `announce` trees are queued,
      `reply` trees are handed to the reply slot, any other tree is dropped. A read error or
      a failed hand-off ends the loop. */
  function Run(c: Conn, events: seq<Event>): (r: Loop)
    ensures r.conn.sent == c.sent
    ensures r.conn.announcements.subscribers == c.announcements.subscribers
    ensures !r.ended ==> r.conn.status == Connected
    decreases |events|
  {
    if c.status != Connected then Loop(c, [], true)
    else if events == [] then Loop(c, [], false)
    else
      match events[0]
      case ReadFailed(why) => Loop(HandleError(c, why), [], true)
      case Arrived(t, handoff) =>
        if t.name == "announce" then
          Run(c.(announcements := Announce.Post(c.announcements, t)), events[1..])
        else if t.name == "reply" then
          match handoff
          case Fail(why) => Loop(Close(SetStatus(c, NotConnected, InternalErrorText + why)), [], true)
          case Pass =>
            var more := Run(c, events[1..]);
            Loop(more.conn, [t] + more.replies, more.ended)
        else
          Run(c, events[1..])
  }

  /** The trees of a run of reads. */
  function Trees(events: seq<Event>): seq<Node>
    requires forall i :: 0 <= i < |events| ==> events[i].Arrived?
    decreases |events|
  {
    if events == [] then [] else [events[0].tree] + Trees(events[1..])
  }

  /** Reads that all succeed and whose replies are all handed over. */
  predicate Smooth(events: seq<Event>) {
    forall i :: 0 <= i < |events| ==>
      events[i].Arrived? && (events[i].tree.name == "reply" ==> events[i].handoff.Pass?)
  }

  /** Routing: while every read succeeds, the loop keeps running with the status unchanged, the
      announcements are queued in arrival order and the replies are handed over in arrival
      order; every other tree is dropped. */
  lemma {:induction false} RunRoutes(c: Conn, events: seq<Event>)
    requires c.status == Connected && Smooth(events)
    ensures Run(c, events).conn ==
              c.(announcements := c.announcements.(pending :=
                   c.announcements.pending + Matching(Trees(events), "announce")))
    ensures Run(c, events).replies == Matching(Trees(events), "reply")
    ensures !Run(c, events).ended
    decreases |events|
  {
    if events == [] {
      assert c.announcements.pending + [] == c.announcements.pending;
      assert c.announcements.(pending := c.announcements.pending) == c.announcements;
    } else {
      SmoothTail(events);
      var t := events[0].tree;
      var rest := Trees(events[1..]);
      assert Trees(events) == [t] + rest;
      MatchingHeadTree(t, rest, "announce");
      MatchingHeadTree(t, rest, "reply");
      if t.name == "announce" {
        var c1 := c.(announcements := Announce.Post(c.announcements, t));
        assert c1.announcements.pending == c.announcements.pending + [t];
        RunRoutes(c1, events[1..]);
        PendingAssoc(c.announcements.pending, [t], Matching(rest, "announce"));
      } else {
        RunRoutes(c, events[1..]);
      }
    }
  }

  /** The rest of a smooth run is smooth. */
  lemma SmoothTail(events: seq<Event>)
    requires events != [] && Smooth(events)
    ensures Smooth(events[1..])
  {
    forall i | 0 <= i < |events[1..]|
      ensures events[1..][i].Arrived? && (events[1..][i].tree.name == "reply" ==> events[1..][i].handoff.Pass?)
    {
      assert events[1..][i] == events[i + 1];
    }
  }

  /** Selecting from a list of trees looks at the first one and then at the rest. */
  lemma MatchingHeadTree(t: Node, rest: seq<Node>, name: string)
    ensures Matching([t] + rest, name) == (if t.name == name then [t] else []) + Matching(rest, name)
  {
    MatchingAppend([t], rest, name);
    assert Matching([t], name) == (if t.name == name then [t] else []) + Matching([], name);
  }

  /** Queues of trees regroup freely. */
  lemma PendingAssoc(a: seq<Node>, b: seq<Node>, c: seq<Node>)
    ensures a + b + c == a + (b + c)
  {
  }

  /** After a run of good reads, a read error ends the loop with "connect failed", the error's
      message, and the socket closed; nothing after it is read. */
  lemma {:induction false} RunStopsOnReadError(c: Conn, good: seq<Event>, why: string, later: seq<Event>)
    requires c.status == Connected && Smooth(good)
    ensures Run(c, good + [ReadFailed(why)] + later).conn.status == ConnectFailed
    ensures Run(c, good + [ReadFailed(why)] + later).conn.message == why
    ensures !Run(c, good + [ReadFailed(why)] + later).conn.open
    ensures Run(c, good + [ReadFailed(why)] + later).ended
    ensures Run(c, good + [ReadFailed(why)] + later).replies == Matching(Trees(good), "reply")
    decreases |good|
  {
    var evs := good + [ReadFailed(why)] + later;
    if good == [] {
      assert evs[0] == ReadFailed(why);
    } else {
      assert evs[0] == good[0];
      assert evs[1..] == good[1..] + [ReadFailed(why)] + later;
      assert Smooth(good[1..]) by {
        forall i | 0 <= i < |good[1..]|
          ensures good[1..][i].Arrived? && (good[1..][i].tree.name == "reply" ==> good[1..][i].handoff.Pass?)
        {
          assert good[1..][i] == good[i + 1];
        }
      }
      assert Trees(good) == [good[0].tree] + Trees(good[1..]);
      if good[0].tree.name == "announce" {
        RunStopsOnReadError(c.(announcements := Announce.Post(c.announcements, good[0].tree)), good[1..], why, later);
      } else {
        RunStopsOnReadError(c, good[1..], why, later);
      }
    }
  }

  /** A reply that cannot be handed over ends the loop: not connected, with the internal
      error message, the socket closed. */
  lemma RunStopsOnFailedHandoff(c: Conn, t: Node, why: string, later: seq<Event>)
    requires c.status == Connected && t.name == "reply"
    ensures Run(c, [Arrived(t, Fail(why))] + later) ==
              Loop(c.(status := NotConnected, message := InternalErrorText + why, open := false), [], true)
  {
    assert ([Arrived(t, Fail(why))] + later)[0] == Arrived(t, Fail(why));
  }

  /** The same after any smooth run of reads: the replies read before the failed hand-off
      were delivered, and the loop ends not connected with the internal error message and
      the socket closed. */
  lemma {:induction false} RunStopsOnFailedHandoffAfter(c: Conn, good: seq<Event>, t: Node, why: string, later: seq<Event>)
    requires c.status == Connected && Smooth(good) && t.name == "reply"
    ensures Run(c, good + [Arrived(t, Fail(why))] + later).conn.status == NotConnected
    ensures Run(c, good + [Arrived(t, Fail(why))] + later).conn.message == InternalErrorText + why
    ensures !Run(c, good + [Arrived(t, Fail(why))] + later).conn.open
    ensures Run(c, good + [Arrived(t, Fail(why))] + later).ended
    ensures Run(c, good + [Arrived(t, Fail(why))] + later).replies == Matching(Trees(good), "reply")
    decreases |good|
  {
    var evs := good + [Arrived(t, Fail(why))] + later;
    if good == [] {
      assert evs == [Arrived(t, Fail(why))] + later;
      RunStopsOnFailedHandoff(c, t, why, later);
    } else {
      assert evs[0] == good[0];
      assert evs[1..] == good[1..] + [Arrived(t, Fail(why))] + later;
      SmoothTail(good);
      assert Trees(good) == [good[0].tree] + Trees(good[1..]);
      if good[0].tree.name == "announce" {
        RunStopsOnFailedHandoffAfter(c.(announcements := Announce.Post(c.announcements, good[0].tree)), good[1..], t, why, later);
      } else {
        RunStopsOnFailedHandoffAfter(c, good[1..], t, why, later);
      }
    }
  }

  /** The loop does not read at all unless the connection is connected. */
  lemma RunNeedsConnection(c: Conn, events: seq<Event>)
    requires c.status != Connected
    ensures Run(c, events) == Loop(c, [], true)
  {
  }

  // ---------------------------------------------------------------- request and reply

  /** `sendAndRead`: write the request, then wait for a reply while connected. `arrival` is
      the reply the wait obtained, or None when the status left "connected" (or the wait was
      interrupted) first. Without a reply the connection is closed as not connected and the
      call fails with "connection lost"; it never returns null. */
  function SendAndRead(c: Conn, edf: Node, write: Outcome<string>, arrival: Option<Node>): (r: Answer<Result<Node, UaError>>)
    ensures r.value.Success? <==> write.Pass? && c.status == Connected && arrival.Some?
    ensures r.value.Success? ==> r.value.value == arrival.value && r.conn == c.(sent := c.sent + [Compact(edf)])
    ensures r.value.Failure? ==> r.value.error == NoConnection(ConnectionLost)
    ensures r.value.Failure? ==> r.conn.status == NotConnected && !r.conn.open
    ensures r.value.Failure? ==>
              r.conn.message == if write.Pass? && c.status == NotConnected then c.message else NoReplyText
    ensures r.conn.announcements == c.announcements
  {
    var w := SendEdf(c, edf, write);
    if w.conn.status == Connected && arrival.Some? then
      Answer(w.conn, Success(arrival.value))
    else
      Answer(Close(SetStatus(w.conn, NotConnected, NoReplyText)), Failure(NoConnection(ConnectionLost)))
  }

  /** A failed write always ends in "connection lost", whatever the server does, and always
      with the "No reply" message: the write failure has just moved the status away from
      "not connected". */
  lemma FailedWriteLosesConnection(c: Conn, edf: Node, why: string, arrival: Option<Node>)
    ensures SendAndRead(c, edf, Fail(why), arrival).value == Failure(NoConnection(ConnectionLost))
    ensures SendAndRead(c, edf, Fail(why), arrival).conn.message == NoReplyText
  {
  }

  // ---------------------------------------------------------------- invariants

  /** A connected connection has its socket open. */
  predicate ConnectedIsOpen(c: Conn) {
    c.status == Connected ==> c.open
  }

  /** Every operation keeps a connected connection's socket open, starting from a fresh one. */
  lemma OperationsKeepConnectedOpen(c: Conn, edf: Node, write: Outcome<string>, read: Result<Node, string>,
                                    io: ConnectIo, events: seq<Event>, arrival: Option<Node>, why: string)
    requires ConnectedIsOpen(c)
    ensures ConnectedIsOpen(Fresh())
    ensures ConnectedIsOpen(SendEdf(c, edf, write).conn)
    ensures ConnectedIsOpen(ReadEdf(c, read).conn)
    ensures ConnectedIsOpen(HandleError(c, why))
    ensures ConnectedIsOpen(Disconnect(c))
    ensures ConnectedIsOpen(Connect(c, io).conn)
    ensures ConnectedIsOpen(SendAndRead(c, edf, write, arrival).conn)
    ensures ConnectedIsOpen(Run(c, events).conn)
  {
    RunKeepsConnectedOpen(c, events);
  }

  lemma {:induction false} RunKeepsConnectedOpen(c: Conn, events: seq<Event>)
    requires ConnectedIsOpen(c)
    ensures ConnectedIsOpen(Run(c, events).conn)
    decreases |events|
  {
    if c.status == Connected && events != [] && events[0].Arrived? {
      var t := events[0].tree;
      if t.name == "announce" {
        RunKeepsConnectedOpen(c.(announcements := Announce.Post(c.announcements, t)), events[1..]);
      } else if t.name == "reply" && events[0].handoff.Pass? {
        RunKeepsConnectedOpen(c, events[1..]);
      } else if t.name != "reply" {
        RunKeepsConnectedOpen(c, events[1..]);
      }
    }
  }

  /** The status message is sticky: setting the same status twice keeps the first message. */
  lemma SetStatusSticky(c: Conn, st: Status, first: string, second: string)
    ensures SetStatus(SetStatus(c, st, first), st, second) == SetStatus(c, st, first)
  {
  }
}

=== FILE: edf_data.dfy ===
/** The EDF tree: a node with a name, a tagged value and an ordered list of children,
    together with its constructors, typed accessors, child lookup and child cursor. */
module Edf {
  import opened Wrappers
  import opened Errors

  /** Java's `int` / `Integer`: a signed 32-bit integer. */
  type Int32 = x: int | -0x8000_0000 <= x < 0x8000_0000

  /** The value of a node: none, a string, or a 32-bit integer. */
  datatype Value = NoValue | Str(s: string) | Int(i: Int32)

  /** One EDF element. The order of `children` is significant for output; names may repeat. */
  datatype Node = Node(name: string, value: Value, children: seq<Node>)

  function TagOf(v: Value): ValueTag {
    match v
    case NoValue => NoneTag
    case Str(_) => StringTag
    case Int(_) => IntegerTag
  }

  // ---------------------------------------------------------------- constructors

  /** `new EDFData(name)`: no value, no children. */
  function Named(name: string): Node {
    Node(name, NoValue, [])
  }

  /** `new EDFData(name, String)`: a string value, no children. */
  function WithString(name: string, s: string): Node {
    Node(name, Str(s), [])
  }

  /** `new EDFData(name, Integer)`: an integer value, no children. */
  function WithInteger(name: string, i: Int32): Node {
    Node(name, Int(i), [])
  }

  // ---------------------------------------------------------------- value access

  /** `getValue`: the value, or null (None) when the node carries none. */
  function GetValue(n: Node): (r: Option<Value>)
    ensures r.None? <==> n.value.NoValue?
    ensures r.Some? ==> r.value == n.value
  {
    if n.value.NoValue? then None else Some(n.value)
  }

  /** `getString`: the string value, or a type error when the node does not hold a string. */
  function GetString(n: Node): (r: Result<string, UaError>)
    ensures r.Success? <==> n.value.Str?
    ensures r.Success? ==> Str(r.value) == n.value
    ensures r.Failure? ==> r.error == TypeMismatch(StringTag, TagOf(n.value))
  {
    match n.value
    case Str(s) => Success(s)
    case _ => Failure(TypeMismatch(StringTag, TagOf(n.value)))
  }

  /** `getInteger`: the integer value, or a type error when the node does not hold an integer. */
  function GetInteger(n: Node): (r: Result<Int32, UaError>)
    ensures r.Success? <==> n.value.Int?
    ensures r.Success? ==> Int(r.value) == n.value
    ensures r.Failure? ==> r.error == TypeMismatch(IntegerTag, TagOf(n.value))
  {
    match n.value
    case Int(i) => Success(i)
    case _ => Failure(TypeMismatch(IntegerTag, TagOf(n.value)))
  }

  /** The three constructors produce the three value tags, each with no children, and
      exactly the matching typed accessor succeeds on each. */
  lemma ConstructorsAgreeWithAccessors(name: string, s: string, i: Int32)
    ensures GetValue(Named(name)) == None && Named(name).children == []
    ensures GetValue(WithString(name, s)) == Some(Str(s)) && WithString(name, s).children == []
    ensures GetValue(WithInteger(name, i)) == Some(Int(i)) && WithInteger(name, i).children == []
    ensures GetString(WithString(name, s)) == Success(s)
    ensures GetInteger(WithInteger(name, i)) == Success(i)
    ensures GetString(Named(name)) == Failure(TypeMismatch(StringTag, NoneTag))
    ensures GetString(WithInteger(name, i)) == Failure(TypeMismatch(StringTag, IntegerTag))
    ensures GetInteger(Named(name)) == Failure(TypeMismatch(IntegerTag, NoneTag))
    ensures GetInteger(WithString(name, s)) == Failure(TypeMismatch(IntegerTag, StringTag))
  {
  }

  // ---------------------------------------------------------------- children

  function ChildCount(n: Node): nat {
    |n.children|
  }

  /** `add(child)`: append `child` after the existing children. */
  function Add(n: Node, child: Node): (r: Node)
    ensures r.name == n.name && r.value == n.value
    ensures ChildCount(r) == ChildCount(n) + 1
    ensures r.children[..ChildCount(n)] == n.children
    ensures r.children[ChildCount(n)] == child
  {
    n.(children := n.children + [child])
  }

  /** The two-argument `add(name, value)` the message and session code call; it is taken to
      mean `add(new EDFData(name, value))`, a childless child holding the value. */
  function AddValue(n: Node, name: string, v: Value): (r: Node)
    ensures r.name == n.name && r.value == n.value
    ensures ChildCount(r) == ChildCount(n) + 1 && r.children[..ChildCount(n)] == n.children
    ensures r.children[ChildCount(n)] == Node(name, v, [])
  {
    Add(n, Node(name, v, []))
  }

  /** The children named exactly `name`, in their original order. */
  function Matching(cs: seq<Node>, name: string): (r: seq<Node>)
    ensures |r| <= |cs|
    ensures forall c :: c in r <==> c in cs && c.name == name
  {
    if cs == [] then []
    else if cs[0].name == name then [cs[0]] + Matching(cs[1..], name)
    else Matching(cs[1..], name)
  }

  /** `getChildren(name)`. */
  function GetChildren(n: Node, name: string): seq<Node> {
    Matching(n.children, name)
  }

  /** The first child named exactly `name`, scanning from the front. */
  function FirstMatch(cs: seq<Node>, name: string): (r: Option<Node>)
    ensures r.Some? ==> r.value in cs && r.value.name == name
    ensures r.None? <==> forall c :: c in cs ==> c.name != name
  {
    if cs == [] then None
    else if cs[0].name == name then Some(cs[0])
    else FirstMatch(cs[1..], name)
  }

  /** `getChild(name)`: the first match, or null (None). */
  function GetChild(n: Node, name: string): Option<Node> {
    FirstMatch(n.children, name)
  }

  /** Filtering distributes over concatenation: the selected children keep the document order. */
  lemma {:induction false} MatchingAppend(a: seq<Node>, b: seq<Node>, name: string)
    ensures Matching(a + b, name) == Matching(a, name) + Matching(b, name)
  {
    if a == [] {
      assert a + b == b;
    } else {
      assert (a + b)[1..] == a[1..] + b;
      MatchingAppend(a[1..], b, name);
    }
  }

  /** `getChildren` after `add`: the new child is selected, at the end, exactly when its name matches. */
  lemma GetChildrenAfterAdd(n: Node, child: Node, name: string)
    ensures GetChildren(Add(n, child), name)
         == GetChildren(n, name) + (if child.name == name then [child] else [])
  {
    MatchingAppend(n.children, [child], name);
  }

  /** After the two-argument `add`, looking up the new name finds the old matches followed by
      the new element, and every other name finds exactly what it found before. */
  lemma AddValueSelects(n: Node, name: string, v: Value)
    ensures GetChildren(AddValue(n, name, v), name) == GetChildren(n, name) + [Node(name, v, [])]
    ensures forall k :: k != name ==> GetChildren(AddValue(n, name, v), k) == GetChildren(n, k)
  {
    var child := Node(name, v, []);
    var r := AddValue(n, name, v);
    assert r.children == n.children + [child];
    MatchingAppend(n.children, [child], name);
    forall k | k != name
      ensures GetChildren(r, k) == GetChildren(n, k)
    {
      MatchingAppend(n.children, [child], k);
    }
  }

  /** `getChild` is the head of `getChildren`, or null when that list is empty. */
  lemma {:induction false} FirstMatchIsHeadOfMatching(cs: seq<Node>, name: string)
    ensures FirstMatch(cs, name).None? <==> Matching(cs, name) == []
    ensures FirstMatch(cs, name).Some? ==> FirstMatch(cs, name).value == Matching(cs, name)[0]
  {
    if cs != [] && cs[0].name != name {
      FirstMatchIsHeadOfMatching(cs[1..], name);
    }
  }

  /** A leading child with the name is the first match. */
  lemma FirstMatchHead(cs: seq<Node>, name: string)
    requires cs != [] && cs[0].name == name
    ensures FirstMatch(cs, name) == Some(cs[0])
  {
  }

  /** A leading child with another name is passed over. */
  lemma FirstMatchSkip(cs: seq<Node>, name: string)
    requires cs != [] && cs[0].name != name
    ensures FirstMatch(cs, name) == FirstMatch(cs[1..], name)
  {
  }

  /** The first match is the child at the first position carrying the name. */
  lemma {:induction false} FirstMatchAt(cs: seq<Node>, name: string, i: nat)
    requires i < |cs| && cs[i].name == name
    requires forall j :: 0 <= j < i ==> cs[j].name != name
    ensures FirstMatch(cs, name) == Some(cs[i])
  {
    if i > 0 {
      FirstMatchAt(cs[1..], name, i - 1);
    }
  }

  lemma GetChildIsFirstOfGetChildren(n: Node, name: string)
    ensures GetChild(n, name).None? <==> GetChildren(n, name) == []
    ensures GetChild(n, name).Some? ==> GetChild(n, name).value == GetChildren(n, name)[0]
  {
    FirstMatchIsHeadOfMatching(n.children, name);
  }

  /** The string of the last of `ns`. */
  function LastString(ns: seq<Node>): string {
    if ns != [] && ns[|ns| - 1].value.Str? then ns[|ns| - 1].value.s else ""
  }

  /** The integer of the last of `ns`, or `none` when there is none. */
  function LastInteger(ns: seq<Node>, none: Int32): Int32 {
    if ns != [] && ns[|ns| - 1].value.Int? then ns[|ns| - 1].value.i else none
  }

  lemma LastOfCons(x: Node, ns: seq<Node>, none: Int32)
    ensures LastString([x] + ns) == if ns == [] then LastString([x]) else LastString(ns)
    ensures LastInteger([x] + ns, none) == if ns == [] then LastInteger([x], none) else LastInteger(ns, none)
  {
    if ns != [] {
      assert ([x] + ns)[|[x] + ns| - 1] == ns[|ns| - 1];
    }
  }

  // ---------------------------------------------------------------- child cursor

  /** The child cursor kept beside a node (`childcounter`). */
  datatype Cursor = Cursor(pos: nat)

  /** `resetChild`. */
  function ResetChild(): Cursor {
    Cursor(0)
  }

  datatype Step = Step(next: Option<Node>, cursor: Cursor)

  /** `getNext`: the child under the cursor and the advanced cursor, or null once past the end. */
  function GetNext(n: Node, c: Cursor): (r: Step)
    ensures c.pos < ChildCount(n) ==> r == Step(Some(n.children[c.pos]), Cursor(c.pos + 1))
    ensures c.pos >= ChildCount(n) ==> r == Step(None, c)
    ensures c.pos <= ChildCount(n) ==> r.cursor.pos <= ChildCount(n)
  {
    if c.pos >= |n.children| then Step(None, c)
    else Step(Some(n.children[c.pos]), Cursor(c.pos + 1))
  }

  /** The results of `k` successive `getNext` calls starting from cursor `c`. */
  function Walk(n: Node, c: Cursor, k: nat): (r: seq<Option<Node>>)
    ensures |r| == k
    decreases k
  {
    if k == 0 then []
    else
      var s := GetNext(n, c);
      [s.next] + Walk(n, s.cursor, k - 1)
  }

  /** After `resetChild`, call number `i` of `getNext` yields child `i`, then null forever. */
  lemma {:induction false} WalkFrom(n: Node, c: Cursor, k: nat)
    requires c.pos <= ChildCount(n)
    ensures forall i :: 0 <= i < k && c.pos + i < ChildCount(n) ==> Walk(n, c, k)[i] == Some(n.children[c.pos + i])
    ensures forall i :: 0 <= i < k && c.pos + i >= ChildCount(n) ==> Walk(n, c, k)[i] == None
    decreases k
  {
    if k > 0 {
      var s := GetNext(n, c);
      WalkFrom(n, s.cursor, k - 1);
      if c.pos < ChildCount(n) {
        assert s.cursor.pos == c.pos + 1;
      } else {
        assert s.cursor == c;
      }
    }
  }

  lemma WalkAfterReset(n: Node, k: nat)
    ensures forall i :: 0 <= i < k && i < ChildCount(n) ==> Walk(n, ResetChild(), k)[i] == Some(n.children[i])
    ensures forall i :: ChildCount(n) <= i < k ==> Walk(n, ResetChild(), k)[i] == None
  {
    WalkFrom(n, ResetChild(), k);
  }
}

=== FILE: edf_examples.dfy ===
/** Worked instances of the round trip, and the bare-node misreading of the compact form. */
module EdfExamples {
  import opened Wrappers
  import opened Edf
  import opened Escaping
  import opened EdfFormat
  import opened EdfParse
  import opened EdfRoundTrip

  lemma DecodeWhole(s: string, t: Node)
    requires ParseNode(s) == Success(Parsed(t, []))
    ensures Decode(s) == Success(t)
  {
  }

  /** Quoting a word with no backslash or quote in it adds only the two quotes. */
  lemma PlainStringText(s: string)
    requires Plain(s)
    ensures ValueText(Str(s)) == "=" + [Quote] + s + [Quote]
  {
    NoSpecials(s);
    EscapeShape(s);
  }

  /** The compact text of a tree whose only child is bare. */
  lemma BareOnlyChildText(name: string, v: Value, rest: string)
    ensures Compact(Node(name, v, [Node([], NoValue, [])])) + rest
         == "<" + (name + (ValueText(v) + (">" + ([] + ("</" + ([] + (">" + ("</>" + rest))))))))
  {
    var n := Node(name, v, [Node([], NoValue, [])]);
    var tail := ">" + "</>" + "</>";
    assert Compact(Node([], NoValue, [])) == "</>";
    assert CompactAll(n.children) == "</>";
    assert Compact(n) == "<" + name + ValueText(v) + tail;
    BareOnlyTail(rest);
    Regroup("<", name, ValueText(v), tail, rest);
  }

  lemma BareOnlyTail(rest: string)
    ensures (">" + "</>" + "</>") + rest == ">" + ([] + ("</" + ([] + (">" + ("</>" + rest)))))
  {
    Assoc(">" + "</>", "</>", rest);
    Assoc(">", "</>", "</>" + rest);
    Assoc("</", ">", "</>" + rest);
  }

  lemma Regroup(a: string, b: string, c: string, d: string, e: string)
    ensures (((a + b) + c) + d) + e == a + (b + (c + (d + e)))
  {
    Assoc(a + b, c, d);
    Assoc((a + b) + c, d, e);
    Assoc(a + b, c, d + e);
    Assoc(a, b, c + (d + e));
  }

  /** In the compact form a bare only child is read as its parent's closing tag, and the
      parent's own closing tag is left over. */
  lemma {:induction false} BareOnlyChildIsMisread(name: string, v: Value, rest: string)
    requires NameOk(name)
    ensures ParseNode(Compact(Node(name, v, [Node([], NoValue, [])])) + rest)
         == Success(Parsed(Node(name, v, []), "</>" + rest))
  {
    CloseTagReadsBack([], [], "</>" + rest);
    BranchReadsBack(name, v, [] + ("</" + ([] + (">" + ("</>" + rest)))), [], "</>" + rest);
    BareOnlyChildText(name, v, rest);
  }

  /** The leftover closing tag itself reads as a bare element. */
  lemma LeftoverIsBare()
    ensures ParseNode("</>") == Success(Parsed(Node([], NoValue, []), []))
  {
  }

  /** So the smallest such tree does not survive the compact round trip. */
  lemma CompactBareChildIsMisread()
    ensures Decode(Compact(Node("a", NoValue, [Node([], NoValue, [])]))) == Failure(TrailingText)
  {
    BareChildLeavesText("a", NoValue);
  }

  /** Generic form of the above: any element name and value. */
  lemma BareChildLeavesText(name: string, v: Value)
    requires NameOk(name)
    ensures Decode(Compact(Node(name, v, [Node([], NoValue, [])]))) == Failure(TrailingText)
  {
    var s := Compact(Node(name, v, [Node([], NoValue, [])]));
    BareOnlyChildIsMisread(name, v, []);
    assert s + [] == s;
    assert "</>" + [] == "</>";
    LeftoverNotLayout();
    TrailingTextFails(s, Parsed(Node(name, v, []), "</>"));
  }

  /** The leftover closing tag is not layout. */
  lemma LeftoverNotLayout()
    ensures SkipLayout("</>") != []
  {
  }

  /** An element followed by anything but layout is not a document. */
  lemma TrailingTextFails(s: string, p: Parsed<Node>)
    requires ParseNode(s) == Success(p) && SkipLayout(p.rest) != []
    ensures Decode(s) == Failure(TrailingText)
  {
  }

  // ---------------------------------------------------------------- reading steps

  /** A closing tag with any name ends a child list. */
  lemma CloseTag(name: string, rest: string)
    requires NameOk(name)
    ensures ParseChildren("</" + (name + (">" + rest))) == Success(Parsed([], rest))
  {
    CloseTagReadsBack([], name, rest);
    assert [] + ("</" + (name + (">" + rest))) == "</" + (name + (">" + rest));
  }

  /** An element at the very head of a child list. */
  lemma Child(y: string, c: Node, r: string, cs: seq<Node>, rest: string)
    requires |y| >= 2 && y[0] == '<' && y[1] != '/'
    requires ParseNode(y) == Success(Parsed(c, r))
    requires ParseChildren(r) == Success(Parsed(cs, rest))
    ensures ParseChildren(y) == Success(Parsed([c] + cs, rest))
  {
    ChildStep([], y, c, r, cs, rest);
    assert [] + y == y;
  }

  /** Trailing layout after the one element is accepted. */
  lemma DecodeNode(s: string, t: Node, w: string)
    requires AllLayout(w) && ParseNode(s) == Success(Parsed(t, w))
    ensures Decode(s) == Success(t)
  {
    SkipLayoutOver(w, []);
    assert w + [] == w;
  }

  lemma DecodeLeaf(name: string, v: Value, w: string)
    requires NameOk(name) && AllLayout(w)
    ensures Decode("<" + (name + (ValueText(v) + ("/>" + w)))) == Success(Node(name, v, []))
  {
    LeafReadsBack(name, v, w);
    DecodeNode("<" + (name + (ValueText(v) + ("/>" + w))), Node(name, v, []), w);
  }

  lemma DecodeBranch(name: string, v: Value, inner: string, cs: seq<Node>, w: string)
    requires NameOk(name) && AllLayout(w)
    requires ParseChildren(inner) == Success(Parsed(cs, w))
    ensures Decode("<" + (name + (ValueText(v) + (">" + inner)))) == Success(Node(name, v, cs))
  {
    BranchReadsBack(name, v, inner, cs, w);
    DecodeNode("<" + (name + (ValueText(v) + (">" + inner))), Node(name, v, cs), w);
  }

  lemma IntText(i: Int32)
    requires 0 <= i < 10
    ensures ValueText(Int(i)) == "=" + [DigitChar(i)]
  {
  }

  // ---------------------------------------------------------------- the library's parser cases
  // Each case allows any layout `w` after the element.

  lemma ParseMinimalText(w: string)
    ensures "<" + ([] + (ValueText(NoValue) + (">" + ("</" + ([] + (">" + w)))))) == "<></>" + w
  {
  }

  /** `<></>`: an anonymous element with no value. */
  lemma ParseMinimal(w: string)
    requires AllLayout(w)
    ensures Decode("<></>" + w) == Success(Node([], NoValue, []))
  {
    CloseTag([], w);
    DecodeBranch([], NoValue, "</" + ([] + (">" + w)), [], w);
    ParseMinimalText(w);
  }

  lemma ParseBlankNameIntValueText(w: string)
    ensures "<" + ([] + (ValueText(Int(1)) + ("/>" + w))) == "<=1/>" + w
  {
  }

  /** `<=1/>`: an anonymous element holding an integer. */
  lemma ParseBlankNameIntValue(w: string)
    requires AllLayout(w)
    ensures Decode("<=1/>" + w) == Success(Node([], Int(1), []))
  {
    IntText(1);
    DecodeLeaf([], Int(1), w);
    ParseBlankNameIntValueText(w);
  }

  /** A word with no backslash and no quote in it. */
  predicate Plain(x: string) {
    forall i :: 0 <= i < |x| ==> !IsSpecial(x[i])
  }

  lemma ParseBlankNameStrValueText(x: string, w: string)
    ensures "<" + ([] + (("=" + [Quote] + x + [Quote]) + (">" + ("</" + ([] + (">" + w))))))
         == "<=\"" + x + "\"></>" + w
  {
  }

  /** `<="first"></>`: an anonymous element holding a string; any plain word stands for `first`. */
  lemma ParseBlankNameStrValue(x: string, w: string)
    requires Plain(x) && AllLayout(w)
    ensures Decode("<=\"" + x + "\"></>" + w) == Success(Node([], Str(x), []))
  {
    PlainStringText(x);
    CloseTag([], w);
    DecodeBranch([], Str(x), "</" + ([] + (">" + w)), [], w);
    ParseBlankNameStrValueText(x, w);
  }

  lemma ParseNameIntValueText(w: string)
    ensures "<" + ("one" + (ValueText(Int(1)) + ("/>" + w))) == "<one=1/>" + w
  {
  }

  /** `<one=1/>`. */
  lemma ParseNameIntValue(w: string)
    requires AllLayout(w)
    ensures Decode("<one=1/>" + w) == Success(Node("one", Int(1), []))
  {
    IntText(1);
    DecodeLeaf("one", Int(1), w);
    ParseNameIntValueText(w);
  }

  lemma ParseNameStrValueText(name: string, x: string, w: string)
    ensures "<" + (name + (("=" + [Quote] + x + [Quote]) + (">" + ("</" + ([] + (">" + w))))))
         == "<" + name + "=\"" + x + "\"></>" + w
  {
  }

  /** `<one="first"></>`, for any readable name and any plain word; the word may hold characters
      outside ASCII, as in `firstā`. */
  lemma ParseNameStrValue(name: string, x: string, w: string)
    requires NameOk(name) && Plain(x) && AllLayout(w)
    ensures Decode("<" + name + "=\"" + x + "\"></>" + w) == Success(Node(name, Str(x), []))
  {
    PlainStringText(x);
    CloseTag([], w);
    DecodeBranch(name, Str(x), "</" + ([] + (">" + w)), [], w);
    ParseNameStrValueText(name, x, w);
  }

  lemma ParseMixedCaseNameStrValueText(x: string, w: string)
    ensures "<" + ("OneTwoThree" + (("=" + [Quote] + x + [Quote]) + (">" + ("</" + ("OneTwoThree" + (">" + w))))))
         == "<OneTwoThree=\"" + x + "\"></OneTwoThree>" + w
  {
  }

  /** `<OneTwoThree="first"></OneTwoThree>`: names keep their case. */
  lemma ParseMixedCaseNameStrValue(x: string, w: string)
    requires Plain(x) && AllLayout(w)
    ensures Decode("<OneTwoThree=\"" + x + "\"></OneTwoThree>" + w) == Success(Node("OneTwoThree", Str(x), []))
  {
    PlainStringText(x);
    CloseTag("OneTwoThree", w);
    DecodeBranch("OneTwoThree", Str(x), "</" + ("OneTwoThree" + (">" + w)), [], w);
    ParseMixedCaseNameStrValueText(x, w);
  }

  lemma ParseNameValueNoChildrenText(w: string)
    ensures "<" + ("one" + (ValueText(Int(1)) + (">" + ("</" + ("one" + (">" + w))))))
        == "<one=1></one>" + w
  {
  }

  /** `<one=1></one>`: an explicit closing tag and no children. */
  lemma ParseNameValueNoChildren(w: string)
    requires AllLayout(w)
    ensures Decode("<one=1></one>" + w) == Success(Node("one", Int(1), []))
  {
    IntText(1);
    CloseTag("one", w);
    DecodeBranch("one", Int(1), "</" + ("one" + (">" + w)), [], w);
    ParseNameValueNoChildrenText(w);
  }

  // ---------------------------------------------------------------- nested elements

  /** The tree of the nested parser cases, under a root with the given name and value. */
  function NestedTree(name: string, v: Value, x2: string, x4: string): Node {
    Node(name, v, [Node("two", Str(x2), []),
                   Node("three", Int(3), [Node("four", Str(x4), [])])])
  }

  /** The text of the children of that tree, closed by `</two>` for `three` as the library's
      own case writes it. */
  function NestedChildrenText(x2: string, x4: string): string {
    "<two=\"" + x2 + "\"/>" + ("<three=3>" + ("<four=\"" + x4 + "\">" + "</></two>"))
  }

  /** `<name=value/>` followed by `rest`. */
  function LeafText(name: string, v: Value, rest: string): string {
    "<" + (name + (ValueText(v) + ("/>" + rest)))
  }

  /** `<name=value>` followed by `inner`. */
  function BranchText(name: string, v: Value, inner: string): string {
    "<" + (name + (ValueText(v) + (">" + inner)))
  }

  /** `</name>` followed by `rest`. */
  function CloseText(name: string, rest: string): string {
    "</" + (name + (">" + rest))
  }

  /** An element with a non-empty readable name opens with `<` and a name character. */
  lemma NamedOpens(name: string, tail: string)
    requires name != [] && NameOk(name)
    ensures var y := "<" + (name + tail); |y| >= 2 && y[0] == '<' && y[1] != '/'
  {
    var y := "<" + (name + tail);
    assert y[1] == name[0];
  }

  /** A childless branch closed by `</>`, then its parent's closing tag. */
  lemma InnermostReads(n4: string, v4: Value, closeName: string, close: string)
    requires n4 != [] && NameOk(n4) && NameOk(closeName)
    ensures ParseChildren(BranchText(n4, v4, CloseText([], CloseText(closeName, close))))
         == Success(Parsed([Node(n4, v4, [])], close))
  {
    var c4 := CloseText([], CloseText(closeName, close));
    CloseTag(closeName, close);
    CloseTag([], CloseText(closeName, close));
    BranchReadsBack(n4, v4, c4, [], CloseText(closeName, close));
    NamedOpens(n4, ValueText(v4) + (">" + c4));
    Child(BranchText(n4, v4, c4), Node(n4, v4, []), CloseText(closeName, close), [], close);
    assert [Node(n4, v4, [])] + [] == [Node(n4, v4, [])];
  }

  /** A branch holding that innermost branch, as the last child of its parent. */
  lemma MiddleReads(n3: string, v3: Value, n4: string, v4: Value, closeName: string, close: string, w: string)
    requires n3 != [] && n4 != [] && NameOk(n3) && NameOk(n4) && NameOk(closeName)
    requires ParseChildren(close) == Success(Parsed([], w))
    ensures ParseChildren(BranchText(n3, v3, BranchText(n4, v4, CloseText([], CloseText(closeName, close)))))
         == Success(Parsed([Node(n3, v3, [Node(n4, v4, [])])], w))
  {
    var y4 := BranchText(n4, v4, CloseText([], CloseText(closeName, close)));
    var three := Node(n3, v3, [Node(n4, v4, [])]);
    InnermostReads(n4, v4, closeName, close);
    BranchReadsBack(n3, v3, y4, [Node(n4, v4, [])], close);
    NamedOpens(n3, ValueText(v3) + (">" + y4));
    Child(BranchText(n3, v3, y4), three, close, [], w);
    assert [three] + [] == [three];
  }

  /** The nested shape, for any names and values: a leaf, then a branch holding a branch with
      no children closed by `</>`, the middle branch closed by a tag named `closeName`. */
  lemma NestedShapeReads(n2: string, v2: Value, n3: string, v3: Value, n4: string, v4: Value,
                         closeName: string, close: string, w: string)
    requires n2 != [] && n3 != [] && n4 != []
    requires NameOk(n2) && NameOk(n3) && NameOk(n4) && NameOk(closeName)
    requires ParseChildren(close) == Success(Parsed([], w))
    ensures ParseChildren(LeafText(n2, v2, BranchText(n3, v3, BranchText(n4, v4, CloseText([], CloseText(closeName, close))))))
         == Success(Parsed([Node(n2, v2, []), Node(n3, v3, [Node(n4, v4, [])])], w))
  {
    var y3 := BranchText(n3, v3, BranchText(n4, v4, CloseText([], CloseText(closeName, close))));
    var three := Node(n3, v3, [Node(n4, v4, [])]);
    MiddleReads(n3, v3, n4, v4, closeName, close, w);
    LeafReadsBack(n2, v2, y3);
    NamedOpens(n2, ValueText(v2) + ("/>" + y3));
    Child(LeafText(n2, v2, y3), Node(n2, v2, []), y3, [three], w);
    assert [Node(n2, v2, [])] + [three] == [Node(n2, v2, []), three];
  }

  lemma TwoText(x2: string, rest: string)
    requires Plain(x2)
    ensures "<two=\"" + x2 + "\"/>" + rest == LeafText("two", Str(x2), rest)
  {
    PlainStringText(x2);
  }

  lemma ThreeText(rest: string)
    ensures "<three=3>" + rest == BranchText("three", Int(3), rest)
  {
    IntText(3);
  }

  lemma FourText(x4: string, rest: string)
    requires Plain(x4)
    ensures "<four=\"" + x4 + "\">" + rest == BranchText("four", Str(x4), rest)
  {
    PlainStringText(x4);
  }

  lemma ClosingText(close: string)
    ensures "</></two>" + close == CloseText([], CloseText("two", close))
  {
  }

  lemma NestedText(x2: string, x4: string, close: string)
    requires Plain(x2) && Plain(x4)
    ensures NestedChildrenText(x2, x4) + close
         == LeafText("two", Str(x2), BranchText("three", Int(3), BranchText("four", Str(x4), CloseText([], CloseText("two", close)))))
  {
    var a := "<two=\"" + x2 + "\"/>";
    var b := "<three=3>";
    var c := "<four=\"" + x4 + "\">";
    var d := "</></two>";
    Assoc(a, b + (c + d), close);
    Assoc(b, c + d, close);
    Assoc(c, d, close);
    ClosingText(close);
    FourText(x4, d + close);
    ThreeText(c + (d + close));
    TwoText(x2, b + (c + (d + close)));
  }

  /** The two children read back up to and past the root's closing tag. */
  lemma NestedChildrenRead(x2: string, x4: string, close: string, w: string)
    requires Plain(x2) && Plain(x4)
    requires ParseChildren(close) == Success(Parsed([], w))
    ensures ParseChildren(NestedChildrenText(x2, x4) + close)
         == Success(Parsed(NestedTree([], NoValue, x2, x4).children, w))
  {
    NestedShapeReads("two", Str(x2), "three", Int(3), "four", Str(x4), "two", close, w);
    NestedText(x2, x4, close);
    SameChildrenText(NestedChildrenText(x2, x4) + close,
                     LeafText("two", Str(x2), BranchText("three", Int(3), BranchText("four", Str(x4), CloseText([], CloseText("two", close))))),
                     Success(Parsed(NestedTree([], NoValue, x2, x4).children, w)));
  }

  lemma MinimalChildrenText(x2: string, x4: string, w: string)
    ensures "<" + ([] + (ValueText(NoValue) + (">" + (NestedChildrenText(x2, x4) + ("</" + ([] + (">" + w)))))))
         == "<>" + NestedChildrenText(x2, x4) + "</>" + w
  {
  }

  /** `<><two="second"/><three=3><four="fourth"></></two></>`: the closing tag of `three` is
      written `</two>`, and closing names are not compared with opening ones. */
  lemma ParseMinimalChildren(x2: string, x4: string, w: string)
    requires Plain(x2) && Plain(x4) && AllLayout(w)
    ensures Decode("<>" + NestedChildrenText(x2, x4) + "</>" + w) == Success(NestedTree([], NoValue, x2, x4))
  {
    CloseTag([], w);
    NestedChildrenRead(x2, x4, "</" + ([] + (">" + w)), w);
    DecodeBranch([], NoValue, NestedChildrenText(x2, x4) + ("</" + ([] + (">" + w))),
                 NestedTree([], NoValue, x2, x4).children, w);
    MinimalChildrenText(x2, x4, w);
  }

  lemma NameValueChildrenText(x2: string, x4: string, w: string)
    ensures "<" + ("one" + (("=" + [DigitChar(1)]) + (">" + (NestedChildrenText(x2, x4) + ("</" + ("one" + (">" + w)))))))
         == "<one=1>" + NestedChildrenText(x2, x4) + "</one>" + w
  {
  }

  /** `<one=1><two="second"/><three=3><four="fourth"></></two></one>`. */
  lemma ParseNameValueChildren(x2: string, x4: string, w: string)
    requires Plain(x2) && Plain(x4) && AllLayout(w)
    ensures Decode("<one=1>" + NestedChildrenText(x2, x4) + "</one>" + w) == Success(NestedTree("one", Int(1), x2, x4))
  {
    CloseTag("one", w);
    NestedChildrenRead(x2, x4, "</" + ("one" + (">" + w)), w);
    IntText(1);
    DecodeBranch("one", Int(1), NestedChildrenText(x2, x4) + ("</" + ("one" + (">" + w))),
                 NestedTree("one", Int(1), x2, x4).children, w);
    NameValueChildrenText(x2, x4, w);
  }

  /** What the library's nested cases look up in the tree they read. */
  lemma NestedLookups(name: string, v: Value, x2: string, x4: string)
    ensures GetChild(NestedTree(name, v, x2, x4), "two").Some?
    ensures GetString(GetChild(NestedTree(name, v, x2, x4), "two").value) == Success(x2)
    ensures GetChild(NestedTree(name, v, x2, x4), "three").Some?
    ensures GetInteger(GetChild(NestedTree(name, v, x2, x4), "three").value) == Success(3)
    ensures GetChild(GetChild(NestedTree(name, v, x2, x4), "three").value, "four").Some?
    ensures GetString(GetChild(GetChild(NestedTree(name, v, x2, x4), "three").value, "four").value) == Success(x4)
  {
    var t := NestedTree(name, v, x2, x4);
    assert t.children[0].name == "two";
    assert t.children[1].name == "three";
    assert t.children[1].children[0].name == "four";
  }
}

=== FILE: edf_format.dfy ===
/** The textual form of an EDF tree: the compact form written to the server (`toString`,
    `format(false)`) and the indented diagnostic form (`format(true)`). */
module EdfFormat {
  import opened Edf
  import opened Escaping

  /** The line ending of the indented form. */
  const PrettyEol: string := "\r\n"

  /** Indentation added per level in the indented form. */
  const IndentStep: string := "  "

  // ---------------------------------------------------------------- decimal integers

  predicate IsDigit(c: char) {
    '0' <= c <= '9'
  }

  function DigitChar(d: nat): (c: char)
    requires d < 10
    ensures IsDigit(c)
  {
    ('0' as int + d) as char
  }

  /** Decimal digits of a natural number, without leading zeros. */
  function NatDecimal(n: nat): string
    decreases n
  {
    if n < 10 then [DigitChar(n)] else NatDecimal(n / 10) + [DigitChar(n % 10)]
  }

  /** `Integer.toString`: an optional minus sign followed by the digits. */
  function Decimal(i: int): string {
    if i < 0 then "-" + NatDecimal(-i) else NatDecimal(i)
  }

  // ---------------------------------------------------------------- values

  /** The text between the name and the end of the opening tag. */
  function ValueText(v: Value): string {
    match v
    case NoValue => ""
    case Str(s) => "=" + [Quote] + Escape(s) + [Quote]
    case Int(i) => "=" + Decimal(i)
  }

  // ---------------------------------------------------------------- compact form

  /** `format(false)` / `toString`. Only a bare node is written as the text of a closing
      tag. */
  function Compact(n: Node): (r: string)
    ensures |r| >= 3 + |n.name|
    ensures r == "</>" <==> IsBare(n)
    decreases n
  {
    "<" + n.name + ValueText(n.value)
      + (if n.children == [] then "/>" else ">" + CompactAll(n.children) + "</>")
  }

  /** The children, each in compact form, one after another. */
  function CompactAll(cs: seq<Node>): string
    decreases cs
  {
    if cs == [] then "" else Compact(cs[0]) + CompactAll(cs[1..])
  }

  // ---------------------------------------------------------------- indented form

  /** `format(true)` for a node at the given indentation: the node's own line, its
      children two spaces further in, and a closing tag repeating the name. */
  function Pretty(n: Node, indent: string): (r: string)
    ensures |r| > |indent| + 3 && r[..|indent|] == indent && r[|indent|] == '<'
    ensures r[|r| - 1] == '\n'
    decreases n, 1
  {
    indent + PrettyElement(n, indent)
  }

  /** The indented form of a node after its leading indentation. */
  function PrettyElement(n: Node, indent: string): string
    decreases n, 0
  {
    "<" + n.name + ValueText(n.value)
      + (if n.children == [] then "/>"
         else ">" + PrettyEol + PrettyAll(n.children, indent + IndentStep) + indent + "</" + n.name + ">")
      + PrettyEol
  }

  function PrettyAll(cs: seq<Node>, indent: string): string
    decreases cs
  {
    if cs == [] then "" else Pretty(cs[0], indent) + PrettyAll(cs[1..], indent)
  }

  // ---------------------------------------------------------------- unambiguous forms

  /** An anonymous node with no value and no children. Both forms above write it as
      `</>`, which is also the text of a closing tag. */
  predicate IsBare(n: Node) {
    n.name == [] && n.value.NoValue? && n.children == []
  }

  /** No node of the tree is bare. */
  predicate NoBareNode(n: Node)
    decreases n
  {
    !IsBare(n) && forall i :: 0 <= i < |n.children| ==> NoBareNode(n.children[i])
  }

  /** The compact form with a bare node written `<></>`, as the parser tests spell the
      minimal element; every other node is written as by `Compact`. */
  function CompactSafe(n: Node): string
    decreases n
  {
    if IsBare(n) then "<></>"
    else
      "<" + n.name + ValueText(n.value)
        + (if n.children == [] then "/>" else ">" + CompactSafeAll(n.children) + "</>")
  }

  function CompactSafeAll(cs: seq<Node>): string
    decreases cs
  {
    if cs == [] then "" else CompactSafe(cs[0]) + CompactSafeAll(cs[1..])
  }

  /** The indented form with a bare node written `<></>`. */
  function PrettySafe(n: Node, indent: string): string
    decreases n, 1
  {
    indent + PrettySafeElement(n, indent)
  }

  function PrettySafeElement(n: Node, indent: string): string
    decreases n, 0
  {
    if IsBare(n) then "<></>" + PrettyEol
    else
      "<" + n.name + ValueText(n.value)
        + (if n.children == [] then "/>"
           else ">" + PrettyEol + PrettySafeAll(n.children, indent + IndentStep) + indent + "</" + n.name + ">")
        + PrettyEol
  }

  function PrettySafeAll(cs: seq<Node>, indent: string): string
    decreases cs
  {
    if cs == [] then "" else PrettySafe(cs[0], indent) + PrettySafeAll(cs[1..], indent)
  }

  /** On trees without bare nodes the unambiguous forms are the library's forms. */
  lemma {:induction false} SafeAgreesWithoutBareNodes(n: Node, indent: string)
    requires NoBareNode(n)
    ensures CompactSafe(n) == Compact(n)
    ensures PrettySafeElement(n, indent) == PrettyElement(n, indent)
    ensures PrettySafe(n, indent) == Pretty(n, indent)
    decreases n, 1
  {
    if n.children != [] {
      SafeAllAgreesWithoutBareNodes(n.children, indent + IndentStep);
    }
  }

  lemma {:induction false} SafeAllAgreesWithoutBareNodes(cs: seq<Node>, indent: string)
    requires forall i :: 0 <= i < |cs| ==> NoBareNode(cs[i])
    ensures CompactSafeAll(cs) == CompactAll(cs)
    ensures PrettySafeAll(cs, indent) == PrettyAll(cs, indent)
    decreases cs, 0
  {
    if cs != [] {
      SafeAgreesWithoutBareNodes(cs[0], indent);
      SafeAllAgreesWithoutBareNodes(cs[1..], indent);
    }
  }

  // ---------------------------------------------------------------- laws

  lemma {:induction false} CompactAllAppend(a: seq<Node>, b: seq<Node>)
    ensures CompactAll(a + b) == CompactAll(a) + CompactAll(b)
  {
    if a == [] {
      assert a + b == b;
    } else {
      assert (a + b)[1..] == a[1..] + b;
      CompactAllAppend(a[1..], b);
    }
  }

  /** Writing is a homomorphism over `add`: the new child's text appears just before the
      closing `</>`, and the text written for the earlier children is unchanged. */
  lemma {:induction false} CompactAfterAdd(n: Node, child: Node)
    ensures Compact(Add(n, child))
         == "<" + n.name + ValueText(n.value) + ">" + CompactAll(n.children) + Compact(child) + "</>"
  {
    var a := Add(n, child);
    assert a.children == n.children + [child];
    CompactBranch(a);
    CompactAllAppend(n.children, [child]);
    CompactAllSingle(child);
    TextAssoc("<" + n.name + ValueText(n.value) + ">", CompactAll(n.children), Compact(child), "</>");
  }

  /** A node with children is written as its opening tag, its children and `</>`. */
  lemma CompactBranch(n: Node)
    requires n.children != []
    ensures Compact(n) == "<" + n.name + ValueText(n.value) + ">" + CompactAll(n.children) + "</>"
  {
  }

  /** A one-child list is written as that child. */
  lemma CompactAllSingle(child: Node)
    ensures CompactAll([child]) == Compact(child)
  {
    assert CompactAll([child]) == Compact(child) + CompactAll([]);
  }

  /** String concatenation regroups freely. */
  lemma TextAssoc(a: string, b: string, c: string, d: string)
    ensures a + (b + c) + d == a + b + c + d
  {
  }
}

=== FILE: edf_parse.dfy ===
/** A reference reader for the EDF text form, written from the grammar the library's
    writer and its parser tests follow:

      node     := layout* "<" name value? ( "/>" | ">" node* layout* "</" name ">" )
      value    := "=" ( '"' escaped-text '"' | "-"? digit+ )

    The name in a closing tag is read and not compared with the opening name. It is a
    specification to test the writer against; the library's own generated parser is not
    part of this model. */
module EdfParse {
  import opened Wrappers
  import opened Edf
  import opened Escaping
  import opened EdfFormat

  datatype DecodeError = UnexpectedEnd | Unexpected(found: char) | BadNumber | TrailingText

  /** A value read from the front of the text, and the text that follows it. */
  datatype Parsed<+T> = Parsed(value: T, rest: string)

  /** Blank characters allowed between elements. */
  predicate IsLayout(c: char) {
    c == ' ' || c == '\t' || c == '\r' || c == '\n'
  }

  /** Characters allowed in an element name. */
  predicate IsNameChar(c: char) {
    c != '<' && c != '>' && c != '=' && c != '/' && c != Quote && !IsLayout(c)
  }

  predicate NameOk(name: string) {
    forall i :: 0 <= i < |name| ==> IsNameChar(name[i])
  }

  /** Every name in the tree can be read back. */
  predicate WellFormed(n: Node)
    decreases n
  {
    NameOk(n.name) && forall i :: 0 <= i < |n.children| ==> WellFormed(n.children[i])
  }

  // ---------------------------------------------------------------- lexical pieces

  function SkipLayout(s: string): (r: string)
    ensures |r| <= |s|
    ensures r == [] || !IsLayout(r[0])
  {
    if s != [] && IsLayout(s[0]) then SkipLayout(s[1..]) else s
  }

  /** The longest prefix made of name characters. */
  function TakeName(s: string): (r: Parsed<string>)
    ensures NameOk(r.value) && r.value + r.rest == s
    ensures r.rest == [] || !IsNameChar(r.rest[0])
  {
    if s != [] && IsNameChar(s[0]) then
      var p := TakeName(s[1..]);
      assert [s[0]] + p.value + p.rest == s;
      Parsed([s[0]] + p.value, p.rest)
    else Parsed([], s)
  }

  function TakeDigits(s: string): (r: Parsed<string>)
    ensures (forall i :: 0 <= i < |r.value| ==> IsDigit(r.value[i])) && r.value + r.rest == s
    ensures r.rest == [] || !IsDigit(r.rest[0])
  {
    if s != [] && IsDigit(s[0]) then
      var p := TakeDigits(s[1..]);
      assert [s[0]] + p.value + p.rest == s;
      Parsed([s[0]] + p.value, p.rest)
    else Parsed([], s)
  }

  /** The number a string of decimal digits denotes. */
  function DigitsValue(ds: string): nat
    requires forall i :: 0 <= i < |ds| ==> IsDigit(ds[i])
  {
    if ds == [] then 0
    else
      var last := ds[|ds| - 1];
      assert IsDigit(last);
      DigitsValue(ds[..|ds| - 1]) * 10 + (last as int - '0' as int)
  }

  /** An optionally negative decimal integer that fits in 32 bits. */
  function ParseInteger(s: string): (r: Result<Parsed<Int32>, DecodeError>)
    ensures r.Success? ==> |r.value.rest| < |s|
  {
    var negative := s != [] && s[0] == '-';
    var p := TakeDigits(if negative then s[1..] else s);
    if p.value == [] then Failure(BadNumber)
    else
      var d: int := DigitsValue(p.value);
      var v := if negative then -d else d;
      if -0x8000_0000 <= v < 0x8000_0000 then
        var i: Int32 := v;
        Success(Parsed(i, p.rest))
      else Failure(BadNumber)
  }

  /** The escaped text of a quoted string, up to and past its closing quote. */
  function ScanQuoted(s: string): (r: Result<Parsed<string>, DecodeError>)
    ensures r.Success? ==> |r.value.rest| < |s|
  {
    if s == [] then Failure(UnexpectedEnd)
    else if s[0] == Quote then Success(Parsed([], s[1..]))
    else if s[0] == Backslash then
      if |s| < 2 then Failure(UnexpectedEnd)
      else
        var p :- ScanQuoted(s[2..]);
        Success(Parsed(s[..2] + p.value, p.rest))
    else
      var p :- ScanQuoted(s[1..]);
      Success(Parsed([s[0]] + p.value, p.rest))
  }

  /** The optional `=value` part of an opening tag. */
  function ParseValue(s: string): (r: Result<Parsed<Value>, DecodeError>)
    ensures r.Success? ==> |r.value.rest| <= |s|
  {
    if s == [] || s[0] != '=' then Success(Parsed(NoValue, s))
    else if |s| >= 2 && s[1] == Quote then
      var p :- ScanQuoted(s[2..]);
      Success(Parsed(Str(Unescape(p.value)), p.rest))
    else
      var p :- ParseInteger(s[1..]);
      Success(Parsed(Int(p.value), p.rest))
  }

  function Expect(s: string, c: char): (r: Result<string, DecodeError>)
    ensures r.Success? ==> s != [] && s[0] == c && r.value == s[1..]
  {
    if s == [] then Failure(UnexpectedEnd)
    else if s[0] != c then Failure(Unexpected(s[0]))
    else Success(s[1..])
  }

  // ---------------------------------------------------------------- elements

  /** One element, with all of its descendants. */
  function ParseNode(s: string): (r: Result<Parsed<Node>, DecodeError>)
    ensures r.Success? ==> |r.value.rest| < |s|
    decreases |s|, 0
  {
    var t :- Expect(SkipLayout(s), '<');
    var name := TakeName(t);
    var v :- ParseValue(name.rest);
    var u := v.rest;
    if |u| >= 2 && u[0] == '/' && u[1] == '>' then
      Success(Parsed(Node(name.value, v.value, []), u[2..]))
    else
      var w :- Expect(u, '>');
      var cs :- ParseChildren(w);
      Success(Parsed(Node(name.value, v.value, cs.value), cs.rest))
  }

  /** Child elements up to and past the closing tag of their parent. */
  function ParseChildren(s: string): (r: Result<Parsed<seq<Node>>, DecodeError>)
    ensures r.Success? ==> |r.value.rest| < |s|
    decreases |s|, 1
  {
    var t := SkipLayout(s);
    if |t| >= 2 && t[0] == '<' && t[1] == '/' then
      var close := TakeName(t[2..]);
      var after :- Expect(close.rest, '>');
      Success(Parsed([], after))
    else
      var c :- ParseNode(t);
      var more :- ParseChildren(c.rest);
      Success(Parsed([c.value] + more.value, more.rest))
  }

  /** A whole message: one element, optionally followed by layout only. */
  function Decode(s: string): Result<Node, DecodeError> {
    var p :- ParseNode(s);
    if SkipLayout(p.rest) == [] then Success(p.value) else Failure(TrailingText)
  }
}

=== FILE: edf_roundtrip.dfy ===
/** Reading back what the writer produces. */
module EdfRoundTrip {
  import opened Wrappers
  import opened Edf
  import opened Escaping
  import opened EdfFormat
  import opened EdfParse

  // ---------------------------------------------------------------- lexical pieces

  lemma {:induction false} TakeNameOf(name: string, s: string)
    requires NameOk(name)
    requires s == [] || !IsNameChar(s[0])
    ensures TakeName(name + s) == Parsed(name, s)
  {
    if name == [] {
      assert name + s == s;
    } else {
      assert (name + s)[0] == name[0];
      assert (name + s)[1..] == name[1..] + s;
      TakeNameOf(name[1..], s);
      assert [name[0]] + name[1..] == name;
    }
  }

  lemma {:induction false} TakeDigitsOf(ds: string, s: string)
    requires forall i :: 0 <= i < |ds| ==> IsDigit(ds[i])
    requires s == [] || !IsDigit(s[0])
    ensures TakeDigits(ds + s) == Parsed(ds, s)
  {
    if ds == [] {
      assert ds + s == s;
    } else {
      assert (ds + s)[0] == ds[0];
      assert (ds + s)[1..] == ds[1..] + s;
      TakeDigitsOf(ds[1..], s);
      assert [ds[0]] + ds[1..] == ds;
    }
  }

  /** `NatDecimal` writes digits only, at least one, and they denote the number. */
  lemma {:induction false} NatDecimalReadsBack(n: nat)
    ensures NatDecimal(n) != []
    ensures forall i :: 0 <= i < |NatDecimal(n)| ==> IsDigit(NatDecimal(n)[i])
    ensures DigitsValue(NatDecimal(n)) == n
    decreases n
  {
    if n >= 10 {
      NatDecimalReadsBack(n / 10);
      var ds := NatDecimal(n);
      assert ds[..|ds| - 1] == NatDecimal(n / 10);
    }
  }

  lemma NatDecimalParses(m: nat, s: string)
    requires s == [] || !IsDigit(s[0])
    requires m < 0x8000_0000
    ensures ParseInteger(NatDecimal(m) + s) == Success(Parsed(m, s))
  {
    var t := NatDecimal(m) + s;
    NatDecimalReadsBack(m);
    assert IsDigit(t[0]);
    TakeDigitsOf(NatDecimal(m), s);
  }

  lemma NegativeDecimalParses(m: nat, s: string)
    requires s == [] || !IsDigit(s[0])
    requires 0 < m <= 0x8000_0000
    ensures ParseInteger("-" + NatDecimal(m) + s) == Success(Parsed(0 - m, s))
  {
    var t := "-" + NatDecimal(m) + s;
    SignSplits(NatDecimal(m) + s);
    assert t == "-" + (NatDecimal(m) + s);
    NatDecimalReadsBack(m);
    TakeDigitsOf(NatDecimal(m), s);
    assert TakeDigits(t[1..]) == Parsed(NatDecimal(m), s);
  }

  lemma SignSplits(u: string)
    ensures ("-" + u)[0] == '-' && ("-" + u)[1..] == u
  {
  }

  /** The decimal text of a 32-bit integer reads back as that integer. */
  lemma DecimalReadsBack(i: Int32, s: string)
    requires s == [] || !IsDigit(s[0])
    ensures ParseInteger(Decimal(i) + s) == Success(Parsed(i, s))
  {
    var j: int := i;
    if j < 0 {
      NegativeDecimalParses(0 - j, s);
      assert Decimal(i) + s == "-" + NatDecimal(0 - j) + s;
    } else {
      NatDecimalParses(j, s);
    }
  }

  /** The escaped text of a string, followed by a quote, scans back to itself. */
  lemma {:induction false} ScanEscaped(str: string, s: string)
    ensures ScanQuoted(EscapeEach(str) + [Quote] + s) == Success(Parsed(EscapeEach(str), s))
  {
    if str == [] {
      assert EscapeEach(str) + [Quote] + s == [Quote] + s;
    } else {
      var h := EscapeChar(str[0]);
      var u := EscapeEach(str[1..]) + [Quote] + s;
      ScanEscaped(str[1..], s);
      EscapedShape(str, s);
      if IsSpecial(str[0]) {
        ScanPair(h, u, EscapeEach(str[1..]), s);
      } else {
        ScanSingle(str[0], u, EscapeEach(str[1..]), s);
      }
    }
  }

  lemma EscapedShape(str: string, s: string)
    requires str != []
    ensures EscapeEach(str) == EscapeChar(str[0]) + EscapeEach(str[1..])
    ensures EscapeEach(str) + [Quote] + s == EscapeChar(str[0]) + (EscapeEach(str[1..]) + [Quote] + s)
  {
    var h := EscapeChar(str[0]);
    var e := EscapeEach(str[1..]);
    Assoc(h + e, [Quote], s);
    Assoc(h, e, [Quote] + s);
    Assoc(e, [Quote], s);
  }

  /** An escape pair is kept as it is while scanning. */
  lemma ScanPair(h: string, u: string, a: string, b: string)
    requires |h| == 2 && h[0] == Backslash
    requires ScanQuoted(u) == Success(Parsed(a, b))
    ensures ScanQuoted(h + u) == Success(Parsed(h + a, b))
  {
    var t := h + u;
    assert t[0] == Backslash && t[..2] == h && t[2..] == u;
  }

  /** Any other character than a quote or a backslash is kept while scanning. */
  lemma ScanSingle(c: char, u: string, a: string, b: string)
    requires !IsSpecial(c)
    requires ScanQuoted(u) == Success(Parsed(a, b))
    ensures ScanQuoted([c] + u) == Success(Parsed([c] + a, b))
  {
    var t := [c] + u;
    assert t[0] == c && t[1..] == u;
  }

  /** Text that may follow a value: the end of an opening tag. */
  predicate StartsTagEnd(s: string) {
    s != [] && (s[0] == '/' || s[0] == '>')
  }

  lemma StringValueReadsBack(str: string, s: string)
    ensures ParseValue(ValueText(Str(str)) + s) == Success(Parsed(Str(str), s))
  {
    var u := EscapeEach(str) + [Quote] + s;
    StringTextShape(str, s);
    ScanEscaped(str, s);
    QuotedValueReadsBack(u, EscapeEach(str), s);
    UnescapeEscape(str);
    EscapeIsPerCharacter(str);
  }

  lemma QuotedValueReadsBack(u: string, a: string, b: string)
    requires ScanQuoted(u) == Success(Parsed(a, b))
    ensures ParseValue("=" + ([Quote] + u)) == Success(Parsed(Str(Unescape(a)), b))
  {
    var t := "=" + ([Quote] + u);
    assert t[0] == '=' && t[1] == Quote && t[2..] == u;
  }

  lemma StringTextShape(str: string, s: string)
    ensures ValueText(Str(str)) + s == "=" + ([Quote] + (EscapeEach(str) + [Quote] + s))
  {
    EscapeIsPerCharacter(str);
    var e := EscapeEach(str);
    Assoc("=" + [Quote] + e, [Quote], s);
    Assoc("=" + [Quote], e, [Quote] + s);
    Assoc("=", [Quote], e + ([Quote] + s));
    Assoc(e, [Quote], s);
  }

  lemma IntegerValueReadsBack(i: Int32, s: string)
    requires StartsTagEnd(s)
    ensures ParseValue(ValueText(Int(i)) + s) == Success(Parsed(Int(i), s))
  {
    var d := Decimal(i) + s;
    DecimalOpens(i, s);
    var t := "=" + d;
    IntegerTextShape(i, s);
    assert t[0] == '=' && t[1] == d[0] && t[1..] == d;
    DecimalReadsBack(i, s);
  }

  lemma IntegerTextShape(i: Int32, s: string)
    ensures ValueText(Int(i)) + s == "=" + (Decimal(i) + s)
  {
    Assoc("=", Decimal(i), s);
  }

  /** The decimal text starts with a sign or a digit, never a quote. */
  lemma DecimalOpens(i: Int32, s: string)
    ensures |Decimal(i) + s| > 0 && (Decimal(i) + s)[0] != Quote
  {
    if i >= 0 {
      NatDecimalReadsBack(i);
      assert (Decimal(i) + s)[0] == NatDecimal(i)[0];
    }
  }

  /** The value part of an opening tag reads back as the value. */
  lemma ValueReadsBack(v: Value, s: string)
    requires StartsTagEnd(s)
    ensures ParseValue(ValueText(v) + s) == Success(Parsed(v, s))
  {
    match v
    case NoValue =>
      assert ValueText(v) + s == s;
    case Str(str) =>
      StringValueReadsBack(str, s);
    case Int(i) =>
      IntegerValueReadsBack(i, s);
  }

  // ---------------------------------------------------------------- layout and tags

  predicate AllLayout(w: string) {
    forall i :: 0 <= i < |w| ==> IsLayout(w[i])
  }

  lemma AllLayoutAppend(a: string, b: string)
    requires AllLayout(a) && AllLayout(b)
    ensures AllLayout(a + b)
  {
    assert forall i :: |a| <= i < |a + b| ==> (a + b)[i] == b[i - |a|];
  }

  lemma {:induction false} SkipLayoutOver(w: string, x: string)
    requires AllLayout(w)
    requires x == [] || !IsLayout(x[0])
    ensures SkipLayout(w + x) == x
  {
    if w == [] {
      assert w + x == x;
    } else {
      assert (w + x)[1..] == w[1..] + x;
      SkipLayoutOver(w[1..], x);
    }
  }

  /** Layout before an element does not change how the element is read. */
  lemma ParseNodeSkipsLayout(w: string, x: string)
    requires AllLayout(w)
    requires x != [] && !IsLayout(x[0])
    ensures ParseNode(w + x) == ParseNode(x)
  {
    SkipLayoutOver(w, x);
    assert SkipLayout(x) == x;
    SameAfterLayout(w + x, x);
  }

  /** An element is read from what is left after the layout, so two texts with the same
      remainder read alike. */
  lemma SameAfterLayout(s: string, t: string)
    requires SkipLayout(s) == SkipLayout(t)
    ensures ParseNode(s) == ParseNode(t)
  {
    assert Expect(SkipLayout(s), '<') == Expect(SkipLayout(t), '<');
  }

  /** A closing tag, after any layout, ends a child list; its name is not checked. */
  lemma CloseTagReadsBack(lead: string, name: string, rest: string)
    requires AllLayout(lead) && NameOk(name)
    ensures ParseChildren(lead + ("</" + (name + (">" + rest)))) == Success(Parsed([], rest))
  {
    var y := ">" + rest;
    var x := "</" + (name + y);
    assert x[0] == '<' && x[1] == '/' && x[2..] == name + y;
    SkipLayoutOver(lead, x);
    TakeNameOf(name, y);
    assert Expect(y, '>') == Success(rest);
  }

  lemma OpeningBracket(x: string)
    ensures Expect(SkipLayout("<" + x), '<') == Success(x)
  {
    var s := "<" + x;
    assert s[0] == '<' && s[1..] == x;
    assert SkipLayout(s) == s;
  }

  /** The opening tag `<name=value` is read as `name` and `value`, stopping at the tag end. */
  lemma OpenTagReadsBack(name: string, v: Value, after: string)
    requires NameOk(name) && StartsTagEnd(after)
    ensures Expect(SkipLayout("<" + (name + (ValueText(v) + after))), '<') == Success(name + (ValueText(v) + after))
    ensures TakeName(name + (ValueText(v) + after)) == Parsed(name, ValueText(v) + after)
    ensures ParseValue(ValueText(v) + after) == Success(Parsed(v, after))
  {
    var afterName := ValueText(v) + after;
    OpeningBracket(name + afterName);
    assert afterName == [] || !IsNameChar(afterName[0]) by {
      if ValueText(v) != [] {
        assert afterName[0] == '=';
      } else {
        assert afterName[0] == after[0];
      }
    }
    TakeNameOf(name, afterName);
    ValueReadsBack(v, after);
  }

  /** `<name=value/>` is a childless element. */
  lemma LeafReadsBack(name: string, v: Value, rest: string)
    requires NameOk(name)
    ensures ParseNode("<" + (name + (ValueText(v) + ("/>" + rest)))) == Success(Parsed(Node(name, v, []), rest))
  {
    var after := "/>" + rest;
    assert after[0] == '/' && after[1] == '>' && after[2..] == rest;
    OpenTagReadsBack(name, v, after);
  }

  /** `<name=value>` followed by a child list is an element with those children. */
  lemma BranchReadsBack(name: string, v: Value, inner: string, cs: seq<Node>, rest: string)
    requires NameOk(name)
    requires ParseChildren(inner) == Success(Parsed(cs, rest))
    ensures ParseNode("<" + (name + (ValueText(v) + (">" + inner)))) == Success(Parsed(Node(name, v, cs), rest))
  {
    var after := ">" + inner;
    assert after[0] == '>' && after[1..] == inner;
    OpenTagReadsBack(name, v, after);
  }

  /** A bare node written `<></>` reads back. */
  lemma BareReadsBack(rest: string)
    ensures ParseNode("<></>" + rest) == Success(Parsed(Node([], NoValue, []), rest))
  {
    var close := "</>" + rest;
    EndReadsBack(rest);
    BranchReadsBack([], NoValue, close, [], rest);
    BareShape(rest);
    SameText("<></>" + rest, "<" + ([] + (ValueText(NoValue) + (">" + close))), Success(Parsed(Node([], NoValue, []), rest)));
  }

  lemma BareShape(rest: string)
    ensures "<></>" + rest == "<" + ([] + (ValueText(NoValue) + (">" + ("</>" + rest))))
  {
    assert ValueText(NoValue) == [];
    Assoc("<", ">", "</>" + rest);
    Assoc("<>", "</>", rest);
  }

  lemma SameText(x: string, y: string, p: Result<Parsed<Node>, DecodeError>)
    requires x == y && ParseNode(y) == p
    ensures ParseNode(x) == p
  {
  }

  lemma BareCloseShape(rest: string)
    ensures [] + ("</" + ([] + (">" + rest))) == "</>" + rest
  {
    Assoc("</", ">", rest);
  }

  /** One element, after layout, at the head of a child list. */
  lemma ChildStep(lead: string, y: string, c: Node, r: string, cs: seq<Node>, rest: string)
    requires AllLayout(lead)
    requires |y| >= 2 && y[0] == '<' && y[1] != '/'
    requires ParseNode(y) == Success(Parsed(c, r))
    requires ParseChildren(r) == Success(Parsed(cs, rest))
    ensures ParseChildren(lead + y) == Success(Parsed([c] + cs, rest))
  {
    SkipLayoutOver(lead, y);
  }

  // ---------------------------------------------------------------- compact form

  /** Every element the safe writer produces starts with `<` followed by something other than `/`. */
  lemma CompactSafeOpens(n: Node)
    requires NameOk(n.name)
    ensures |CompactSafe(n)| >= 2 && CompactSafe(n)[0] == '<' && CompactSafe(n)[1] != '/'
  {
    if !IsBare(n) {
      var s := CompactSafe(n);
      if n.name != [] {
        assert s[1] == n.name[0];
      } else if !n.value.NoValue? {
        assert s[1] == ValueText(n.value)[0];
      } else {
        assert s[1] == '>';
      }
    }
  }

  lemma CompactLeafShape(n: Node, rest: string)
    requires !IsBare(n) && n.children == []
    ensures CompactSafe(n) + rest == "<" + (n.name + (ValueText(n.value) + ("/>" + rest)))
  {
  }

  lemma Assoc(a: string, b: string, c: string)
    ensures (a + b) + c == a + (b + c)
  {
  }

  lemma CompactBranchShape(n: Node, rest: string)
    requires !IsBare(n) && n.children != []
    ensures CompactSafe(n) + rest
         == "<" + (n.name + (ValueText(n.value) + (">" + (CompactSafeAll(n.children) + ("</>" + rest)))))
  {
    var a := CompactSafeAll(n.children);
    var v := ValueText(n.value);
    var tail := ">" + a + "</>";
    assert CompactSafe(n) == "<" + n.name + v + tail;
    Assoc("<" + n.name + v, tail, rest);
    Assoc(">" + a, "</>", rest);
    Assoc(">", a, "</>" + rest);
    Assoc("<" + n.name, v, tail + rest);
    Assoc("<", n.name, v + (tail + rest));
  }

  /** `ParseNode(CompactSafe(n) + rest)` yields `n` and leaves `rest`. */
  lemma {:induction false} CompactSafeReadsBack(n: Node, rest: string)
    requires WellFormed(n)
    ensures ParseNode(CompactSafe(n) + rest) == Success(Parsed(n, rest))
    decreases n, 1
  {
    if IsBare(n) {
      BareReadsBack(rest);
    } else if n.children == [] {
      LeafReadsBack(n.name, n.value, rest);
      CompactLeafShape(n, rest);
    } else {
      var inner := CompactSafeAll(n.children) + ("</>" + rest);
      CompactSafeAllReadsBack(n.children, rest);
      BranchReadsBack(n.name, n.value, inner, n.children, rest);
      CompactBranchShape(n, rest);
    }
  }

  lemma CompactAllConsShape(cs: seq<Node>, close: string)
    requires cs != []
    ensures CompactSafeAll(cs) + close == [] + (CompactSafe(cs[0]) + (CompactSafeAll(cs[1..]) + close))
  {
    Assoc(CompactSafe(cs[0]), CompactSafeAll(cs[1..]), close);
  }

  lemma {:induction false} CompactSafeAllReadsBack(cs: seq<Node>, rest: string)
    requires forall i :: 0 <= i < |cs| ==> WellFormed(cs[i])
    ensures ParseChildren(CompactSafeAll(cs) + ("</>" + rest)) == Success(Parsed(cs, rest))
    decreases cs, 0
  {
    var close := "</>" + rest;
    if cs == [] {
      EndReadsBack(rest);
      assert CompactSafeAll(cs) + close == close;
    } else {
      var later := CompactSafeAll(cs[1..]) + close;
      assert WellFormed(cs[0]);
      CompactSafeOpens(cs[0]);
      CompactSafeReadsBack(cs[0], later);
      CompactSafeAllReadsBack(cs[1..], rest);
      ChildStep([], CompactSafe(cs[0]) + later, cs[0], later, cs[1..], rest);
      CompactAllConsShape(cs, close);
      assert [cs[0]] + cs[1..] == cs;
      SameChildrenText(CompactSafeAll(cs) + close, [] + (CompactSafe(cs[0]) + later), Success(Parsed(cs, rest)));
    }
  }

  /** A closing `</>` ends a child list. */
  lemma EndReadsBack(rest: string)
    ensures ParseChildren("</>" + rest) == Success(Parsed([], rest))
  {
    CloseTagReadsBack([], [], rest);
    BareCloseShape(rest);
    SameChildrenText("</>" + rest, [] + ("</" + ([] + (">" + rest))), Success(Parsed([], rest)));
  }

  lemma SameChildrenText(x: string, y: string, p: Result<Parsed<seq<Node>>, DecodeError>)
    requires x == y && ParseChildren(y) == p
    ensures ParseChildren(x) == p
  {
  }

  /** Decoding the unambiguous compact form gives back the tree, for every tree whose names
      are readable. */
  lemma DecodeCompactSafe(n: Node)
    requires WellFormed(n)
    ensures Decode(CompactSafe(n)) == Success(n)
  {
    CompactSafeReadsBack(n, []);
    assert CompactSafe(n) + [] == CompactSafe(n);
  }

  /** The library's compact form reads back for trees with no bare node. */
  lemma DecodeCompact(n: Node)
    requires WellFormed(n) && NoBareNode(n)
    ensures Decode(Compact(n)) == Success(n)
  {
    SafeAgreesWithoutBareNodes(n, []);
    DecodeCompactSafe(n);
  }

  // ---------------------------------------------------------------- indented form

  lemma PrettySafeElementOpens(n: Node, indent: string)
    requires NameOk(n.name)
    ensures |PrettySafeElement(n, indent)| >= 2
    ensures PrettySafeElement(n, indent)[0] == '<' && PrettySafeElement(n, indent)[1] != '/'
  {
    var s := PrettySafeElement(n, indent);
    if !IsBare(n) {
      if n.name != [] {
        assert s[1] == n.name[0];
      } else if !n.value.NoValue? {
        assert s[1] == ValueText(n.value)[0];
      } else {
        assert s[1] == '>';
      }
    }
  }

  lemma PrettyBareShape(n: Node, indent: string, rest: string)
    requires IsBare(n)
    ensures PrettySafeElement(n, indent) + rest == "<></>" + (PrettyEol + rest)
  {
    Assoc("<></>", PrettyEol, rest);
  }

  lemma PrettyLeafShape(n: Node, indent: string, rest: string)
    requires !IsBare(n) && n.children == []
    ensures PrettySafeElement(n, indent) + rest
         == "<" + (n.name + (ValueText(n.value) + ("/>" + (PrettyEol + rest))))
  {
    var v := ValueText(n.value);
    assert PrettySafeElement(n, indent) == "<" + n.name + v + "/>" + PrettyEol;
    Assoc("<" + n.name + v + "/>", PrettyEol, rest);
    Assoc("<" + n.name + v, "/>", PrettyEol + rest);
    Assoc("<" + n.name, v, "/>" + (PrettyEol + rest));
    Assoc("<", n.name, v + ("/>" + (PrettyEol + rest)));
  }

  /** The indented branch, with its children's text `a` and its closing line `close`. */
  lemma PrettyBranchShape(n: Node, indent: string, rest: string)
    requires !IsBare(n) && n.children != []
    ensures PrettySafeElement(n, indent) + rest
         == "<" + (n.name + (ValueText(n.value) + (">" + (PrettyEol + PrettySafeAll(n.children, indent + IndentStep)
              + (indent + ("</" + (n.name + (">" + (PrettyEol + rest)))))))))
  {
    var v := ValueText(n.value);
    var a := PrettySafeAll(n.children, indent + IndentStep);
    var t := ">" + PrettyEol + a + indent + "</" + n.name + ">";
    assert PrettySafeElement(n, indent) == "<" + n.name + v + t + PrettyEol;
    var e := PrettyEol + rest;
    // the closing line
    Assoc(indent + "</" + n.name, ">", e);
    Assoc(indent + "</", n.name, ">" + e);
    Assoc(indent, "</", n.name + (">" + e));
    var close := indent + ("</" + (n.name + (">" + e)));
    // the opening part
    var b := PrettyEol + a;
    Assoc(">" + b, indent + "</" + n.name + ">", e);
    Assoc(">" + b + indent + "</" + n.name, ">", e);
    Assoc(">" + b + indent + "</", n.name, ">" + e);
    Assoc(">" + b + indent, "</", n.name + (">" + e));
    Assoc(">" + b, indent, "</" + (n.name + (">" + e)));
    Assoc(">", PrettyEol, a);
    Assoc(">", b, close);
    assert t + e == ">" + (b + close);
    Assoc("<" + n.name + v + t, PrettyEol, rest);
    Assoc("<" + n.name + v, t, e);
    Assoc("<" + n.name, v, t + e);
    Assoc("<", n.name, v + (t + e));
  }

  /** The indented element reads back as `n`, leaving its line end in front of `rest`. */
  lemma {:induction false} PrettySafeReadsBack(n: Node, indent: string, rest: string)
    requires WellFormed(n) && AllLayout(indent)
    ensures ParseNode(PrettySafeElement(n, indent) + rest) == Success(Parsed(n, PrettyEol + rest))
    decreases n, 1
  {
    if IsBare(n) {
      BareReadsBack(PrettyEol + rest);
      PrettyBareShape(n, indent, rest);
    } else if n.children == [] {
      LeafReadsBack(n.name, n.value, PrettyEol + rest);
      PrettyLeafShape(n, indent, rest);
    } else {
      var inner := indent + IndentStep;
      AllLayoutAppend(indent, IndentStep);
      var close := indent + ("</" + (n.name + (">" + (PrettyEol + rest))));
      PrettySafeAllReadsBack(n.children, PrettyEol, inner, indent, n.name, PrettyEol + rest);
      var body := PrettyEol + PrettySafeAll(n.children, inner) + close;
      BranchReadsBack(n.name, n.value, body, n.children, PrettyEol + rest);
      PrettyBranchShape(n, indent, rest);
    }
  }

  lemma PrettyAllEmptyShape(lead: string, indent: string, close: string)
    ensures lead + PrettySafeAll([], indent) + close == lead + close
  {
  }

  lemma PrettyAllConsShape(cs: seq<Node>, lead: string, indent: string, close: string)
    requires cs != []
    ensures lead + PrettySafeAll(cs, indent) + close
         == (lead + indent) + (PrettySafeElement(cs[0], indent) + (PrettySafeAll(cs[1..], indent) + close))
  {
    var e := PrettySafeElement(cs[0], indent);
    var l := PrettySafeAll(cs[1..], indent);
    assert PrettySafeAll(cs, indent) == indent + e + l;
    Assoc(lead, indent + e + l, close);
    Assoc(indent + e, l, close);
    Assoc(indent, e, l + close);
    Assoc(lead, indent, e + (l + close));
  }

  /** An empty indented child list is just its parent's closing tag. */
  lemma PrettySafeNoChildrenReadBack(lead: string, indent: string, closeIndent: string, closeName: string,
                                     rest: string)
    requires AllLayout(lead) && AllLayout(closeIndent) && NameOk(closeName)
    ensures ParseChildren(lead + PrettySafeAll([], indent) + (closeIndent + ("</" + (closeName + (">" + rest)))))
         == Success(Parsed([], rest))
  {
    var close := closeIndent + ("</" + (closeName + (">" + rest)));
    AllLayoutAppend(lead, closeIndent);
    CloseTagReadsBack(lead + closeIndent, closeName, rest);
    PrettyAllEmptyShape(lead, indent, close);
    Assoc(lead, closeIndent, "</" + (closeName + (">" + rest)));
    SameChildrenText(lead + PrettySafeAll([], indent) + close,
                     (lead + closeIndent) + ("</" + (closeName + (">" + rest))), Success(Parsed([], rest)));
  }

  /** Indented children, each preceded by layout, read back up to their parent's closing tag. */
  lemma {:induction false} PrettySafeAllReadsBack(cs: seq<Node>, lead: string, indent: string,
                                                  closeIndent: string, closeName: string, rest: string)
    requires forall i :: 0 <= i < |cs| ==> WellFormed(cs[i])
    requires AllLayout(lead) && AllLayout(indent) && AllLayout(closeIndent) && NameOk(closeName)
    ensures ParseChildren(lead + PrettySafeAll(cs, indent) + (closeIndent + ("</" + (closeName + (">" + rest)))))
         == Success(Parsed(cs, rest))
    decreases cs, 0
  {
    var close := closeIndent + ("</" + (closeName + (">" + rest)));
    if cs == [] {
      PrettySafeNoChildrenReadBack(lead, indent, closeIndent, closeName, rest);
    } else {
      assert WellFormed(cs[0]);
      PrettySafeReadsBack(cs[0], indent, PrettySafeAll(cs[1..], indent) + close);
      PrettySafeAllReadsBack(cs[1..], PrettyEol, indent, closeIndent, closeName, rest);
      PrettyConsStep(cs, lead, indent, close, rest);
    }
  }

  /** One step of the above: the first child reads back, then the rest after its line end. */
  lemma PrettyConsStep(cs: seq<Node>, lead: string, indent: string, close: string, rest: string)
    requires cs != [] && AllLayout(lead) && AllLayout(indent) && NameOk(cs[0].name)
    requires ParseNode(PrettySafeElement(cs[0], indent) + (PrettySafeAll(cs[1..], indent) + close))
          == Success(Parsed(cs[0], PrettyEol + (PrettySafeAll(cs[1..], indent) + close)))
    requires ParseChildren(PrettyEol + PrettySafeAll(cs[1..], indent) + close) == Success(Parsed(cs[1..], rest))
    ensures ParseChildren(lead + PrettySafeAll(cs, indent) + close) == Success(Parsed(cs, rest))
  {
    var later := PrettySafeAll(cs[1..], indent) + close;
    var y := PrettySafeElement(cs[0], indent) + later;
    PrettySafeElementOpens(cs[0], indent);
    AllLayoutAppend(lead, indent);
    Assoc(PrettyEol, PrettySafeAll(cs[1..], indent), close);
    SameChildrenText(PrettyEol + later, PrettyEol + PrettySafeAll(cs[1..], indent) + close, Success(Parsed(cs[1..], rest)));
    ChildStep(lead + indent, y, cs[0], PrettyEol + later, cs[1..], rest);
    PrettyAllConsShape(cs, lead, indent, close);
    assert [cs[0]] + cs[1..] == cs;
    SameChildrenText(lead + PrettySafeAll(cs, indent) + close, (lead + indent) + y, Success(Parsed(cs, rest)));
  }

  /** Decoding the unambiguous indented form gives back the tree. */
  lemma DecodePrettySafe(n: Node)
    requires WellFormed(n)
    ensures Decode(PrettySafe(n, [])) == Success(n)
  {
    PrettySafeReadsBack(n, [], []);
    assert PrettySafe(n, []) == PrettySafeElement(n, []) + [];
    assert SkipLayout(PrettyEol + []) == [];
  }

  /** The library's indented form reads back for trees with no bare node. */
  lemma DecodePretty(n: Node)
    requires WellFormed(n) && NoBareNode(n)
    ensures Decode(Pretty(n, [])) == Success(n)
  {
    SafeAgreesWithoutBareNodes(n, []);
    DecodePrettySafe(n);
  }
}

=== FILE: errors.dfy ===
/** The exceptions the client library raises, as plain failure values. */
module Errors {

  /** Why an operation could not reach the server (the enumeration of NoConnectionError). */
  datatype NoConnectionReason = CouldNotConnect | ConnectionLost | LoggedOut | ForceDisconnect

  /** The tag of an EDF value, used to report a type mismatch. */
  datatype ValueTag = StringTag | IntegerTag | NoneTag

  datatype UaError =
    | TypeMismatch(expected: ValueTag, found: ValueTag)   // EDFTypeException
    | WrongEdf(what: string)                              // WrongEDFException
    | InvalidOperation(what: string)                      // MessageInvalidOperation
    | InvalidData(what: string)                           // MessageInvalidData
    | NoConnection(reason: NoConnectionReason)            // NoConnectionError
    | NullReference                                       // a NullPointerException
    | Fatal(what: string)                                 // a java.lang.Error
}

=== FILE: escape.dfy ===
/** Escaping of EDF string values. The writer replaces every backslash by two backslashes
    and then every double quote by backslash-quote; the reader undoes the two replacements
    in the opposite order. Each replacement is a Java `replaceAll` with a literal pattern,
    which rewrites the leftmost match and continues after it. */
module Escaping {

  const Backslash: char := '\\'
  const Quote: char := '"'

  predicate IsSpecial(c: char) {
    c == Backslash || c == Quote
  }

  // ---------------------------------------------------------------- the writer

  /** First pass of `escape`: `\` becomes `\\`. */
  function DoubleBackslashes(s: string): string {
    if s == [] then []
    else (if s[0] == Backslash then [Backslash, Backslash] else [s[0]]) + DoubleBackslashes(s[1..])
  }

  /** Second pass of `escape`: `"` becomes `\"`. */
  function EscapeQuotes(s: string): string {
    if s == [] then []
    else (if s[0] == Quote then [Backslash, Quote] else [s[0]]) + EscapeQuotes(s[1..])
  }

  /** `escape`: the two passes together escape each character on its own. */
  function Escape(s: string): (r: string)
    ensures r == EscapeEach(s)
  {
    EscapeIsPerCharacter(s);
    EscapeQuotes(DoubleBackslashes(s))
  }

  // ---------------------------------------------------------------- the reader

  /** First pass of `unescape`: each leftmost `\"` becomes `"`. */
  function UnescapeQuotes(s: string): (r: string)
    ensures |r| <= |s|
    ensures SpecialCount(s) == 0 ==> r == s
  {
    if s == [] then []
    else if |s| >= 2 && s[0] == Backslash && s[1] == Quote then [Quote] + UnescapeQuotes(s[2..])
    else [s[0]] + UnescapeQuotes(s[1..])
  }

  /** Second pass of `unescape`: each leftmost `\\` becomes `\`. */
  function UndoubleBackslashes(s: string): (r: string)
    ensures |r| <= |s|
    ensures SpecialCount(s) == 0 ==> r == s
  {
    if s == [] then []
    else if |s| >= 2 && s[0] == Backslash && s[1] == Backslash then [Backslash] + UndoubleBackslashes(s[2..])
    else [s[0]] + UndoubleBackslashes(s[1..])
  }

  /** `unescape`: it only ever shortens its input, and leaves text with no backslash or quote
      as it is. */
  function Unescape(s: string): (r: string)
    ensures |r| <= |s|
    ensures SpecialCount(s) == 0 ==> r == s
  {
    UndoubleBackslashes(UnescapeQuotes(s))
  }

  // ---------------------------------------------------------------- reference: one character at a time

  /** What a single character becomes on the wire. */
  function EscapeChar(c: char): (r: string)
    ensures |r| == (if IsSpecial(c) then 2 else 1)
    ensures IsSpecial(c) ==> r == [Backslash, c]
    ensures !IsSpecial(c) ==> r == [c]
  {
    if IsSpecial(c) then [Backslash, c] else [c]
  }

  function EscapeEach(s: string): string {
    if s == [] then [] else EscapeChar(s[0]) + EscapeEach(s[1..])
  }

  /** Number of characters of `s` that need escaping. */
  function SpecialCount(s: string): nat {
    if s == [] then 0 else (if IsSpecial(s[0]) then 1 else 0) + SpecialCount(s[1..])
  }

  lemma {:induction false} EscapeQuotesAppend(a: string, b: string)
    ensures EscapeQuotes(a + b) == EscapeQuotes(a) + EscapeQuotes(b)
  {
    if a != [] {
      assert (a + b)[1..] == a[1..] + b;
      EscapeQuotesAppend(a[1..], b);
    } else {
      assert a + b == b;
    }
  }

  /** The two-pass writer escapes each character independently. */
  lemma {:induction false} EscapeIsPerCharacter(s: string)
    ensures EscapeQuotes(DoubleBackslashes(s)) == EscapeEach(s)
  {
    if s != [] {
      var head := if s[0] == Backslash then [Backslash, Backslash] else [s[0]];
      assert DoubleBackslashes(s) == head + DoubleBackslashes(s[1..]);
      EscapeQuotesAppend(head, DoubleBackslashes(s[1..]));
      EscapeIsPerCharacter(s[1..]);
      if s[0] == Backslash {
        assert EscapeQuotes(head) == [Backslash] + EscapeQuotes([Backslash]);
      }
    }
  }

  // ---------------------------------------------------------------- round trip

  lemma {:induction false} EscapeEachNeverStartsWithQuote(s: string)
    ensures EscapeEach(s) == [] <==> s == []
    ensures EscapeEach(s) != [] ==> EscapeEach(s)[0] != Quote
  {
    if s != [] {
      assert EscapeEach(s) == EscapeChar(s[0]) + EscapeEach(s[1..]);
    }
  }

  /** Undoing the quote escapes leaves exactly the doubled backslashes. */
  lemma {:induction false} UnescapeQuotesOfEscape(s: string)
    ensures UnescapeQuotes(EscapeEach(s)) == DoubleBackslashes(s)
  {
    if s != [] {
      var c, rest := s[0], EscapeEach(s[1..]);
      var e := EscapeEach(s);
      assert e == EscapeChar(c) + rest;
      UnescapeQuotesOfEscape(s[1..]);
      EscapeEachNeverStartsWithQuote(s[1..]);
      if c == Backslash {
        assert e[1..] == [Backslash] + rest;
        assert UnescapeQuotes(e) == [Backslash] + UnescapeQuotes(e[1..]);
        assert e[1..][1..] == rest;
        assert UnescapeQuotes(e[1..]) == [Backslash] + UnescapeQuotes(rest);
      } else if c == Quote {
        assert e[2..] == rest;
      } else {
        assert e[1..] == rest;
      }
    }
  }

  lemma {:induction false} UndoubleOfDouble(s: string)
    ensures UndoubleBackslashes(DoubleBackslashes(s)) == s
  {
    if s != [] {
      var d := DoubleBackslashes(s);
      UndoubleOfDouble(s[1..]);
      if s[0] == Backslash {
        assert d[2..] == DoubleBackslashes(s[1..]);
      } else {
        assert d[1..] == DoubleBackslashes(s[1..]);
      }
    }
  }

  /** `unescape(escape(s)) == s` for every string. */
  lemma UnescapeEscape(s: string)
    ensures Unescape(Escape(s)) == s
  {
    EscapeIsPerCharacter(s);
    UnescapeQuotesOfEscape(s);
    UndoubleOfDouble(s);
  }

  // ---------------------------------------------------------------- shape of the escaped text

  lemma {:induction false} EscapeEachShape(s: string)
    ensures |EscapeEach(s)| == |s| + SpecialCount(s)
    ensures SpecialCount(s) == 0 ==> EscapeEach(s) == s
    ensures forall i :: 0 <= i < |EscapeEach(s)| && EscapeEach(s)[i] == Quote ==> 0 < i && EscapeEach(s)[i - 1] == Backslash
  {
    if s != [] {
      EscapeEachShape(s[1..]);
      var e, h, t := EscapeEach(s), EscapeChar(s[0]), EscapeEach(s[1..]);
      assert e == h + t;
      forall i | 0 <= i < |e| && e[i] == Quote
        ensures 0 < i && e[i - 1] == Backslash
      {
        if i >= |h| {
          assert e[i] == t[i - |h|];
          assert e[i - 1] == t[i - |h| - 1];
        }
      }
      if SpecialCount(s) == 0 {
        assert s == [s[0]] + s[1..];
      }
    }
  }

  /** `escape` lengthens its input by one per backslash or quote, is the identity on text
      with neither, and never leaves a quote without a backslash before it. */
  lemma EscapeShape(s: string)
    ensures |Escape(s)| == |s| + SpecialCount(s)
    ensures SpecialCount(s) == 0 ==> Escape(s) == s
    ensures forall i :: 0 <= i < |Escape(s)| && Escape(s)[i] == Quote ==> 0 < i && Escape(s)[i - 1] == Backslash
  {
    EscapeIsPerCharacter(s);
    EscapeEachShape(s);
  }

  /** `SpecialCount` is zero exactly when no character needs escaping. */
  lemma {:induction false} NoSpecials(s: string)
    ensures SpecialCount(s) == 0 <==> forall i :: 0 <= i < |s| ==> !IsSpecial(s[i])
  {
    if s != [] {
      NoSpecials(s[1..]);
      assert forall i :: 1 <= i < |s| ==> s[i] == s[1..][i - 1];
    }
  }
}

=== FILE: folder.dfy ===
/** Reading a folder record out of a `<folder=id>` tree. */
module Folders {
  import opened Wrappers
  import opened Errors
  import opened Edf
  import opened CaseFold

  datatype Folder = Folder(name: string, id: Int32, unread: Int32, editors: seq<Int32>)

  const RootError := "Expected '<folder=[number]></>"
  const NameError := "Expected <name=[string]/>"
  const UnreadError := "Expected <unread=[number]/>"
  const EditorError := "Expected <editor=[number]/>"
  const MissingError := "<folder> is missing a required element"

  /** The fields gathered while walking the children; `name` is null until a name is read. */
  datatype Fields = Fields(name: Option<string>, unread: Int32, editors: seq<Int32>)

  /** What one child does to the fields gathered so far: `name` must be a non-empty string,
      `unread` and `editor` must be integers; a later `name` or `unread` replaces an earlier
      one, every `editor` is kept; any other child is skipped. */
  function Absorb(f: Fields, c: Node): Result<Fields, UaError> {
    if c.name == "name" then
      if !c.value.Str? || c.value.s == [] then Failure(WrongEdf(NameError))
      else Success(f.(name := Some(c.value.s)))
    else if c.name == "unread" then
      if !c.value.Int? then Failure(WrongEdf(UnreadError))
      else Success(f.(unread := c.value.i))
    else if c.name == "editor" then
      if !c.value.Int? then Failure(WrongEdf(EditorError))
      else Success(f.(editors := f.editors + [c.value.i]))
    else
      Success(f)
  }

  /** The walk over the children in document order; the first failing child ends it. */
  function Scan(cs: seq<Node>, f: Fields): Result<Fields, UaError>
    decreases |cs|
  {
    if cs == [] then Success(f)
    else
      var g :- Absorb(f, cs[0]);
      Scan(cs[1..], g)
  }

  /** `new Folder(EDFData)`: the root must be named "folder" in any case and hold an integer,
      the folder's id; a name is required. */
  function Decode(t: Node): (r: Result<Folder, UaError>)
    ensures !RootOk(t) ==> r == Failure(WrongEdf(RootError))
    ensures r.Success? ==> RootOk(t) && r.value.id == t.value.i
  {
    if !EqualsIgnoreCase(t.name, "folder") || !t.value.Int? then
      Failure(WrongEdf(RootError))
    else
      var f :- Scan(t.children, Fields(None, 0, []));
      if f.name.None? then Failure(WrongEdf(MissingError))
      else Success(Folder(f.name.value, t.value.i, f.unread, f.editors))
  }

  // ---------------------------------------------------------------- the same rules, stated per child

  predicate RootOk(t: Node) {
    EqualsIgnoreCase(t.name, "folder") && t.value.Int?
  }

  /** The complaint a child raises, if any. */
  function Complaint(c: Node): Option<UaError> {
    if c.name == "name" && !(c.value.Str? && c.value.s != []) then Some(WrongEdf(NameError))
    else if c.name == "unread" && !c.value.Int? then Some(WrongEdf(UnreadError))
    else if c.name == "editor" && !c.value.Int? then Some(WrongEdf(EditorError))
    else None
  }

  predicate ChildrenOk(cs: seq<Node>) {
    forall i :: 0 <= i < |cs| ==> Complaint(cs[i]).None?
  }

  /** The complaint of the first child that has one. */
  function FirstComplaint(cs: seq<Node>): Option<UaError>
    decreases |cs|
  {
    if cs == [] then None
    else if Complaint(cs[0]).Some? then Complaint(cs[0])
    else FirstComplaint(cs[1..])
  }

  /** The integers of `ns`, in order. */
  function Integers(ns: seq<Node>): seq<Int32>
    decreases |ns|
  {
    if ns == [] then [] else (if ns[0].value.Int? then [ns[0].value.i] else []) + Integers(ns[1..])
  }

  lemma {:induction false} FirstComplaintFound(cs: seq<Node>)
    ensures FirstComplaint(cs).None? <==> ChildrenOk(cs)
    decreases |cs|
  {
    if cs != [] {
      FirstComplaintFound(cs[1..]);
      if ChildrenOk(cs[1..]) && Complaint(cs[0]).None? {
        forall i | 0 <= i < |cs|
          ensures Complaint(cs[i]).None?
        {
          if i > 0 { assert cs[i] == cs[1..][i - 1]; }
        }
      }
      if ChildrenOk(cs) {
        assert Complaint(cs[0]).None?;
        forall i | 0 <= i < |cs[1..]|
          ensures Complaint(cs[1..][i]).None?
        {
          assert cs[1..][i] == cs[i + 1];
        }
      }
    }
  }

  lemma StepAgrees(f: Fields, c: Node)
    ensures Absorb(f, c).Failure? <==> Complaint(c).Some?
    ensures Absorb(f, c).Failure? ==> Absorb(f, c).error == Complaint(c).value
  {
  }

  /** The walk fails exactly when some child complains, with the first complaint. */
  lemma {:induction false} ScanFailure(cs: seq<Node>, f: Fields)
    ensures Scan(cs, f).Success? <==> FirstComplaint(cs).None?
    ensures Scan(cs, f).Failure? ==> Scan(cs, f).error == FirstComplaint(cs).value
    decreases |cs|
  {
    if cs != [] {
      StepAgrees(f, cs[0]);
      if Absorb(f, cs[0]).Success? {
        ScanFailure(cs[1..], Absorb(f, cs[0]).value);
      }
    }
  }

  /** A successful walk ends with the last name, or the starting one when there is none. */
  lemma {:induction false} ScanName(cs: seq<Node>, f: Fields)
    requires Scan(cs, f).Success?
    ensures Scan(cs, f).value.name ==
              if Matching(cs, "name") == [] then f.name else Some(LastString(Matching(cs, "name")))
    decreases |cs|
  {
    if cs != [] {
      var g := Absorb(f, cs[0]).value;
      ScanName(cs[1..], g);
      LastOfCons(cs[0], Matching(cs[1..], "name"), 0);
    }
  }

  /** A successful walk ends with the last unread count, or the starting one. */
  lemma {:induction false} ScanUnread(cs: seq<Node>, f: Fields)
    requires Scan(cs, f).Success?
    ensures Scan(cs, f).value.unread == LastInteger(Matching(cs, "unread"), f.unread)
    decreases |cs|
  {
    if cs != [] {
      var g := Absorb(f, cs[0]).value;
      assert Scan(cs, f) == Scan(cs[1..], g);
      ScanUnread(cs[1..], g);
      var later := Matching(cs[1..], "unread");
      if cs[0].name == "unread" {
        assert Matching(cs, "unread") == [cs[0]] + later;
        LastOfCons(cs[0], later, f.unread);
        assert g.unread == cs[0].value.i;
        if later != [] {
          ScanFailure(cs[1..], g);
          FirstComplaintFound(cs[1..]);
          var last := later[|later| - 1];
          assert last in cs[1..] && last.name == "unread";
          assert Complaint(last).None?;
        }
      } else {
        assert Matching(cs, "unread") == later;
        assert g.unread == f.unread;
      }
    }
  }

  /** A successful walk appends every editor, in order. */
  lemma {:induction false} ScanEditors(cs: seq<Node>, f: Fields)
    requires Scan(cs, f).Success?
    ensures Scan(cs, f).value.editors == f.editors + Integers(Matching(cs, "editor"))
    decreases |cs|
  {
    if cs == [] {
      assert f.editors + [] == f.editors;
    } else {
      var g := Absorb(f, cs[0]).value;
      assert Scan(cs, f) == Scan(cs[1..], g);
      ScanEditors(cs[1..], g);
      if cs[0].name == "editor" {
        EditorStep(cs, f);
      } else {
        assert Matching(cs, "editor") == Matching(cs[1..], "editor");
      }
    }
  }

  lemma {:induction false} EditorStep(cs: seq<Node>, f: Fields)
    requires cs != [] && cs[0].name == "editor" && Absorb(f, cs[0]).Success?
    ensures Absorb(f, cs[0]).value.editors + Integers(Matching(cs[1..], "editor"))
         == f.editors + Integers(Matching(cs, "editor"))
  {
    var x := cs[0];
    AbsorbEditor(f, x);
    var later := Matching(cs[1..], "editor");
    MatchingHead(cs, "editor");
    IntegersCons(x, later);
    IntsAssoc(f.editors, [x.value.i], Integers(later));
  }

  /** Concatenation of id lists regroups freely. */
  lemma IntsAssoc(a: seq<Int32>, b: seq<Int32>, c: seq<Int32>)
    ensures a + b + c == a + (b + c)
  {
  }

  /** An `editor` child that is absorbed holds an integer, and appends it to the editors. */
  lemma AbsorbEditor(f: Fields, x: Node)
    requires x.name == "editor" && Absorb(f, x).Success?
    ensures x.value.Int? && Absorb(f, x).value.editors == f.editors + [x.value.i]
  {
  }

  /** A leading child of the name heads the selection. */
  lemma MatchingHead(cs: seq<Node>, name: string)
    requires cs != [] && cs[0].name == name
    ensures Matching(cs, name) == [cs[0]] + Matching(cs[1..], name)
  {
  }

  /** The integers of a list are the head's integer followed by the rest's. */
  lemma IntegersCons(x: Node, ns: seq<Node>)
    requires x.value.Int?
    ensures Integers([x] + ns) == [x.value.i] + Integers(ns)
  {
    assert ([x] + ns)[0] == x && ([x] + ns)[1..] == ns;
  }

  /** `new Folder(EDFData)` against the per-child rules: it succeeds exactly when the root is
      right, no child complains and some child is a name; then the folder has the root's id,
      the last name, the last unread count (0 without one) and every editor in document order.
      Otherwise it reports the root, the first complaining child or the missing name, in that
      order of precedence. */
  lemma DecodeAgrees(t: Node)
    ensures Decode(t).Success? <==> RootOk(t) && ChildrenOk(t.children) && Matching(t.children, "name") != []
    ensures Decode(t).Success? ==>
              Decode(t).value == Folder(LastString(Matching(t.children, "name")), t.value.i,
                                        LastInteger(Matching(t.children, "unread"), 0),
                                        Integers(Matching(t.children, "editor")))
    ensures !RootOk(t) ==> Decode(t) == Failure(WrongEdf(RootError))
    ensures RootOk(t) && FirstComplaint(t.children).Some? ==> Decode(t) == Failure(FirstComplaint(t.children).value)
    ensures RootOk(t) && ChildrenOk(t.children) && Matching(t.children, "name") == [] ==>
              Decode(t) == Failure(WrongEdf(MissingError))
  {
    var f0 := Fields(None, 0, []);
    ScanFailure(t.children, f0);
    FirstComplaintFound(t.children);
    if Scan(t.children, f0).Success? {
      ScanName(t.children, f0);
      ScanUnread(t.children, f0);
      ScanEditors(t.children, f0);
    }
    assert [] + Integers(Matching(t.children, "editor")) == Integers(Matching(t.children, "editor"));
  }

  /** A child the walk skips can be appended without changing the walk's outcome. */
  lemma {:induction false} ScanSkips(cs: seq<Node>, f: Fields, extra: Node)
    requires extra.name != "name" && extra.name != "unread" && extra.name != "editor"
    ensures Scan(cs + [extra], f) == Scan(cs, f)
    decreases |cs|
  {
    if cs == [] {
      assert [] + [extra] == [extra];
      assert [extra][1..] == [];
    } else {
      assert (cs + [extra])[0] == cs[0];
      assert (cs + [extra])[1..] == cs[1..] + [extra];
      if Absorb(f, cs[0]).Success? {
        ScanSkips(cs[1..], Absorb(f, cs[0]).value, extra);
      }
    }
  }

  /** Children the decoder does not know leave the folder unchanged. */
  lemma UnknownChildIgnored(t: Node, extra: Node)
    requires extra.name != "name" && extra.name != "unread" && extra.name != "editor"
    ensures Decode(Add(t, extra)) == Decode(t)
  {
    ScanSkips(t.children, Fields(None, 0, []), extra);
  }

  /** `getEditors`. */
  function Editors(f: Folder): seq<Int32> {
    f.editors
  }

  /** `getEditors` of a decoded folder gives the integers of its `editor` children, in
      document order. */
  lemma EditorsOfDecoded(t: Node)
    requires Decode(t).Success?
    ensures Editors(Decode(t).value) == Integers(Matching(t.children, "editor"))
  {
    DecodeAgrees(t);
  }
}

=== FILE: listing.dfy ===
/** What `FolderList` and `UserList` share: a table of records keyed by name, rebuilt from the
    children of one reply, and read back as a list sorted by name ignoring case. */
module Listing {
  import opened Wrappers
  import opened Errors
  import opened Edf
  import opened CaseFold
  import opened Registry
  import Connection

  // ---------------------------------------------------------------- decoding every child

  /** Decoding `items` in order; the first failure ends the walk and is reported. */
  function DecodeAll<T>(items: seq<Node>, decode: Node -> Result<T, UaError>): (r: Result<seq<T>, UaError>)
    ensures r.Success? <==> forall i :: 0 <= i < |items| ==> decode(items[i]).Success?
    ensures r.Success? ==> |r.value| == |items|
    ensures r.Success? ==> forall i :: 0 <= i < |items| ==> decode(items[i]) == Success(r.value[i])
    ensures r.Failure? ==>
              exists i :: 0 <= i < |items| && decode(items[i]) == Failure(r.error) && AllDecode(items[..i], decode)
    decreases |items|
  {
    if items == [] then Success([])
    else
      match decode(items[0])
      case Failure(e) =>
        assert items[..0] == [];
        Failure(e)
      case Success(x) =>
        match DecodeAll(items[1..], decode)
        case Failure(e) =>
          var i :| 0 <= i < |items[1..]| && decode(items[1..][i]) == Failure(e) && AllDecode(items[1..][..i], decode);
          assert items[..i + 1] == [items[0]] + items[1..][..i];
          Failure(e)
        case Success(rest) => Success([x] + rest)
  }

  /** Every item decodes. */
  predicate AllDecode<T>(items: seq<Node>, decode: Node -> Result<T, UaError>) {
    forall i :: 0 <= i < |items| ==> decode(items[i]).Success?
  }

  // ---------------------------------------------------------------- the table

  /** Putting each value into the table under its key, in order: a later value with the same
      key replaces an earlier one. */
  function Rebuild<T>(vals: seq<T>, key: T -> string): map<string, T>
    decreases |vals|
  {
    if vals == [] then map[]
    else
      var last := vals[|vals| - 1];
      Rebuild(vals[..|vals| - 1], key)[key(last) := last]
  }

  /** Position `i` holds the last value whose key is `k`. */
  predicate LastWith<T>(vals: seq<T>, key: T -> string, k: string, i: int) {
    0 <= i < |vals| && key(vals[i]) == k && forall j :: i < j < |vals| ==> key(vals[j]) != k
  }

  /** The table holds exactly the keys of the values, each mapped to the last value with that
      key, and so every value is stored under its own key. */
  lemma {:induction false} RebuildKeepsLast<T>(vals: seq<T>, key: T -> string)
    ensures forall k :: k in Rebuild(vals, key) <==> exists i :: 0 <= i < |vals| && key(vals[i]) == k
    ensures forall k :: k in Rebuild(vals, key) ==>
              exists i :: LastWith(vals, key, k, i) && Rebuild(vals, key)[k] == vals[i]
    ensures forall k :: k in Rebuild(vals, key) ==> key(Rebuild(vals, key)[k]) == k
    decreases |vals|
  {
    if vals != [] {
      var n := |vals| - 1;
      var front := vals[..n];
      RebuildKeepsLast(front, key);
      var m := Rebuild(vals, key);
      assert m == Rebuild(front, key)[key(vals[n]) := vals[n]];
      forall k | k in m
        ensures exists i :: LastWith(vals, key, k, i) && m[k] == vals[i]
      {
        if k == key(vals[n]) {
          assert LastWith(vals, key, k, n);
        } else {
          var i :| LastWith(front, key, k, i) && Rebuild(front, key)[k] == front[i];
          assert LastWith(vals, key, k, i);
        }
      }
      forall k
        ensures k in m <==> exists i :: 0 <= i < |vals| && key(vals[i]) == k
      {
        if exists i :: 0 <= i < |vals| && key(vals[i]) == k {
          var i :| 0 <= i < |vals| && key(vals[i]) == k;
          if i < n {
            assert front[i] == vals[i];
            assert k in Rebuild(front, key);
          }
        }
        if k in m && k != key(vals[n]) {
          assert k in Rebuild(front, key);
          var i :| 0 <= i < |front| && key(front[i]) == k;
          assert front[i] == vals[i];
        }
      }
    }
  }

  // ---------------------------------------------------------------- the sorted list

  /** `r` is ordered by key, ignoring case, no later first. */
  predicate SortedBy<T>(r: seq<T>, key: T -> string) {
    forall i, j :: 0 <= i < j < |r| ==> NoLater(key(r[i]), key(r[j]))
  }

  /** `x` placed before the first element it sorts no later than. */
  function Insert<T>(r: seq<T>, x: T, key: T -> string): seq<T>
    decreases |r|
  {
    if r == [] then [x]
    else if NoLater(key(x), key(r[0])) then [x] + r
    else [r[0]] + Insert(r[1..], x, key)
  }

  lemma {:induction false} InsertPermutes<T>(r: seq<T>, x: T, key: T -> string)
    ensures multiset(Insert(r, x, key)) == multiset(r) + multiset{x}
    decreases |r|
  {
    if r != [] && !NoLater(key(x), key(r[0])) {
      InsertPermutes(r[1..], x, key);
      assert r == [r[0]] + r[1..];
    }
  }

  /** Insertion keeps the order; it needs the comparison to be total and transitive. */
  lemma {:induction false} InsertSorted<T>(r: seq<T>, x: T, key: T -> string)
    requires SortedBy(r, key)
    ensures SortedBy(Insert(r, x, key), key)
    decreases |r|
  {
    if r == [] {
    } else if NoLater(key(x), key(r[0])) {
      var s := [x] + r;
      forall i, j | 0 <= i < j < |s|
        ensures NoLater(key(s[i]), key(s[j]))
      {
        if i == 0 && j > 1 {
          NoLaterTransitive(key(x), key(r[0]), key(r[j - 1]));
        }
      }
    } else {
      InsertSorted(r[1..], x, key);
      HeadBeforeInserted(r, x, key);
      var tail := Insert(r[1..], x, key);
      var s := [r[0]] + tail;
      forall i, j | 0 <= i < j < |s|
        ensures NoLater(key(s[i]), key(s[j]))
      {
        if i == 0 {
          assert s[j] == tail[j - 1];
        } else {
          assert s[i] == tail[i - 1] && s[j] == tail[j - 1];
        }
      }
    }
  }

  /** When `x` goes after the head, the head sorts no later than anything in the rest. */
  lemma HeadBeforeInserted<T>(r: seq<T>, x: T, key: T -> string)
    requires SortedBy(r, key) && r != [] && !NoLater(key(x), key(r[0]))
    ensures forall j :: 0 <= j < |Insert(r[1..], x, key)| ==> NoLater(key(r[0]), key(Insert(r[1..], x, key)[j]))
  {
    NoLaterTotal(key(x), key(r[0]));
    InsertPermutes(r[1..], x, key);
    var tail := Insert(r[1..], x, key);
    forall j | 0 <= j < |tail|
      ensures NoLater(key(r[0]), key(tail[j]))
    {
      assert tail[j] in multiset(tail);
      if tail[j] != x {
        assert tail[j] in multiset(r[1..]);
        var k :| 0 <= k < |r[1..]| && r[1..][k] == tail[j];
        assert r[k + 1] == tail[j];
      }
    }
  }

  /** The list getters: every stored record once, sorted by name ignoring case. The order of
      records whose names compare equal is not specified. `ks` says which key each record of
      `r` was stored under. */
  method SortedEntries<T>(m: map<string, T>, key: T -> string) returns (ks: seq<string>, r: seq<T>)
    ensures multiset(ks) == multiset(m.Keys)
    ensures |r| == |ks|
    ensures forall i :: 0 <= i < |ks| ==> ks[i] in m && r[i] == m[ks[i]]
    ensures SortedBy(r, key)
  {
    var rank := (k: string) => if k in m then key(m[k]) else k;
    var remaining := m.Keys;
    ks := [];
    while remaining != {}
      invariant remaining <= m.Keys
      invariant multiset(ks) + multiset(remaining) == multiset(m.Keys)
      invariant forall i :: 0 <= i < |ks| ==> ks[i] in m
      invariant SortedBy(ks, rank)
      decreases |remaining|
    {
      var k :| k in remaining;
      InsertPermutes(ks, k, rank);
      InsertSorted(ks, k, rank);
      var next := Insert(ks, k, rank);
      assert multiset(remaining - {k}) + multiset{k} == multiset(remaining);
      forall i | 0 <= i < |next|
        ensures next[i] in m
      {
        assert next[i] in multiset(next);
      }
      ks := next;
      remaining := remaining - {k};
    }
    r := seq(|ks|, i requires 0 <= i < |ks| => m[ks[i]]);
    forall i, j | 0 <= i < j < |r|
      ensures NoLater(key(r[i]), key(r[j]))
    {
      assert rank(ks[i]) == key(r[i]) && rank(ks[j]) == key(r[j]);
    }
  }

  /** The sorted entries mention every stored record, and nothing else. */
  lemma ListedOnce<T>(m: map<string, T>, ks: seq<string>, r: seq<T>)
    requires multiset(ks) == multiset(m.Keys)
    requires |r| == |ks| && forall i :: 0 <= i < |ks| ==> ks[i] in m && r[i] == m[ks[i]]
    ensures |r| == |m|
    ensures forall k :: k in m ==> m[k] in r
    ensures forall i :: 0 <= i < |r| ==> r[i] in m.Values
  {
    assert |multiset(ks)| == |ks|;
    assert |multiset(m.Keys)| == |m.Keys|;
    forall k | k in m
      ensures m[k] in r
    {
      assert k in multiset(ks);
      var i :| 0 <= i < |ks| && ks[i] == k;
      assert r[i] == m[k];
    }
  }

  /** Keys listed with the multiplicities of a map's key set are listed without repeats. */
  lemma {:induction false} KeysDistinct(ks: seq<string>, keys: set<string>)
    requires multiset(ks) == multiset(keys)
    ensures forall i, j :: 0 <= i < j < |ks| ==> ks[i] != ks[j]
  {
    forall i, j | 0 <= i < j < |ks|
      ensures ks[i] != ks[j]
    {
      assert ks == ks[..j] + ks[j..];
      assert ks[i] in multiset(ks[..j]) by { assert ks[..j][i] == ks[i]; }
      assert ks[j] in multiset(ks[j..]) by { assert ks[j..][0] == ks[j]; }
      assert multiset(ks)[ks[j]] == multiset(ks[..j])[ks[j]] + multiset(ks[j..])[ks[j]];
      assert multiset(keys)[ks[j]] <= 1;
    }
  }

  // ---------------------------------------------------------------- the list object

  /** A list object: its table and its `UA` instance, null until set. */
  datatype Listed<T> = Listed(items: map<string, T>, ua: Option<Ua<Connection.Conn>>)

  /** A list object after `refresh`, and whether `refresh` completed. */
  datatype Refreshed<T> = Refreshed(list: Listed<T>, outcome: Outcome<UaError>)

  /** The no-argument constructor: empty, with the single instance if there is one. */
  function NewList<T>(g: Globals<Connection.Conn>): (l: Listed<T>)
    ensures l.items == map[] && l.ua == DefaultInstance(g)
  {
    Listed(map[], DefaultInstance(g))
  }

  /** `setUAInstance`. */
  function SetUaInstance<T>(l: Listed<T>, instance: Option<Ua<Connection.Conn>>): (r: Result<Listed<T>, UaError>)
    ensures r.Success? <==> l.ua.None?
    ensures r.Success? ==> r.value == l.(ua := instance)
    ensures r.Failure? ==> r.error == Fatal(InstanceError)
  {
    var ua :- SetOnce(l.ua, instance, InstanceError);
    Success(l.(ua := ua))
  }

  /** `refresh`: a null instance fails before anything is sent. `reply` is how looking up the
      connection and `sendAndRead` went. Every child named `kind` is decoded; if all decode, the
      new table replaces the old one entirely, and otherwise the old table stays. */
  function Refresh<T>(l: Listed<T>, reply: Result<Node, UaError>, kind: string,
                      decode: Node -> Result<T, UaError>, key: T -> string): (r: Refreshed<T>)
    ensures r.list.ua == l.ua
    ensures r.outcome.Pass? <==>
              l.ua.Some? && reply.Success? && AllDecode(Matching(reply.value.children, kind), decode)
    ensures r.outcome.Fail? ==> r.list == l
    ensures l.ua.None? ==> r.outcome == Fail(NullReference)
    ensures l.ua.Some? && reply.Failure? ==> r.outcome == Fail(reply.error)
  {
    if l.ua.None? then Refreshed(l, Fail(NullReference))
    else
      match reply
      case Failure(e) => Refreshed(l, Fail(e))
      case Success(t) =>
        match DecodeAll(Matching(t.children, kind), decode)
        case Failure(e) => Refreshed(l, Fail(e))
        case Success(vals) => Refreshed(l.(items := Rebuild(vals, key)), Pass)
  }

  /** The keys of `items` are exactly the keys of the records the children decode to. */
  ghost predicate KeysOfDecoded<T>(items: map<string, T>, cs: seq<Node>, decode: Node -> Result<T, UaError>,
                             key: T -> string)
    requires AllDecode(cs, decode)
  {
    forall k :: k in items <==> exists i :: 0 <= i < |cs| && key(decode(cs[i]).value) == k
  }

  /** Each key of `items` holds the record of the last child that decodes to that key. */
  ghost predicate LastDecodedWins<T>(items: map<string, T>, cs: seq<Node>, decode: Node -> Result<T, UaError>,
                               key: T -> string)
    requires AllDecode(cs, decode)
  {
    forall k :: k in items ==>
      exists i :: 0 <= i < |cs| && items[k] == decode(cs[i]).value &&
        forall j :: i < j < |cs| ==> key(decode(cs[j]).value) != k
  }

  /** The table rebuilt from decoded children, stated against the children themselves. */
  lemma RebuildOfDecoded<T>(cs: seq<Node>, vals: seq<T>, decode: Node -> Result<T, UaError>, key: T -> string)
    requires |vals| == |cs| && forall i :: 0 <= i < |cs| ==> decode(cs[i]) == Success(vals[i])
    ensures AllDecode(cs, decode)
    ensures KeysOfDecoded(Rebuild(vals, key), cs, decode, key)
    ensures LastDecodedWins(Rebuild(vals, key), cs, decode, key)
  {
    RebuildKeepsLast(vals, key);
    var items := Rebuild(vals, key);
    forall k
      ensures k in items <==> exists i :: 0 <= i < |cs| && key(decode(cs[i]).value) == k
    {
      if k in items {
        var i :| 0 <= i < |vals| && key(vals[i]) == k;
        assert key(decode(cs[i]).value) == k;
      }
      if exists i :: 0 <= i < |cs| && key(decode(cs[i]).value) == k {
        var i :| 0 <= i < |cs| && key(decode(cs[i]).value) == k;
        assert key(vals[i]) == k;
      }
    }
    forall k | k in items
      ensures exists i :: 0 <= i < |cs| && items[k] == decode(cs[i]).value &&
                forall j :: i < j < |cs| ==> key(decode(cs[j]).value) != k
    {
      var i :| LastWith(vals, key, k, i) && items[k] == vals[i];
      assert decode(cs[i]).value == vals[i];
      forall j | i < j < |cs|
        ensures key(decode(cs[j]).value) != k
      {
        assert decode(cs[j]).value == vals[j];
      }
    }
  }

  /** After a successful `refresh`, a key is present exactly when some `kind` child of the
      reply decodes to a record with that key, and it maps to the record of the last such
      child; nothing of the old table survives. */
  lemma RefreshReference<T>(l: Listed<T>, reply: Result<Node, UaError>, kind: string,
                            decode: Node -> Result<T, UaError>, key: T -> string)
    requires Refresh(l, reply, kind, decode, key).outcome.Pass?
    ensures AllDecode(Matching(reply.value.children, kind), decode)
    ensures KeysOfDecoded(Refresh(l, reply, kind, decode, key).list.items,
                          Matching(reply.value.children, kind), decode, key)
    ensures LastDecodedWins(Refresh(l, reply, kind, decode, key).list.items,
                            Matching(reply.value.children, kind), decode, key)
  {
    var cs := Matching(reply.value.children, kind);
    var vals := DecodeAll(cs, decode).value;
    var items := Refresh(l, reply, kind, decode, key).list.items;
    assert items == Rebuild(vals, key);
    RebuildOfDecoded(cs, vals, decode, key);
  }

  /** `refresh` keeps every record stored under its own key and satisfying `ok`, when every
      record the decoder produces satisfies `ok`. */
  lemma RefreshKeepsInvariant<T>(l: Listed<T>, reply: Result<Node, UaError>, kind: string,
                                 decode: Node -> Result<T, UaError>, key: T -> string, ok: T -> bool)
    requires forall t :: decode(t).Success? ==> ok(decode(t).value)
    requires forall k :: k in l.items ==> key(l.items[k]) == k && ok(l.items[k])
    ensures var items := Refresh(l, reply, kind, decode, key).list.items;
            forall k :: k in items ==> key(items[k]) == k && ok(items[k])
  {
    var r := Refresh(l, reply, kind, decode, key);
    if r.outcome.Pass? {
      var cs := Matching(reply.value.children, kind);
      var vals := DecodeAll(cs, decode).value;
      assert r.list.items == Rebuild(vals, key);
      RebuildKeepsLast(vals, key);
      forall k | k in r.list.items
        ensures ok(r.list.items[k])
      {
        var i :| LastWith(vals, key, k, i) && r.list.items[k] == vals[i];
        assert decode(cs[i]) == Success(vals[i]);
      }
    }
  }

  /** `e` is the error of a child of `cs` that fails to decode, every child before it decoding. */
  ghost predicate FirstFailure<T>(cs: seq<Node>, decode: Node -> Result<T, UaError>, e: UaError) {
    exists i :: 0 <= i < |cs| && decode(cs[i]) == Failure(e) && AllDecode(cs[..i], decode)
  }

  /** A failed `refresh` that got a reply reports the error of the first child that does not
      decode. */
  lemma RefreshFailure<T>(l: Listed<T>, reply: Result<Node, UaError>, kind: string,
                          decode: Node -> Result<T, UaError>, key: T -> string)
    requires l.ua.Some? && reply.Success? && Refresh(l, reply, kind, decode, key).outcome.Fail?
    ensures FirstFailure(Matching(reply.value.children, kind), decode, Refresh(l, reply, kind, decode, key).outcome.error)
  {
    var d := DecodeAll(Matching(reply.value.children, kind), decode);
    assert d.Failure?;
    assert Refresh(l, reply, kind, decode, key).outcome == Fail(d.error);
  }

  /** `getFolder` / `getUser`: an exact-key lookup, null when absent. */
  function Lookup<T>(l: Listed<T>, name: string): (r: Option<T>)
    ensures r.Some? <==> name in l.items
    ensures r.Some? ==> r.value == l.items[name]
  {
    if name in l.items then Some(l.items[name]) else None
  }
}

=== FILE: lists.dfy ===
/** `FolderList`: the folders the user can see, keyed by folder name. */
module FolderLists {
  import opened Wrappers
  import opened Errors
  import opened Edf
  import opened Registry
  import opened Listing
  import opened Folders
  import Connection

  type FolderList = Listed<Folder>

  /** The key a folder is stored under, and sorted by: its name. */
  function Key(f: Folder): string {
    f.name
  }

  /** The request `refresh` sends: `<request="folder_list"/>`. */
  function Request(): (r: Node)
    ensures GetString(r) == Success("folder_list") && r.name == "request" && r.children == []
  {
    WithString("request", "folder_list")
  }

  /** `refresh`, given how the request went. */
  function Refresh(l: FolderList, reply: Result<Node, UaError>): Refreshed<Folder> {
    Listing.Refresh(l, reply, "folder", Folders.Decode, Key)
  }

  /** Every folder in the table is stored under its own name. */
  predicate StoredByName(l: FolderList) {
    forall k :: k in l.items ==> l.items[k].name == k
  }

  /** After `refresh`: on success, the folders are exactly those of the reply's `folder`
      children, the last one winning for a repeated name, and each is stored under its name;
      on failure the table is untouched. */
  lemma RefreshFolders(l: FolderList, reply: Result<Node, UaError>)
    requires StoredByName(l)
    ensures StoredByName(Refresh(l, reply).list)
    ensures Refresh(l, reply).outcome.Fail? ==> Refresh(l, reply).list == l
    ensures Refresh(l, reply).outcome.Pass? ==>
              FindsDecoded(Refresh(l, reply).list, Matching(reply.value.children, "folder"))
    ensures Refresh(l, reply).outcome.Pass? ==>
              AllDecode(Matching(reply.value.children, "folder"), Folders.Decode) &&
              LastDecodedWins(Refresh(l, reply).list.items, Matching(reply.value.children, "folder"), Folders.Decode, Key)
  {
    RefreshStoresByName(l, reply);
    if Refresh(l, reply).outcome.Pass? {
      RefreshFinds(l, reply);
    }
  }

  /** A refresh keeps every folder stored under its own name. */
  lemma RefreshStoresByName(l: FolderList, reply: Result<Node, UaError>)
    requires StoredByName(l)
    ensures StoredByName(Refresh(l, reply).list)
  {
    RefreshKeepsInvariant(l, reply, "folder", Folders.Decode, Key, (f: Folder) => true);
  }

  /** After a refresh that passed, the stored names are the decoded ones, each holding the
      last folder decoded under it. */
  lemma RefreshFinds(l: FolderList, reply: Result<Node, UaError>)
    requires Refresh(l, reply).outcome.Pass?
    ensures AllDecode(Matching(reply.value.children, "folder"), Folders.Decode) &&
            FindsDecoded(Refresh(l, reply).list, Matching(reply.value.children, "folder"))
    ensures AllDecode(Matching(reply.value.children, "folder"), Folders.Decode) &&
            LastDecodedWins(Refresh(l, reply).list.items, Matching(reply.value.children, "folder"), Folders.Decode, Key)
  {
    var r := Refresh(l, reply);
    RefreshReference(l, reply, "folder", Folders.Decode, Key);
    FolderNames(r.list.items, Matching(reply.value.children, "folder"));
    forall name
      ensures GetFolder(r.list, name).Some? <==> name in r.list.items
    {
    }
  }

  /** `getFolder` finds a name exactly when one of `cs` decodes to a folder of that name. */
  ghost predicate FindsDecoded(l: FolderList, cs: seq<Node>)
    requires AllDecode(cs, Folders.Decode)
  {
    forall name :: GetFolder(l, name).Some? <==> exists i :: 0 <= i < |cs| && Decode(cs[i]).value.name == name
  }

  /** The keys of a table rebuilt from `folder` children are the names those children
      decode to. */
  lemma FolderNames(items: map<string, Folder>, cs: seq<Node>)
    requires AllDecode(cs, Folders.Decode) && KeysOfDecoded(items, cs, Folders.Decode, Key)
    ensures forall name :: name in items <==> exists i :: 0 <= i < |cs| && Decode(cs[i]).value.name == name
  {
    forall name
      ensures name in items <==> exists i :: 0 <= i < |cs| && Decode(cs[i]).value.name == name
    {
      if exists i :: 0 <= i < |cs| && Decode(cs[i]).value.name == name {
        var i :| 0 <= i < |cs| && Decode(cs[i]).value.name == name;
        assert Key(Decode(cs[i]).value) == name;
      }
    }
  }

  /** `getFolderList`: every stored folder, sorted by name ignoring case. The list has one
      entry per stored name, so in a table stored by name no name is listed twice. */
  method GetFolderList(l: FolderList) returns (r: seq<Folder>)
    ensures |r| == |l.items|
    ensures forall k :: k in l.items ==> l.items[k] in r
    ensures forall i :: 0 <= i < |r| ==> r[i] in l.items.Values
    ensures SortedBy(r, Key)
    ensures StoredByName(l) ==> forall i, j :: 0 <= i < j < |r| ==> r[i].name != r[j].name
  {
    var ks;
    ks, r := SortedEntries(l.items, Key);
    ListedOnce(l.items, ks, r);
    KeysDistinct(ks, l.items.Keys);
  }

  /** `getFolder`: the folder stored under exactly that name, or null. */
  function GetFolder(l: FolderList, name: string): (r: Option<Folder>)
    ensures r.Some? <==> name in l.items
    ensures r.Some? ==> r.value == l.items[name]
    ensures StoredByName(l) && r.Some? ==> r.value.name == name
  {
    Lookup(l, name)
  }
}

/** `UserList`: the users on the server, keyed by user name. */
module UserLists {
  import opened Wrappers
  import opened Errors
  import opened Edf
  import opened Registry
  import opened Listing
  import opened Users
  import Connection

  type UserList = Listed<User>

  /** The key a user is stored under, and sorted by: its name (never null once populated). */
  function Key(u: User): string {
    u.name.GetOr([])
  }

  /** The request `refresh` sends: `<request="user_list"/>`. */
  function Request(): (r: Node)
    ensures GetString(r) == Success("user_list") && r.name == "request" && r.children == []
  {
    WithString("request", "user_list")
  }

  /** `refresh`, given how the request went. */
  function Refresh(l: UserList, reply: Result<Node, UaError>): Refreshed<User> {
    Listing.Refresh(l, reply, "user", Populate, Key)
  }

  /** Every user in the table has a name and is stored under it. */
  predicate StoredByName(l: UserList) {
    forall k :: k in l.items ==> l.items[k].name == Some(k)
  }

  /** After `refresh`: on success, the users are exactly those of the reply's `user`
      children, the last one winning for a repeated name, and each is stored under its name;
      on failure the table is untouched. */
  lemma RefreshUsers(l: UserList, reply: Result<Node, UaError>)
    requires StoredByName(l)
    ensures StoredByName(Refresh(l, reply).list)
    ensures Refresh(l, reply).outcome.Fail? ==> Refresh(l, reply).list == l
    ensures Refresh(l, reply).outcome.Pass? ==>
              FindsPopulated(Refresh(l, reply).list, Matching(reply.value.children, "user"))
    ensures Refresh(l, reply).outcome.Pass? ==>
              AllDecode(Matching(reply.value.children, "user"), Populate) &&
              LastDecodedWins(Refresh(l, reply).list.items, Matching(reply.value.children, "user"), Populate, Key)
  {
    RefreshStoresByName(l, reply);
    if Refresh(l, reply).outcome.Pass? {
      RefreshFinds(l, reply);
    }
  }

  /** A refresh keeps every user named and stored under that name. */
  lemma RefreshStoresByName(l: UserList, reply: Result<Node, UaError>)
    requires StoredByName(l)
    ensures StoredByName(Refresh(l, reply).list)
  {
    PopulatedUsersNamed();
    RefreshKeepsInvariant(l, reply, "user", Populate, Key, Named);
  }

  /** After a refresh that passed, the stored names are the populated ones, each holding the
      last user populated under it. */
  lemma RefreshFinds(l: UserList, reply: Result<Node, UaError>)
    requires Refresh(l, reply).outcome.Pass?
    ensures AllDecode(Matching(reply.value.children, "user"), Populate) &&
            FindsPopulated(Refresh(l, reply).list, Matching(reply.value.children, "user"))
    ensures AllDecode(Matching(reply.value.children, "user"), Populate) &&
            LastDecodedWins(Refresh(l, reply).list.items, Matching(reply.value.children, "user"), Populate, Key)
  {
    var r := Refresh(l, reply);
    var cs := Matching(reply.value.children, "user");
    RefreshReference(l, reply, "user", Populate, Key);
    UserNames(r.list.items, cs);
    forall name
      ensures GetUser(r.list, name).Some? <==> name in r.list.items
    {
    }
  }

  /** `getUser` finds a name exactly when one of `cs` populates a user of that name. */
  ghost predicate FindsPopulated(l: UserList, cs: seq<Node>)
    requires AllDecode(cs, Populate)
  {
    forall name :: GetUser(l, name).Some? <==> exists i :: 0 <= i < |cs| && Populate(cs[i]).value.name == Some(name)
  }

  /** The keys of a table rebuilt from `user` children are the names those children
      populate to. */
  lemma UserNames(items: map<string, User>, cs: seq<Node>)
    requires AllDecode(cs, Populate) && KeysOfDecoded(items, cs, Populate, Key)
    ensures forall name :: name in items <==> exists i :: 0 <= i < |cs| && Populate(cs[i]).value.name == Some(name)
  {
    PopulatedUsersNamed();
    forall name
      ensures name in items <==> exists i :: 0 <= i < |cs| && Populate(cs[i]).value.name == Some(name)
    {
      if name in items {
        var i :| 0 <= i < |cs| && Key(Populate(cs[i]).value) == name;
        assert Named(Populate(cs[i]).value);
      }
      if exists i :: 0 <= i < |cs| && Populate(cs[i]).value.name == Some(name) {
        var i :| 0 <= i < |cs| && Populate(cs[i]).value.name == Some(name);
        assert Key(Populate(cs[i]).value) == name;
      }
    }
  }

  /** The user has a name. */
  predicate Named(u: User) {
    u.name.Some?
  }

  /** Every user `populateUser` accepts has a name. */
  lemma PopulatedUsersNamed()
    ensures forall t :: Populate(t).Success? ==> Named(Populate(t).value)
  {
  }

  /** `getUserList`: every stored user, sorted by name ignoring case. The list has one entry
      per stored name, so in a table stored by name no name is listed twice. */
  method GetUserList(l: UserList) returns (r: seq<User>)
    ensures |r| == |l.items|
    ensures forall k :: k in l.items ==> l.items[k] in r
    ensures forall i :: 0 <= i < |r| ==> r[i] in l.items.Values
    ensures SortedBy(r, Key)
    ensures StoredByName(l) ==> forall i, j :: 0 <= i < j < |r| ==> r[i].name != r[j].name
  {
    var ks;
    ks, r := SortedEntries(l.items, Key);
    ListedOnce(l.items, ks, r);
    KeysDistinct(ks, l.items.Keys);
  }

  /** `getUser`: the user stored under exactly that name, or null. */
  function GetUser(l: UserList, name: string): (r: Option<User>)
    ensures r.Some? <==> name in l.items
    ensures r.Some? ==> r.value == l.items[name]
    ensures StoredByName(l) && r.Some? ==> r.value.name == Some(name)
  {
    Lookup(l, name)
  }
}

=== FILE: message.dfy ===
/** A message on the server (a folder post, a page between users, or a bulletin) and the
    three things the client does with one: reply to it, post it, page it. */
module Messages {
  import opened Wrappers
  import opened Errors
  import opened Edf
  import opened Connection

  datatype MessageType = NoType | Post | Page | Bulletin

  /** What the server made of a post or a page. */
  datatype Reason = Ok | Forbidden | PageBusy | PageUnavail | NoSuchRecipient | PostNoFolder

  /** The fields of a message; the Java reference fields that may be null are `Option`s.
      `connection` is the connection the message is sent over, null until set. */
  datatype Message = Message(
    kind: MessageType,
    toid: Int32,
    to: Option<string>,
    fromid: Int32,
    from: Option<string>,
    subject: Option<string>,
    body: Option<string>,
    folderid: Int32,
    date: Int32,
    id: Int32,
    inreplyto: Int32,
    connection: Option<Conn>)

  const ReplyError := "Can't reply to something which isn't a post or page"
  const PostTypeError := "Can't post message type"
  const PageTypeError := "Can't page message type"
  const SubjectError := "Subject line is missing"
  const DivertedSubject := "Diverted page"
  const UnhandledPage := "Unhandled problem in user_page"

  /** `new Message()`: no type, every number -1 and every reference null. */
  function Blank(): (m: Message)
    ensures m.kind == NoType && m.connection.None?
    ensures m.toid == -1 && m.fromid == -1 && m.folderid == -1 && m.date == -1 && m.id == -1 && m.inreplyto == -1
    ensures m.to.None? && m.from.None? && m.subject.None? && m.body.None?
  {
    Message(NoType, -1, None, -1, None, None, None, -1, -1, -1, -1, None)
  }

  /** `setUAConnection`. */
  function SetConnection(m: Message, c: Conn): (r: Message)
    ensures r.connection == Some(c) && r.(connection := m.connection) == m
  {
    m.(connection := Some(c))
  }

  // ---------------------------------------------------------------- reply

  /** `reply()`: only posts and pages can be answered. The answer has the same type, goes to
      the sender, keeps the subject and points back at the message; everything else, the
      connection included, is as in a blank message. */
  function Reply(m: Message): (r: Result<Message, UaError>)
    ensures r.Success? <==> m.kind == Post || m.kind == Page
    ensures r.Failure? ==> r.error == InvalidOperation(ReplyError)
    ensures r.Success? ==>
              r.value.kind == m.kind && r.value.to == m.from && r.value.toid == m.fromid &&
              r.value.subject == m.subject && r.value.inreplyto == m.id
    ensures r.Success? ==>
              r.value.(kind := NoType, to := None, toid := -1, subject := None, inreplyto := -1) == Blank()
  {
    if m.kind != Page && m.kind != Post then Failure(InvalidOperation(ReplyError))
    else
      Success(Blank().(kind := m.kind, to := m.from, toid := m.fromid, subject := m.subject, inreplyto := m.id))
  }

  /** A reply can itself be replied to, and the reply to a reply goes back to whoever the first
      reply was from, still about the same subject. */
  lemma ReplyToReply(m: Message)
    requires Reply(m).Success?
    ensures Reply(Reply(m).value).Success?
    ensures Reply(Reply(m).value).value.subject == m.subject
    ensures Reply(Reply(m).value).value.inreplyto == -1
    ensures Reply(Reply(m).value).value.to.None? && Reply(Reply(m).value).value.toid == -1
  {
  }

  // ---------------------------------------------------------------- sending

  /** A message after `post` or `page`, and what the call returned. The message carries the
      type change and the connection's new state even when the call failed. */
  datatype Sent = Sent(message: Message, result: Result<Reason, UaError>)

  /** The value of the server's answer, or the error sending it raised. A reply whose value is
      not a string stands for Java's null `sValue`. */
  function ReplyString(reply: Node): Result<string, UaError> {
    if reply.value.Str? then Success(reply.value.s) else Failure(NullReference)
  }

  /** The type `post` gives a message, or the refusal. A page becomes a post with the subject
      "Diverted page". */
  function PostTyped(m: Message): (r: Result<Message, UaError>)
    ensures r.Success? <==> m.kind != Bulletin
    ensures r.Failure? ==> r.error == InvalidOperation(PostTypeError)
    ensures r.Success? ==> r.value.kind == Post
    ensures r.Success? ==> r.value.subject == (if m.kind == Page then Some(DivertedSubject) else m.subject)
    ensures r.Success? ==> r.value.(kind := m.kind, subject := m.subject) == m
  {
    match m.kind
    case NoType => Success(m.(kind := Post))
    case Post => Success(m)
    case Page => Success(m.(kind := Post, subject := Some(DivertedSubject)))
    case Bulletin => Failure(InvalidOperation(PostTypeError))
  }

  /** The request `post` sends: `<request="message_add">` with the folder id, the subject and
      the text, and the recipient id only when there is one. A null body cannot be written
      out, so the text child is left empty here and the write is made to fail. */
  function PostRequest(m: Message): (r: Node)
    requires m.subject.Some?
    ensures r.name == "request" && r.value == Str("message_add")
    ensures |r.children| == if m.toid != -1 then 4 else 3
  {
    var base := AddValue(AddValue(AddValue(WithString("request", "message_add"),
                  "folderid", Int(m.folderid)), "subject", Str(m.subject.value)), "text", Str(m.body.GetOr([])));
    if m.toid != -1 then AddValue(base, "toid", Int(m.toid)) else base
  }

  /** How writing a request goes: as the transport says, unless a null body makes writing it
      out fail first. */
  function Writing(m: Message, write: Outcome<string>): (r: Outcome<string>)
    ensures m.body.None? ==> r.Fail?
    ensures m.body.Some? ==> r == write
  {
    if m.body.None? then Fail([]) else write
  }

  /** The request gets through and is answered: there is a connection and it is up, the body
      can be written out, the write passes and a reply arrives. Anything less is the
      `NoConnectionError` that `post` and `page` declare. */
  predicate Answered(m: Message, write: Outcome<string>, arrival: Option<Node>) {
    m.connection.Some? && m.connection.value.status == Connected && m.body.Some? && write.Pass? && arrival.Some?
  }

  /** A subject `post` accepts: set and not empty. */
  predicate SubjectOk(subject: Option<string>) {
    subject.Some? && subject.value != []
  }

  /** `post()`. `write` is how writing the request goes and `arrival` the reply, if one comes
      before the connection gives up. The type change happens first and stays even when a
      later check fails. */
  function PostMessage(m: Message, write: Outcome<string>, arrival: Option<Node>): (r: Sent)
    ensures m.kind == Bulletin ==> r == Sent(m, Failure(InvalidOperation(PostTypeError)))
    ensures m.kind != Bulletin ==> r.message.kind == Post
    ensures m.kind == Page ==> r.message.subject == Some(DivertedSubject)
    ensures m.kind != Bulletin && PostTyped(m).value.subject.None? ==>
              r == Sent(PostTyped(m).value, Failure(NullReference))
    ensures m.kind != Bulletin && PostTyped(m).value.subject == Some([]) ==>
              r == Sent(PostTyped(m).value, Failure(InvalidData(SubjectError)))
    ensures m.kind != Bulletin && SubjectOk(PostTyped(m).value.subject) && m.connection.None? ==>
              r == Sent(PostTyped(m).value, Failure(NullReference))
    ensures m.kind != Bulletin && SubjectOk(PostTyped(m).value.subject) && m.connection.Some? && !Answered(m, write, arrival) ==>
              r.result == Failure(NoConnection(ConnectionLost)) && r.message.connection.Some? && r.message.connection.value.status == NotConnected
    ensures m.kind != Bulletin && SubjectOk(PostTyped(m).value.subject) && Answered(m, write, arrival) && !arrival.value.value.Str? ==>
              r.result == Failure(NullReference)
    ensures r.result.Success? <==>
              m.kind != Bulletin && SubjectOk(PostTyped(m).value.subject) && Answered(m, write, arrival) && arrival.value.value.Str?
    ensures r.result.Success? ==> r.result.value == Ok || r.result.value == PostNoFolder
  {
    match PostTyped(m)
    case Failure(e) => Sent(m, Failure(e))
    case Success(typed) =>
      if typed.subject.None? then Sent(typed, Failure(NullReference))
      else if |typed.subject.value| < 1 then Sent(typed, Failure(InvalidData(SubjectError)))
      else if typed.connection.None? then Sent(typed, Failure(NullReference))
      else
        var answer := SendAndRead(typed.connection.value, PostRequest(typed), Writing(typed, write), arrival);
        var after := typed.(connection := Some(answer.conn));
        match answer.value
        case Failure(e) => Sent(after, Failure(e))
        case Success(reply) =>
          match ReplyString(reply)
          case Failure(e) => Sent(after, Failure(e))
          case Success(s) => Sent(after, Success(if s == "message_add" then Ok else PostNoFolder))
  }

  /** The type `page` gives a message, or the refusal. */
  function PageTyped(m: Message): (r: Result<Message, UaError>)
    ensures r.Success? <==> m.kind != Bulletin
    ensures r.Failure? ==> r.error == InvalidOperation(PageTypeError)
    ensures r.Success? ==> r.value == m.(kind := Page)
  {
    match m.kind
    case NoType => Success(m.(kind := Page))
    case Post => Success(m.(kind := Page))
    case Page => Success(m)
    case Bulletin => Failure(InvalidOperation(PageTypeError))
  }

  /** The request `page` sends: `<request="user_contact">` with the recipient id and the text. */
  function PageRequest(m: Message): (r: Node)
    ensures r.name == "request" && r.value == Str("user_contact")
    ensures r.children == [WithInteger("toid", m.toid), WithString("text", m.body.GetOr([]))]
  {
    AddValue(AddValue(WithString("request", "user_contact"), "toid", Int(m.toid)), "text", Str(m.body.GetOr([])))
  }

  /** What `page` makes of the server's answer; any other answer is an unrecoverable error. */
  function PageReason(s: string): (r: Result<Reason, UaError>)
    ensures r.Success? <==> s == "user_contact" || s == "user_busy" || s == "user_not_on"
    ensures r.Failure? ==> r.error == Fatal(UnhandledPage)
  {
    if s == "user_contact" then Success(Ok)
    else if s == "user_busy" then Success(PageBusy)
    else if s == "user_not_on" then Success(PageUnavail)
    else Failure(Fatal(UnhandledPage))
  }

  /** `page()`, with the same parameters as `post()`. */
  function PageMessage(m: Message, write: Outcome<string>, arrival: Option<Node>): (r: Sent)
    ensures m.kind == Bulletin ==> r == Sent(m, Failure(InvalidOperation(PageTypeError)))
    ensures m.kind != Bulletin ==> r.message.kind == Page
    ensures m.kind != Bulletin ==> r.message.(connection := m.connection) == m.(kind := Page)
    ensures m.kind != Bulletin && m.connection.None? ==> r.result == Failure(NullReference)
    ensures m.kind != Bulletin && m.connection.Some? && !Answered(m, write, arrival) ==>
              r.result == Failure(NoConnection(ConnectionLost)) && r.message.connection.Some? && r.message.connection.value.status == NotConnected
    ensures m.kind != Bulletin && Answered(m, write, arrival) && !arrival.value.value.Str? ==>
              r.result == Failure(NullReference)
    ensures r.result.Success? ==> m.kind != Bulletin && Answered(m, write, arrival) && arrival.value.value.Str?
  {
    match PageTyped(m)
    case Failure(e) => Sent(m, Failure(e))
    case Success(typed) =>
      if typed.connection.None? then Sent(typed, Failure(NullReference))
      else
        var answer := SendAndRead(typed.connection.value, PageRequest(typed), Writing(typed, write), arrival);
        var after := typed.(connection := Some(answer.conn));
        match answer.value
        case Failure(e) => Sent(after, Failure(e))
        case Success(reply) =>
          match ReplyString(reply)
          case Failure(e) => Sent(after, Failure(e))
          case Success(s) => Sent(after, PageReason(s))
  }

  // ---------------------------------------------------------------- properties

  /** The post request holds the folder id, the subject and the text, in that order, and then
      the recipient id exactly when there is a recipient. */
  lemma PostRequestShape(m: Message)
    requires m.subject.Some? && m.body.Some?
    ensures var r := PostRequest(m);
            r.name == "request" && r.value == Str("message_add") &&
            r.children == [WithInteger("folderid", m.folderid), WithString("subject", m.subject.value),
                           WithString("text", m.body.value)] +
                          (if m.toid != -1 then [WithInteger("toid", m.toid)] else [])
  {
  }

  /** The post request reads back: a server looking up its children by name finds the folder
      id, the subject and the text it was given, and a `toid` exactly when there is a
      recipient. */
  lemma PostRequestReadsBack(m: Message)
    requires m.subject.Some? && m.body.Some?
    ensures GetChild(PostRequest(m), "toid").Some? <==> m.toid != -1
    ensures GetChild(PostRequest(m), "folderid") == Some(WithInteger("folderid", m.folderid))
    ensures GetChild(PostRequest(m), "subject") == Some(WithString("subject", m.subject.value))
    ensures GetChild(PostRequest(m), "text") == Some(WithString("text", m.body.value))
  {
    PostRequestShape(m);
    PostFieldsFound(PostRequest(m).children, m.folderid, m.subject.value, m.body.value, m.toid);
  }

  /** Where each field of a post request is found, stated for any such child list. */
  lemma PostFieldsFound(cs: seq<Node>, folderid: Int32, subject: string, text: string, toid: Int32)
    requires cs == [WithInteger("folderid", folderid), WithString("subject", subject), WithString("text", text)] +
                   (if toid != -1 then [WithInteger("toid", toid)] else [])
    ensures FirstMatch(cs, "toid").Some? <==> toid != -1
    ensures FirstMatch(cs, "folderid") == Some(WithInteger("folderid", folderid))
    ensures FirstMatch(cs, "subject") == Some(WithString("subject", subject))
    ensures FirstMatch(cs, "text") == Some(WithString("text", text))
  {
    var first := [WithInteger("folderid", folderid), WithString("subject", subject), WithString("text", text)];
    assert cs[..3] == first;
    LeadingFieldsFound(cs);
    if toid != -1 {
      assert |cs| == 4 && cs[3] == WithInteger("toid", toid);
      FirstMatchAt(cs, "toid", 3);
    } else {
      assert cs == first;
      TextFieldsHaveNoToid(cs);
    }
  }

  /** The three leading fields of a post request are each found where they stand. */
  lemma LeadingFieldsFound(cs: seq<Node>)
    requires |cs| >= 3 && cs[0].name == "folderid" && cs[1].name == "subject" && cs[2].name == "text"
    ensures FirstMatch(cs, "folderid") == Some(cs[0])
    ensures FirstMatch(cs, "subject") == Some(cs[1])
    ensures FirstMatch(cs, "text") == Some(cs[2])
  {
    var rest := cs[1..];
    assert rest[0] == cs[1] && rest[1..] == cs[2..] && cs[2..][0] == cs[2];
    FirstMatchHead(cs, "folderid");
    FirstMatchSkip(cs, "subject");
    FirstMatchHead(rest, "subject");
    FirstMatchSkip(cs, "text");
    FirstMatchSkip(rest, "text");
    FirstMatchHead(cs[2..], "text");
  }

  /** Three children named otherwise hold no recipient. */
  lemma TextFieldsHaveNoToid(cs: seq<Node>)
    requires |cs| == 3 && cs[0].name == "folderid" && cs[1].name == "subject" && cs[2].name == "text"
    ensures FirstMatch(cs, "toid").None?
  {
    assert forall c :: c in cs ==> c.name != "toid";
  }

  /** The page request holds the recipient id and then the text, nothing else. */
  lemma PageRequestReadsBack(m: Message)
    requires m.body.Some?
    ensures PageRequest(m).name == "request" && PageRequest(m).value == Str("user_contact")
    ensures PageRequest(m).children == [WithInteger("toid", m.toid), WithString("text", m.body.value)]
  {
  }

  /** The three known answers to a page map to three different reasons, and each reason
      comes from exactly one answer. */
  lemma PageReasonsDistinct(s: string)
    ensures PageReason(s) == Success(Ok) <==> s == "user_contact"
    ensures PageReason(s) == Success(PageBusy) <==> s == "user_busy"
    ensures PageReason(s) == Success(PageUnavail) <==> s == "user_not_on"
    ensures PageReason(s).Failure? <==> s != "user_contact" && s != "user_busy" && s != "user_not_on"
  {
  }

  /** A post that reaches the server and gets a string answer is accepted exactly when the
      answer is "message_add", and the connection stays up. */
  lemma PostAnswer(m: Message, write: Outcome<string>, reply: Node)
    requires m.kind != Bulletin && PostTyped(m).value.subject.Some? && PostTyped(m).value.subject.value != []
    requires m.connection.Some? && m.connection.value.status == Connected
    requires m.body.Some? && write.Pass? && reply.value.Str?
    ensures PostMessage(m, write, Some(reply)).result == Success(if reply.value.s == "message_add" then Ok else PostNoFolder)
    ensures PostMessage(m, write, Some(reply)).message.connection.value.status == Connected
  {
    var typed := PostTyped(m).value;
    var answer := SendAndRead(typed.connection.value, PostRequest(typed), Writing(typed, write), Some(reply));
    assert answer.value == Success(reply);
  }

  /** A page that reaches the server and gets a string answer reports the reason that answer
      names, and the connection stays up. */
  lemma PageAnswer(m: Message, write: Outcome<string>, reply: Node)
    requires m.kind != Bulletin && m.connection.Some? && m.connection.value.status == Connected
    requires m.body.Some? && write.Pass? && reply.value.Str?
    ensures PageMessage(m, write, Some(reply)).result == PageReason(reply.value.s)
    ensures PageMessage(m, write, Some(reply)).message.connection.value.status == Connected
  {
    var typed := PageTyped(m).value;
    var answer := SendAndRead(typed.connection.value, PageRequest(typed), Writing(typed, write), Some(reply));
    assert answer.value == Success(reply);
  }

  /** A post whose body is null never reaches the server: the write fails, the connection is
      dropped and the post reports the connection as lost. */
  lemma NullBodyLosesConnection(m: Message, write: Outcome<string>, arrival: Option<Node>)
    requires m.kind != Bulletin && PostTyped(m).value.subject.Some? && PostTyped(m).value.subject.value != []
    requires m.connection.Some? && m.body.None?
    ensures PostMessage(m, write, arrival).result == Failure(NoConnection(ConnectionLost))
    ensures PostMessage(m, write, arrival).message.connection.value.status == NotConnected
  {
  }

  /** Posting is idempotent on the type: a message that has been through `post` is a post, and
      posting it again changes neither its type nor its subject. */
  lemma PostTypeSettles(m: Message)
    requires PostTyped(m).Success?
    ensures PostTyped(PostTyped(m).value) == Success(PostTyped(m).value)
  {
  }

  /** Paging a post and then posting it again diverts it: the subject is replaced. */
  lemma PageThenPostDiverts(m: Message)
    requires m.kind == Post
    ensures PostTyped(PageTyped(m).value).value.subject == Some(DivertedSubject)
    ensures PostTyped(PageTyped(m).value).value.kind == Post
  {
  }
}

=== FILE: registry.dfy ===
/** The `UA` object registry and the process-wide single instance.

    A `UA` keeps one object per class, looked up by class; the model keys the table by the
    class name. The static single instance is a separate record, `Globals`, that the caller
    threads through, and the "set once" rule that `setSingleInstance` and every holder's
    `setUAInstance` follow is stated once, in `SetOnce`. */
module Registry {
  import opened Wrappers
  import opened Errors

  /** One `UA` object: its table of registered objects, keyed by class name. */
  datatype Ua<T> = Ua(objects: map<string, T>)

  /** The class name a `UAConnection` is registered under. */
  const ConnectionClass := "UAConnection"

  const SingleInstanceError := "Cannot call setSingleInstance() more than once"
  const InstanceError := "Can't set an object's UA instance more than once"

  /** A new `UA`: nothing registered. */
  function NewUa<T>(): (u: Ua<T>)
    ensures forall cls :: Get(u, cls).None?
  {
    Ua(map[])
  }

  /** `register`: `o` is stored under its class, replacing any object of the same class. */
  function Register<T>(u: Ua<T>, cls: string, o: T): (r: Ua<T>)
    ensures Get(r, cls) == Some(o)
    ensures forall other :: other != cls ==> Get(r, other) == Get(u, other)
  {
    Ua(u.objects[cls := o])
  }

  /** `unregister`: the class is removed; nothing else changes. */
  function Unregister<T>(u: Ua<T>, cls: string): (r: Ua<T>)
    ensures Get(r, cls).None?
    ensures forall other :: other != cls ==> Get(r, other) == Get(u, other)
  {
    Ua(u.objects - {cls})
  }

  /** `get`: the object registered under the class, or null. */
  function Get<T>(u: Ua<T>, cls: string): (r: Option<T>)
    ensures r.Some? <==> cls in u.objects
    ensures r.Some? ==> r.value == u.objects[cls]
  {
    if cls in u.objects then Some(u.objects[cls]) else None
  }

  /** Registering again under the same class keeps only the later object, and unregistering
      afterwards leaves the table as if the class had never been registered. */
  lemma RegisterThenUnregister<T>(u: Ua<T>, cls: string, o1: T, o2: T)
    ensures Register(Register(u, cls, o1), cls, o2) == Register(u, cls, o2)
    ensures Unregister(Register(u, cls, o1), cls) == Unregister(u, cls)
    ensures Get(u, cls).None? ==> Unregister(Register(u, cls, o1), cls) == u
  {
    if Get(u, cls).None? {
      assert u.objects - {cls} == u.objects;
    }
  }

  // ---------------------------------------------------------------- set once

  /** The rule both `setSingleInstance` and `setUAInstance` follow: an unset slot takes the
      instance offered, which may itself be null; a set slot refuses with `error`. */
  function SetOnce<X>(current: Option<X>, offered: Option<X>, error: string): (r: Result<Option<X>, UaError>)
    ensures r.Success? <==> current.None?
    ensures r.Success? ==> r.value == offered
    ensures r.Failure? ==> r.error == Fatal(error)
  {
    if current.None? then Success(offered) else Failure(Fatal(error))
  }

  /** A slot that has been set to an instance refuses any later instance. */
  lemma SetOnceTwice<X>(offered: X, again: Option<X>, error: string)
    ensures SetOnce(None, Some(offered), error) == Success(Some(offered))
    ensures SetOnce(SetOnce(None, Some(offered), error).value, again, error) == Failure(Fatal(error))
  {
  }

  // ---------------------------------------------------------------- the single instance

  /** The static single instance, null until set. */
  datatype Globals<T> = Globals(single: Option<Ua<T>>)

  function NoGlobals<T>(): (g: Globals<T>)
    ensures !SingleInstance(g) && GetInstance(g).None?
  {
    Globals(None)
  }

  /** `setSingleInstance` called on `self`. */
  function SetSingleInstance<T>(g: Globals<T>, self: Ua<T>): (r: Result<Globals<T>, UaError>)
    ensures r.Success? <==> !SingleInstance(g)
    ensures r.Success? ==> SingleInstance(r.value) && GetInstance(r.value) == Some(self)
    ensures r.Failure? ==> r.error == Fatal(SingleInstanceError)
  {
    var single :- SetOnce(g.single, Some(self), SingleInstanceError);
    Success(Globals(single))
  }

  /** `singleInstance()`: whether an instance has been set. */
  function SingleInstance<T>(g: Globals<T>): (r: bool)
    ensures r <==> GetInstance(g).Some?
  {
    g.single.Some?
  }

  /** `getInstance()`: the instance, or null. */
  function GetInstance<T>(g: Globals<T>): Option<Ua<T>> {
    g.single
  }

  /** The instance a holder's no-argument constructor starts with: the single instance in
      single-instance mode, and null otherwise. */
  function DefaultInstance<T>(g: Globals<T>): (r: Option<Ua<T>>)
    ensures r.Some? <==> SingleInstance(g)
    ensures r.Some? ==> r == GetInstance(g)
  {
    if SingleInstance(g) then GetInstance(g) else None
  }

  /** Once set, the single instance stays what it was: a second call fails whatever `UA` it is
      made on. */
  lemma SingleInstanceSetOnce<T>(g: Globals<T>, first: Ua<T>, second: Ua<T>)
    requires !SingleInstance(g)
    ensures SetSingleInstance(g, first).Success?
    ensures SetSingleInstance(SetSingleInstance(g, first).value, second) == Failure(Fatal(SingleInstanceError))
    ensures GetInstance(SetSingleInstance(g, first).value) == Some(first)
  {
  }

  /** A holder (`User`, `FolderList`, `UserList`) in single-instance mode already has its
      instance from its constructor, so `setUAInstance` always fails there; without a single
      instance it succeeds once. */
  lemma HolderInstance<T>(g: Globals<T>, offered: Option<Ua<T>>)
    ensures SingleInstance(g) ==>
              SetOnce(DefaultInstance(g), offered, InstanceError) == Failure(Fatal(InstanceError))
    ensures !SingleInstance(g) ==>
              SetOnce(DefaultInstance(g), offered, InstanceError) == Success(offered)
  {
  }
}

=== FILE: session.dfy ===
/** A user's session: connecting through the `UA` registry, logging in and out, the stored
    login reply, and the login banner. */
module Sessions {
  import opened Wrappers
  import opened Errors
  import opened Edf
  import opened Registry
  import Connection

  datatype SessionStatus = NotConnected | ConnectFailed | Connected | LoggedIn | LoggedOut | LostConnection

  /** A session: its status, its `UA` (null when constructed with null), the client name and
      protocol it announces at login, and the reply of the login that succeeded, if any. */
  datatype Session = Session(
    status: SessionStatus,
    ua: Option<Ua<Connection.Conn>>,
    client: string,
    protocol: string,
    user: Option<Node>)

  const DefaultClient := "JEDF 0.2-dev"
  const DefaultProtocol := "2.6-beta17"
  const MultipleModeError := "UASession() cannot be constructed in multiple instance mode"
  const NoBanner := "No banner"
  const ShadowStatus := 256

  /** A session after an operation, and what the operation returned. */
  datatype Done<+T> = Done(session: Session, value: T)

  /** `new UASession(instance)`. */
  function WithInstance(instance: Option<Ua<Connection.Conn>>): (s: Session)
    ensures s.status == NotConnected && s.ua == instance && s.user.None?
    ensures s.client == DefaultClient && s.protocol == DefaultProtocol
  {
    Session(NotConnected, instance, DefaultClient, DefaultProtocol, None)
  }

  /** `new UASession()`: only in single-instance mode, with the single instance. */
  function NewSession(g: Globals<Connection.Conn>): (r: Result<Session, UaError>)
    ensures r.Success? <==> SingleInstance(g)
    ensures r.Success? ==> r.value == WithInstance(GetInstance(g)) && r.value.ua.Some?
    ensures r.Failure? ==> r.error == Fatal(MultipleModeError)
  {
    if SingleInstance(g) then Success(WithInstance(GetInstance(g))) else Failure(Fatal(MultipleModeError))
  }

  /** `setClientName`. */
  function SetClientName(s: Session, name: string): (r: Session)
    ensures r.client == name && r.(client := s.client) == s
  {
    s.(client := name)
  }

  /** `setClientProtocol`. */
  function SetClientProtocol(s: Session, version: string): (r: Session)
    ensures r.protocol == version && r.(protocol := s.protocol) == s
  {
    s.(protocol := version)
  }

  /** `connect(host, port)`: a new connection is registered in the `UA`, replacing any earlier
      one, and then connected; `io` is how the socket and the handshake go. The session says
      "connected" whether or not the connection did, because `UAConnection.connect` reports
      failure by returning false, which is not looked at. Only a null `UA` makes the session
      "connect failed". */
  function Connect(s: Session, io: Connection.ConnectIo): (r: Session)
    ensures s.ua.None? ==> r == s.(status := ConnectFailed)
    ensures s.ua.Some? ==> r.status == Connected && r.ua.Some?
    ensures s.ua.Some? ==>
              Get(r.ua.value, ConnectionClass) == Some(Connection.Connect(Connection.Fresh(), io).conn)
    ensures s.ua.Some? ==>
              forall cls :: cls != ConnectionClass ==> Get(r.ua.value, cls) == Get(s.ua.value, cls)
    ensures r.user == s.user && r.client == s.client && r.protocol == s.protocol
  {
    if s.ua.None? then s.(status := ConnectFailed)
    else
      var c := Connection.Connect(Connection.Fresh(), io).conn;
      s.(ua := Some(Register(s.ua.value, ConnectionClass, c)), status := Connected)
  }

  /** The session reports "connected" even when the socket could not be opened, while the
      registered connection itself says "connect failed". */
  lemma ConnectIgnoresFailure(s: Session, why: string, io: Connection.ConnectIo)
    requires s.ua.Some? && io.socket == Fail(why)
    ensures Connect(s, io).status == Connected
    ensures Get(Connect(s, io).ua.value, ConnectionClass).value.status == Connection.ConnectFailed
    ensures !Connection.Connect(Connection.Fresh(), io).value
  {
    Connection.ConnectOutcome(Connection.Fresh(), io);
  }

  /** `sendAndRead`: through the connection registered in the `UA`; a null `UA` or a missing
      connection is a null reference. The registered connection is replaced by its state
      afterwards. */
  function SendAndRead(s: Session, edf: Node, write: Outcome<string>, arrival: Option<Node>): (r: Done<Result<Node, UaError>>)
    ensures s.ua.None? || Get(s.ua.value, ConnectionClass).None? ==> r == Done(s, Failure(NullReference))
    ensures r.value.Success? <==>
              s.ua.Some? && Get(s.ua.value, ConnectionClass).Some? &&
              Get(s.ua.value, ConnectionClass).value.status == Connection.Connected &&
              write.Pass? && arrival.Some?
    ensures r.value.Success? ==> r.value.value == arrival.value
    ensures r.session.(ua := s.ua) == s
    ensures s.ua.Some? && Get(s.ua.value, ConnectionClass).Some? ==>
              var c := Get(s.ua.value, ConnectionClass).value;
              r.session.ua.Some? &&
              Get(r.session.ua.value, ConnectionClass) == Some(Connection.SendAndRead(c, edf, write, arrival).conn) &&
              forall cls :: cls != ConnectionClass ==> Get(r.session.ua.value, cls) == Get(s.ua.value, cls)
  {
    if s.ua.None? then Done(s, Failure(NullReference))
    else
      match Get(s.ua.value, ConnectionClass)
      case None => Done(s, Failure(NullReference))
      case Some(c) =>
        var answer := Connection.SendAndRead(c, edf, write, arrival);
        Done(s.(ua := Some(Register(s.ua.value, ConnectionClass, answer.conn))), answer.value)
  }

  // ---------------------------------------------------------------- login

  /** The login request: `<request="user_login">` with the name, the password, the client and
      the protocol, then the host address twice (as `hostname` and as `address`) when there is
      one, then `status=256` for a shadow login. */
  function LoginRequest(s: Session, username: string, password: string, address: Option<string>,
                        shadow: bool): Node {
    var base := AddValue(AddValue(AddValue(AddValue(WithString("request", "user_login"),
                  "name", Str(username)), "password", Str(password)),
                  "client", Str(s.client)), "protocol", Str(s.protocol));
    var located := if address.Some? then
                     AddValue(AddValue(base, "hostname", Str(address.value)), "address", Str(address.value))
                   else base;
    if shadow then AddValue(located, "status", Int(ShadowStatus)) else located
  }

  /** The children of the login request, in order. */
  lemma LoginRequestShape(s: Session, username: string, password: string, address: Option<string>, shadow: bool)
    ensures var r := LoginRequest(s, username, password, address, shadow);
            r.name == "request" && r.value == Str("user_login") &&
            r.children ==
              [WithString("name", username), WithString("password", password),
               WithString("client", s.client), WithString("protocol", s.protocol)] +
              (if address.Some? then [WithString("hostname", address.value), WithString("address", address.value)] else []) +
              (if shadow then [WithInteger("status", ShadowStatus)] else [])
  {
  }

  /** `login(username, password, address, shadow)`: the reply's value must be a string (a
      null `sValue` is a null reference). "user_login" means success: the reply is stored as
      the user and the session is logged in. Any other string is a refusal that changes
      nothing but the connection. */
  function Login(s: Session, username: string, password: string, address: Option<string>, shadow: bool,
                 write: Outcome<string>, arrival: Option<Node>): (r: Done<Result<bool, UaError>>)
    ensures var sent := SendAndRead(s, LoginRequest(s, username, password, address, shadow), write, arrival);
            sent.value.Failure? ==> r.value == Failure(sent.value.error)
    ensures var sent := SendAndRead(s, LoginRequest(s, username, password, address, shadow), write, arrival);
            sent.value.Success? && !arrival.value.value.Str? ==> r.value == Failure(NullReference)
    ensures var sent := SendAndRead(s, LoginRequest(s, username, password, address, shadow), write, arrival);
            sent.value.Success? && arrival.value.value.Str? ==>
              r.value == Success(arrival.value.value.s == "user_login")
  {
    var sent := SendAndRead(s, LoginRequest(s, username, password, address, shadow), write, arrival);
    match sent.value
    case Failure(e) => Done(sent.session, Failure(e))
    case Success(reply) =>
      if !reply.value.Str? then Done(sent.session, Failure(NullReference))
      else if reply.value.s == "user_login" then
        Done(sent.session.(user := Some(reply), status := LoggedIn), Success(true))
      else
        Done(sent.session, Success(false))
  }

  /** `login(username, password)`: no address and no shadow flag. */
  function LoginPlain(s: Session, username: string, password: string, write: Outcome<string>,
                      arrival: Option<Node>): (r: Done<Result<bool, UaError>>)
    ensures r.value == Success(true) <==>
              SendAndRead(s, LoginRequest(s, username, password, None, false), write, arrival).value.Success? &&
              arrival.value.value == Str("user_login")
  {
    Login(s, username, password, None, false, write, arrival)
  }

  /** The two-argument login sends exactly the four base children. */
  lemma LoginPlainRequest(s: Session, username: string, password: string)
    ensures LoginRequest(s, username, password, None, false).children ==
              [WithString("name", username), WithString("password", password),
               WithString("client", s.client), WithString("protocol", s.protocol)]
  {
    LoginRequestShape(s, username, password, None, false);
  }

  /** Login succeeds exactly when the server answers "user_login"; then the session is logged
      in and holds the answer. A refusal or a failure leaves the status and the stored user
      as they were. */
  lemma LoginOutcome(s: Session, username: string, password: string, address: Option<string>, shadow: bool,
                     write: Outcome<string>, arrival: Option<Node>)
    ensures var r := Login(s, username, password, address, shadow, write, arrival);
            r.value == Success(true) <==>
              SendAndRead(s, LoginRequest(s, username, password, address, shadow), write, arrival).value.Success? &&
              arrival.value.value == Str("user_login")
    ensures var r := Login(s, username, password, address, shadow, write, arrival);
            r.value == Success(true) ==> r.session.status == LoggedIn && r.session.user == arrival
    ensures var r := Login(s, username, password, address, shadow, write, arrival);
            r.value != Success(true) ==> r.session.status == s.status && r.session.user == s.user
    ensures var r := Login(s, username, password, address, shadow, write, arrival);
            r.session.client == s.client && r.session.protocol == s.protocol
  {
  }

  // ---------------------------------------------------------------- after login

  /** `getUserId`: -1 with nobody logged in; otherwise the integer of the stored reply's
      `userid` child, a null reference when there is none and a type error when it is not an
      integer. */
  function GetUserId(s: Session): (r: Result<Int32, UaError>)
    ensures s.user.None? ==> r == Success(-1)
    ensures s.user.Some? && GetChild(s.user.value, "userid").None? ==> r == Failure(NullReference)
    ensures s.user.Some? && GetChild(s.user.value, "userid").Some? ==> r == GetInteger(GetChild(s.user.value, "userid").value)
  {
    match s.user
    case None => Success(-1)
    case Some(u) =>
      match GetChild(u, "userid")
      case None => Failure(NullReference)
      case Some(c) => GetInteger(c)
  }

  /** After a login the server accepts over a live connection, `getUserId` reads the id from
      the server's answer: the first `userid` child, when it holds an integer. */
  lemma LoginThenUserId(s: Session, username: string, password: string, address: Option<string>, shadow: bool,
                        write: Outcome<string>, reply: Node, id: Int32)
    requires s.ua.Some? && Get(s.ua.value, ConnectionClass).Some?
    requires Get(s.ua.value, ConnectionClass).value.status == Connection.Connected && write.Pass?
    requires reply.value == Str("user_login")
    requires GetChild(reply, "userid") == Some(WithInteger("userid", id))
    ensures Login(s, username, password, address, shadow, write, Some(reply)).value == Success(true)
    ensures GetUserId(Login(s, username, password, address, shadow, write, Some(reply)).session) == Success(id)
  {
    LoginOutcome(s, username, password, address, shadow, write, Some(reply));
  }

  /** `logout`: sends `<request="user_logout"/>` and reports only a failure to get a reply; the
      session status is not changed. */
  function Logout(s: Session, write: Outcome<string>, arrival: Option<Node>): (r: Done<Outcome<UaError>>)
    ensures r.session.status == s.status && r.session.user == s.user
    ensures r.value.Fail? <==> SendAndRead(s, WithString("request", "user_logout"), write, arrival).value.Failure?
  {
    var sent := SendAndRead(s, WithString("request", "user_logout"), write, arrival);
    Done(sent.session, if sent.value.Failure? then Fail(sent.value.error) else Pass)
  }

  /** `loginBanner`: the string of the `banner` child of the answer to
      `<request="system_list"/>`. Every failure on the way (no `UA`, no connection, no reply,
      no banner child) gives "No banner"; a banner child without a string value gives null. */
  function LoginBanner(s: Session, write: Outcome<string>, arrival: Option<Node>): (r: Done<Option<string>>)
    ensures r.session.status == s.status && r.session.user == s.user
  {
    var sent := SendAndRead(s, WithString("request", "system_list"), write, arrival);
    match sent.value
    case Failure(_) => Done(sent.session, Some(NoBanner))
    case Success(reply) =>
      match GetChild(reply, "banner")
      case None => Done(sent.session, Some(NoBanner))
      case Some(b) => Done(sent.session, if b.value.Str? then Some(b.value.s) else None)
  }

  /** The banner falls back to "No banner" exactly when no reply came or the reply has no
      banner; otherwise it is the first banner child's string, or null. */
  lemma BannerFallback(s: Session, write: Outcome<string>, arrival: Option<Node>)
    ensures var sent := SendAndRead(s, WithString("request", "system_list"), write, arrival);
            var r := LoginBanner(s, write, arrival);
            (sent.value.Failure? || GetChildren(sent.value.value, "banner") == []) ==> r.value == Some(NoBanner)
    ensures var sent := SendAndRead(s, WithString("request", "system_list"), write, arrival);
            var r := LoginBanner(s, write, arrival);
            sent.value.Success? && GetChildren(sent.value.value, "banner") != [] ==>
              var b := GetChildren(sent.value.value, "banner")[0];
              r.value == (if b.value.Str? then Some(b.value.s) else None)
  {
    var sent := SendAndRead(s, WithString("request", "system_list"), write, arrival);
    if sent.value.Success? {
      GetChildIsFirstOfGetChildren(sent.value.value, "banner");
    }
  }
}

=== FILE: user.dfy ===
/** Reading a user record out of a `<user=id>` tree, and the constructors that fetch one by
    name from the server. */
module Users {
  import opened Wrappers
  import opened Errors
  import opened Edf
  import opened CaseFold
  import opened Registry
  import Connection

  /** A user: `id` and `accesslevel` are -1 and `name` is null until the record is filled. */
  datatype User = User(id: Int32, name: Option<string>, accesslevel: Int32)

  const RootError := "Expected '<user=[number]></>"
  const NameError := "Expected <name=[string]/>"
  const LevelError := "Expected <accesslevel=[number]/>"
  const MissingError := "<user> is missing a required element"

  /** `new User()`: the blank record. */
  function Blank(): (u: User)
    ensures u.name.None? && u.id == -1 && u.accesslevel == -1
  {
    User(-1, None, -1)
  }

  /** The fields gathered while walking the children. */
  datatype Fields = Fields(name: Option<string>, accesslevel: Int32)

  /** What one child does: `name` must be a non-empty string and `accesslevel` an integer, a
      later one replacing an earlier one; any other child is skipped. */
  function Absorb(f: Fields, c: Node): Result<Fields, UaError> {
    if c.name == "name" then
      if !c.value.Str? || c.value.s == [] then Failure(WrongEdf(NameError))
      else Success(f.(name := Some(c.value.s)))
    else if c.name == "accesslevel" then
      if !c.value.Int? then Failure(WrongEdf(LevelError))
      else Success(f.(accesslevel := c.value.i))
    else
      Success(f)
  }

  function Scan(cs: seq<Node>, f: Fields): Result<Fields, UaError>
    decreases |cs|
  {
    if cs == [] then Success(f)
    else
      var g :- Absorb(f, cs[0]);
      Scan(cs[1..], g)
  }

  /** `populateUser`: the root must be named "user" in any case and hold the user's id as an
      integer; a name is required, and so is an access level other than -1. */
  function Populate(t: Node): (r: Result<User, UaError>)
    ensures !RootOk(t) ==> r == Failure(WrongEdf(RootError))
    ensures r.Success? ==> RootOk(t) && r.value.id == t.value.i && r.value.name.Some? && r.value.accesslevel != -1
  {
    if !EqualsIgnoreCase(t.name, "user") || !t.value.Int? then
      Failure(WrongEdf(RootError))
    else
      var f :- Scan(t.children, Fields(None, -1));
      if f.name.None? || f.accesslevel == -1 then Failure(WrongEdf(MissingError))
      else Success(User(t.value.i, f.name, f.accesslevel))
  }

  // ---------------------------------------------------------------- the same rules, stated per child

  predicate RootOk(t: Node) {
    EqualsIgnoreCase(t.name, "user") && t.value.Int?
  }

  function Complaint(c: Node): Option<UaError> {
    if c.name == "name" && !(c.value.Str? && c.value.s != []) then Some(WrongEdf(NameError))
    else if c.name == "accesslevel" && !c.value.Int? then Some(WrongEdf(LevelError))
    else None
  }

  predicate ChildrenOk(cs: seq<Node>) {
    forall i :: 0 <= i < |cs| ==> Complaint(cs[i]).None?
  }

  function FirstComplaint(cs: seq<Node>): Option<UaError>
    decreases |cs|
  {
    if cs == [] then None
    else if Complaint(cs[0]).Some? then Complaint(cs[0])
    else FirstComplaint(cs[1..])
  }

  /** The access level the record ends with: the last `accesslevel` child's, or -1. */
  function Level(cs: seq<Node>): Int32 {
    LastInteger(Matching(cs, "accesslevel"), -1)
  }

  lemma {:induction false} FirstComplaintFound(cs: seq<Node>)
    ensures FirstComplaint(cs).None? <==> ChildrenOk(cs)
    decreases |cs|
  {
    if cs != [] {
      FirstComplaintFound(cs[1..]);
      if ChildrenOk(cs[1..]) && Complaint(cs[0]).None? {
        forall i | 0 <= i < |cs|
          ensures Complaint(cs[i]).None?
        {
          if i > 0 { assert cs[i] == cs[1..][i - 1]; }
        }
      }
      if ChildrenOk(cs) {
        assert Complaint(cs[0]).None?;
        forall i | 0 <= i < |cs[1..]|
          ensures Complaint(cs[1..][i]).None?
        {
          assert cs[1..][i] == cs[i + 1];
        }
      }
    }
  }

  lemma AbsorbAgrees(f: Fields, c: Node)
    ensures Absorb(f, c).Failure? <==> Complaint(c).Some?
    ensures Absorb(f, c).Failure? ==> Absorb(f, c).error == Complaint(c).value
  {
  }

  /** The walk fails exactly when some child complains, with the first complaint. */
  lemma {:induction false} ScanFailure(cs: seq<Node>, f: Fields)
    ensures Scan(cs, f).Success? <==> FirstComplaint(cs).None?
    ensures Scan(cs, f).Failure? ==> Scan(cs, f).error == FirstComplaint(cs).value
    decreases |cs|
  {
    if cs != [] {
      AbsorbAgrees(f, cs[0]);
      if Absorb(f, cs[0]).Success? {
        ScanFailure(cs[1..], Absorb(f, cs[0]).value);
      }
    }
  }

  /** A successful walk ends with the last name, or the starting one when there is none. */
  lemma {:induction false} ScanName(cs: seq<Node>, f: Fields)
    requires Scan(cs, f).Success?
    ensures Scan(cs, f).value.name ==
              if Matching(cs, "name") == [] then f.name else Some(LastString(Matching(cs, "name")))
    decreases |cs|
  {
    if cs != [] {
      var g := Absorb(f, cs[0]).value;
      ScanName(cs[1..], g);
      LastOfCons(cs[0], Matching(cs[1..], "name"), 0);
    }
  }

  /** A successful walk ends with the last access level, or the starting one. */
  lemma {:induction false} ScanLevel(cs: seq<Node>, f: Fields)
    requires Scan(cs, f).Success?
    ensures Scan(cs, f).value.accesslevel == LastInteger(Matching(cs, "accesslevel"), f.accesslevel)
    decreases |cs|
  {
    if cs != [] {
      var g := Absorb(f, cs[0]).value;
      assert Scan(cs, f) == Scan(cs[1..], g);
      ScanLevel(cs[1..], g);
      var later := Matching(cs[1..], "accesslevel");
      if cs[0].name == "accesslevel" {
        assert Matching(cs, "accesslevel") == [cs[0]] + later;
        LastOfCons(cs[0], later, f.accesslevel);
        assert g.accesslevel == cs[0].value.i;
        if later != [] {
          ScanFailure(cs[1..], g);
          FirstComplaintFound(cs[1..]);
          var last := later[|later| - 1];
          assert last in cs[1..] && last.name == "accesslevel";
          assert Complaint(last).None?;
        }
      } else {
        assert Matching(cs, "accesslevel") == later;
        assert g.accesslevel == f.accesslevel;
      }
    }
  }

  /** `populateUser` against the per-child rules: it succeeds exactly when the root is right,
      no child complains, some child is a name and the last access level is not -1; the user
      then has the root's id, the last name and the last access level. Otherwise it reports
      the root, the first complaining child or the missing element, in that order. */
  lemma PopulateAgrees(t: Node)
    ensures Populate(t).Success? <==>
              RootOk(t) && ChildrenOk(t.children) && Matching(t.children, "name") != [] && Level(t.children) != -1
    ensures Populate(t).Success? ==>
              Populate(t).value == User(t.value.i, Some(LastString(Matching(t.children, "name"))), Level(t.children))
    ensures !RootOk(t) ==> Populate(t) == Failure(WrongEdf(RootError))
    ensures RootOk(t) && FirstComplaint(t.children).Some? ==> Populate(t) == Failure(FirstComplaint(t.children).value)
    ensures RootOk(t) && ChildrenOk(t.children) && (Matching(t.children, "name") == [] || Level(t.children) == -1) ==>
              Populate(t) == Failure(WrongEdf(MissingError))
  {
    var f0 := Fields(None, -1);
    ScanFailure(t.children, f0);
    FirstComplaintFound(t.children);
    if Scan(t.children, f0).Success? {
      ScanName(t.children, f0);
      ScanLevel(t.children, f0);
    }
  }

  /** An access level of -1 passes the type check but reads as "missing": a record whose only
      access level is -1 is refused even though it names the user. */
  lemma LevelMinusOneIsMissing(id: Int32, name: string)
    requires name != []
    ensures Populate(Node("user", Int(id), [WithString("name", name), WithInteger("accesslevel", -1)]))
         == Failure(WrongEdf(MissingError))
  {
    var cs := [WithString("name", name), WithInteger("accesslevel", -1)];
    var t := Node("user", Int(id), cs);
    assert cs[1..][1..] == [];
    assert Matching(cs, "accesslevel") == [cs[1]];
    assert Level(cs) == -1;
    assert ChildrenOk(cs);
    assert RootOk(t);
    PopulateAgrees(t);
  }

  // ---------------------------------------------------------------- fetching a user by name

  /** The request `getUser` sends: `<request="user_list"><name="..."/></>`. */
  function UserRequest(name: string): (r: Node)
    ensures r.name == "request" && r.value == Str("user_list")
    ensures |r.children| == 1 && r.children[0] == WithString("name", name)
  {
    AddValue(WithString("request", "user_list"), "name", Str(name))
  }

  /** `getUser`, given the reply: its first `user` child, or null. */
  function GetUser(reply: Node): (r: Option<Node>)
    ensures r.None? <==> GetChildren(reply, "user") == []
    ensures r.Some? ==> r.value == GetChildren(reply, "user")[0]
  {
    GetChildIsFirstOfGetChildren(reply, "user");
    GetChild(reply, "user")
  }

  /** What a by-name constructor does once it holds a `UA` (or null): a null instance fails
      before anything is sent; otherwise `reply` is how looking up the connection and
      `sendAndRead(UserRequest(name))` went. No `user` child leaves the blank record. */
  function Fetch(ua: Option<Registry.Ua<Connection.Conn>>, reply: Result<Node, UaError>): (r: Result<User, UaError>)
    ensures ua.None? ==> r == Failure(NullReference)
    ensures ua.Some? && reply.Failure? ==> r == Failure(reply.error)
    ensures ua.Some? && reply.Success? && GetUser(reply.value).None? ==> r == Success(Blank())
    ensures ua.Some? && reply.Success? && GetUser(reply.value).Some? ==> r == Populate(GetUser(reply.value).value)
  {
    if ua.None? then Failure(NullReference)
    else
      var answer :- reply;
      match GetUser(answer)
      case None => Success(Blank())
      case Some(u) => Populate(u)
  }

  /** `new User(name)`: the instance is the single instance, if any. */
  function ByName(g: Globals<Connection.Conn>, name: string, reply: Result<Node, UaError>): (r: Result<User, UaError>)
    ensures !SingleInstance(g) ==> r == Failure(NullReference)
    ensures SingleInstance(g) ==> r == Fetch(GetInstance(g), reply)
  {
    Fetch(DefaultInstance(g), reply)
  }

  /** `new User(name, instance)`: the instance is set after the no-argument constructor has
      run, so the set-once rule applies to it. */
  function ByNameWith(g: Globals<Connection.Conn>, name: string, instance: Option<Ua<Connection.Conn>>,
                      reply: Result<Node, UaError>): (r: Result<User, UaError>)
    ensures SingleInstance(g) ==> r == Failure(Fatal(InstanceError))
    ensures !SingleInstance(g) ==> r == Fetch(instance, reply)
  {
    var ua :- SetOnce(DefaultInstance(g), instance, InstanceError);
    Fetch(ua, reply)
  }

  /** In single-instance mode `new User(name, instance)` always fails, and `new User(name)`
      needs single-instance mode to get anywhere. */
  lemma ByNameModes(g: Globals<Connection.Conn>, name: string, instance: Option<Ua<Connection.Conn>>,
                    reply: Result<Node, UaError>)
    ensures SingleInstance(g) ==> ByNameWith(g, name, instance, reply) == Failure(Fatal(InstanceError))
    ensures !SingleInstance(g) ==> ByName(g, name, reply) == Failure(NullReference)
    ensures !SingleInstance(g) ==> ByNameWith(g, name, instance, reply) == Fetch(instance, reply)
  {
    HolderInstance(g, instance);
  }

  /** A fetched user that is not blank has the name and access level `populateUser` demands. */
  lemma FetchedUserIsComplete(ua: Option<Registry.Ua<Connection.Conn>>, reply: Result<Node, UaError>)
    requires Fetch(ua, reply).Success? && Fetch(ua, reply).value != Blank()
    ensures Fetch(ua, reply).value.name.Some? && Fetch(ua, reply).value.name.value != []
    ensures Fetch(ua, reply).value.accesslevel != -1
  {
    var u := GetUser(reply.value).value;
    PopulateAgrees(u);
    var names := Matching(u.children, "name");
    var last := names[|names| - 1];
    assert last in u.children && last.name == "name";
    FirstComplaintFound(u.children);
    assert Complaint(last).None?;
  }
}

=== FILE: wrappers.dfy ===
/** Failure-carrying result types shared by every module of the model.
    Java's `null` returns become `Option`, its exceptions become `Result` failures. */
module Wrappers {

  /** A value that may be absent; stands for a Java reference that may be null. */
  datatype Option<+T> = None | Some(value: T) {
    predicate IsFailure() { None? }

    function PropagateFailure<U>(): Option<U>
      requires None?
    {
      None
    }

    function Extract(): T
      requires Some?
    {
      value
    }

    function GetOr(default: T): T {
      match this
      case Some(v) => v
      case None => default
    }
  }

  /** Either a value or the error that was raised instead. */
  datatype Result<+R, +E> = Success(value: R) | Failure(error: E) {
    predicate IsFailure() { Failure? }

    function PropagateFailure<U>(): Result<U, E>
      requires Failure?
    {
      Failure(error)
    }

    function Extract(): R
      requires Success?
    {
      value
    }
  }

  /** An action that either completed or failed with an error and produced no value. */
  datatype Outcome<+E> = Pass | Fail(error: E)
}
